=== FILE: README.md ===
# Job-requisition analysis: a Dafny model

This project models the logic at the centre of a job-requisition analysis system in two apps.

**JobReqDelivery** lets a hiring manager fill in a four-step form. Its server then runs three model-backed agents in a bounded loop:

- a requirements analyzer;
- a job-market researcher;
- a professional recruiter.

Each agent's answer is pulled out of free text, repaired and parsed as JSON, and normalised into a total record. Token usage and cost are accumulated per agent. The client keeps a local history of analyses and of typed inputs, drives an autocomplete list from it, and folds server events into its state through a reducer.

**JobReqConsultant** is a chat variant of the same idea: a three-step consultation machine that accumulates usage as it goes.

The model has one module per part of the program:

| module | file | what it covers |
|---|---|---|
| `JsonRepair` | `json_repair.dfy` | candidate extraction, the truncation-repair scanner, comma stripping, `chatJSONWithUsage` |
| `Usage`, `Provider` | `usage.dfy` | usage merging and per-agent totals; model-name and cost rules of the OpenRouter provider |
| `Normalize`, `AnalyzerAgent`, `ResearcherAgent`, `RecruiterAgent`, `StrategyAgent` | `normalize.dfy` | each agent's defaulting of a partial model answer, and its failure message |
| `Orchestrator` | `orchestrator.dfy` | the analysis loop of at most three rounds, its success and failure paths |
| `Requisitions` | `requisitions.dfy` | the create, lookup and clarify routes over the in-memory stores |
| `HistoryStorage`, `StableSort` | `history_storage.dfy`, `stable_sort.dfy` | analysis and input history over an abstract key-value store; the stable sorts it uses |
| `AppContext`, `JobReqForm`, `AgentProgressView`, `InputHistoryHook` | `app_context.dfy`, `job_req_form.dfy`, `agent_progress.dfy`, `input_history_hook.dfy` | the client reducer and its state machines |
| `Consultant` | `consultant.dfy` | cost accumulation and the consultation step machine |
| `Types`, `JsString`, `Wrappers` | `types.dfy`, `js_string.dfy`, `wrappers.dfy` | shared records, the price table, JavaScript string built-ins, `Option`/`Result` |

Things outside the program become parameters:

- Model agents and `JSON.parse` are oracle functions.
- Fresh ids (`uuidv4`) and clocks are parameters.
- The browser's local storage is a map from keys to parsed contents, with a variant for text that does not parse.
- Costs are `real`.

How the analysis loop behaves, as the code has it:

- Each round calls three agents in turn: the requirements analyzer, the market researcher and the recruiter (`AgentOrchestrator.ts` lines 117-159).
- There are at most 3 rounds, and the loop stops after the first round whose satisfaction score is at least 8 (lines 9-10, 105 and 183).
- The recruiting strategy agent is not called by the loop. Its normalisation is modelled on its own.
- Scores are never clamped: the recruiter keeps any truthy score (`ProfessionalRecruiter.js` line 150).
- No round passes anything to the next one, answers included. Each round starts again from the requisition, and the recruiter also gets only the round number (lines 117 and 152-157).

## Model

| member | source | states |
|---|---|---|
| JsonRepair.FirstFence | JobReqDelivery/server/dist/llm/LLMService.js:114 | The fenced-block expression matches exactly when the text holds two non-overlapping fences; the match found is the first one, its capture starting after the optional `json` tag and white space and ending at the next fence |
| JsonRepair.FenceCapture | JobReqDelivery/server/dist/llm/LLMService.js:114-116 | A capture exists exactly when the text holds a fenced block |
| JsonRepair.ExtractCandidate | JobReqDelivery/server/dist/llm/LLMService.js:112-125 | With a fenced block the candidate is its trimmed capture; otherwise, when a `{` comes before a `}`, the slice from the first `{` through the last `}`; otherwise the whole content |
| JsonRepair.RunAppend | JobReqDelivery/server/dist/llm/LLMService.js:149-172 | Scanning a concatenation is scanning the second part from the state the first part left |
| JsonRepair.EscapedCharIsInert | JobReqDelivery/server/dist/llm/LLMService.js:150-157 | The character after a backslash changes no count and not the string flag, only clears the escape |
| JsonRepair.StringBodyIsInert | JobReqDelivery/server/dist/llm/LLMService.js:149-172 | Inside a string, characters other than a quote or a backslash, brackets included, leave the scanner state as it was |
| JsonRepair.QuotedLiteralIsInert | JobReqDelivery/server/dist/llm/LLMService.js:149-172 | A whole escape-free string literal, whatever brackets it holds, leaves the counts and flags unchanged |
| JsonRepair.ScanText | JobReqDelivery/server/dist/llm/LLMService.js:145-172 | The scanning loop ends with the four variables equal to the functional scan of the whole text; this characterises `JsonRepair.Scan` at json_repair.dfy:170 |
| JsonRepair.AppendClosers | JobReqDelivery/server/dist/llm/LLMService.js:174-185 | The two appending loops produce the text followed by a quote when the scan ended inside a string, then one `]` per open bracket, then one `}` per open brace |
| JsonRepair.ClosersBalance | JobReqDelivery/server/dist/llm/LLMService.js:174-185 | When the scan did not end on an escape, scanning the text with its closers ends outside any string with no positive count left |
| JsonRepair.StripTrailingCommas | JobReqDelivery/server/dist/llm/LLMService.js:187 | The comma rewrite never lengthens the text |
| JsonRepair.StripDeletesEveryMatchedComma | JobReqDelivery/server/dist/llm/LLMService.js:186-187 | The global replace of a comma followed by white space and a closer, keeping the white space and closer, equals the independent reference `DropMatched`: exactly the commas at which the expression matches are deleted and every other character stays, in order; this also characterises `JsonRepair.StripTrailingCommas` |
| JsonRepair.StripFrom | JobReqDelivery/server/dist/llm/LLMService.js:186-187 | Stripping any suffix of the text computes the reference from that suffix's start |
| JsonRepair.StripMatchBranch | JobReqDelivery/server/dist/llm/LLMService.js:186-187 | At a match, the replace drops the comma and keeps the white space and closer it consumed, none of which starts another match |
| JsonRepair.StripKeepBranch | JobReqDelivery/server/dist/llm/LLMService.js:186-187 | Where the expression does not match, the replace keeps the character and moves on by one |
| JsonRepair.DropKeepsCommaFree | JobReqDelivery/server/dist/llm/LLMService.js:186-187 | A span with no comma passes through the reference whole |
| JsonRepair.StripDeletesOnlyCommas | JobReqDelivery/server/dist/llm/LLMService.js:187 | The comma rewrite only deletes commas: every other character survives, in order |
| JsonRepair.StripWithoutMatchIsIdentity | JobReqDelivery/server/dist/llm/LLMService.js:187 | Text with no comma followed by white space and a closer comes through unchanged |
| JsonRepair.StripCommaFree | JobReqDelivery/server/dist/llm/LLMService.js:187 | Text without commas comes through unchanged |
| JsonRepair.StripIsSinglePass | JobReqDelivery/server/dist/llm/LLMService.js:187 | One pass is not a fixed point: `,,]` becomes `,]`, which a second pass would turn into `]` |
| JsonRepair.StripReachesIntoStrings | JobReqDelivery/server/dist/llm/LLMService.js:187 | The rewrite also fires inside a string literal: `",}"` loses its comma |
| JsonRepair.TryFixTruncatedJson | JobReqDelivery/server/dist/llm/LLMService.js:142-189 | The repair is trim, append closers, strip; apart from commas, its output is the trimmed input followed by the closers; this characterises `JsonRepair.Repair` at json_repair.dfy:670 |
| JsonRepair.RepairOfCompleteText | JobReqDelivery/server/dist/llm/LLMService.js:142-189 | Text that ends outside a string, has no positive count and no comma before a closer comes back as its trimmed self |
| JsonRepair.RepairExampleString | JobReqDelivery/server/dist/llm/LLMService.js:142-189 | Worked example: `{"a":"b` is repaired to `{"a":"b"}` |
| JsonRepair.RepairExampleArrayInObject | JobReqDelivery/server/dist/llm/LLMService.js:142-189 | Worked example: `{"a":[1` is repaired to `{"a":[1]}` |
| JsonRepair.RepairExampleArrayWithComma | JobReqDelivery/server/dist/llm/LLMService.js:142-189 | Worked example: `{"a":[1,2` is repaired to `{"a":[1,2]}`, the inner comma surviving the strip stage because no closer follows it |
| JsonRepair.RepairExampleNestedObjects | JobReqDelivery/server/dist/llm/LLMService.js:142-189 | Worked example: `{"a":{"b":1` is repaired to `{"a":{"b":1}}` |
| JsonRepair.RepairExampleTrailingComma | JobReqDelivery/server/dist/llm/LLMService.js:142-189 | Worked example: `{"a":1,}` is repaired to `{"a":1}` |
| JsonRepair.ScanExampleString | JobReqDelivery/server/dist/llm/LLMService.js:149-172 | Worked example: `{"a":"b` scans to one open brace, inside a string |
| JsonRepair.ScanExampleArrayInObject | JobReqDelivery/server/dist/llm/LLMService.js:149-172 | Worked example: `{"a":[1` scans to one open brace and one open bracket |
| JsonRepair.ScanExampleArrayWithComma | JobReqDelivery/server/dist/llm/LLMService.js:149-172 | Worked example: `{"a":[1,2` scans to one open brace and one open bracket |
| JsonRepair.ScanExampleNestedObjects | JobReqDelivery/server/dist/llm/LLMService.js:149-172 | Worked example: `{"a":{"b":1` scans to two open braces |
| JsonRepair.ScanExampleTrailingComma | JobReqDelivery/server/dist/llm/LLMService.js:149-172 | Worked example: `{"a":1,}` scans to a balanced state |
| JsonRepair.RepairMayMisnest | JobReqDelivery/server/dist/llm/LLMService.js:174-185 | Closers go brackets first, so `[{` becomes the misnested `[{]}` |
| JsonRepair.ChatJsonWithUsage | JobReqDelivery/server/dist/llm/LLMService.js:109-140 | The call succeeds exactly when the repaired candidate parses, returning the parsed data with the provider's usage and latency unchanged; otherwise it fails with the invalid-JSON message |
| Usage.MergeUsage | JobReqDelivery/server/src/agents/AgentOrchestrator.ts:18-25 | A merge always carries a cost |
| Usage.MergeCommutes | JobReqDelivery/server/src/agents/AgentOrchestrator.ts:18-25 | Merging is commutative |
| Usage.MergeAssociates | JobReqDelivery/server/src/agents/AgentOrchestrator.ts:18-25 | Merging is associative |
| Usage.MergeEmpty | JobReqDelivery/server/src/agents/AgentOrchestrator.ts:13-25 | The empty usage is a unit on either side, up to a missing cost becoming 0 |
| Usage.InitializeTokenUsage | JobReqDelivery/server/src/agents/AgentOrchestrator.ts:38-50 | The reset totals have no rounds, no latency and no cost |
| Usage.UpdateTokenUsage | JobReqDelivery/server/src/agents/AgentOrchestrator.ts:74-81 | The usage is added to the agent's breakdown and to the total, prompt and completion counts included; the other breakdowns, the round count and everything else stay; latency grows by the call's; the total cost becomes the total's cost |
| Usage.InitialIsConsistent | JobReqDelivery/server/src/agents/AgentOrchestrator.ts:38-50 | After a reset, the total equals the merge of the three breakdowns and the total cost is the total's cost |
| Usage.UpdatePreservesConsistent | JobReqDelivery/server/src/agents/AgentOrchestrator.ts:74-81 | An update keeps the total equal to the merge of the breakdowns |
| Usage.CallsOf | JobReqDelivery/server/src/agents/AgentOrchestrator.ts:74-81 | The calls of one agent, in order, drawn from the calls made |
| Usage.ReplayConsistent | JobReqDelivery/server/src/agents/AgentOrchestrator.ts:38-50 | Any sequence of updates from a reset keeps the total equal to the merge of the breakdowns |
| Usage.ReplayTotals | JobReqDelivery/server/src/agents/AgentOrchestrator.ts:74-81 | After any sequence of updates from a reset, every total field and the latency are the sums over all calls |
| Usage.ReplayBreakdown | JobReqDelivery/server/src/agents/AgentOrchestrator.ts:74-81 | After any sequence of updates from a reset, an agent's breakdown is the sum over that agent's calls |
| Usage.ReplayAppend | JobReqDelivery/server/src/agents/AgentOrchestrator.ts:74-81 | Replaying two batches of calls one after the other is replaying them joined |
| Usage.ReplayIgnoresIterations | JobReqDelivery/server/src/agents/AgentOrchestrator.ts:74-81 | An update never reads or writes the round count, so replaying from totals with another count gives the same totals with that count |
| Provider.GetModel | JobReqDelivery/server/src/llm/providers/OpenRouterProvider.ts:18-25 | An empty setting gives the default model; a setting with the `openrouter/` prefix loses exactly that prefix; any other setting is used as is |
| Provider.DefaultModelIsBare | JobReqDelivery/server/src/llm/providers/OpenRouterProvider.ts:19 | The default model has no prefix to strip |
| Provider.GetModelExamples | JobReqDelivery/server/src/tests/llm.test.ts:38-43 | Worked example: the prefixed and the bare default name both give the default model, as does an empty setting |
| Provider.GetModelStripsOnce | JobReqDelivery/server/src/llm/providers/OpenRouterProvider.ts:21-23 | Only one prefix is stripped |
| Provider.CalculateCost | JobReqDelivery/server/src/llm/providers/OpenRouterProvider.ts:27-37 | A listed model is priced at its table rates per million prompt and completion tokens; any other at 0.5 and 1.5 |
| Provider.CostDependsOnlyOnPromptAndCompletion | JobReqDelivery/server/src/llm/providers/OpenRouterProvider.ts:27-37 | The cost ignores the total count and any cost already attached |
| Provider.CostNonNegative | JobReqDelivery/server/src/llm/providers/OpenRouterProvider.ts:27-37 | Non-negative counts cost nothing negative, and the free model costs nothing |
| Provider.CostAdditive | JobReqDelivery/server/src/llm/providers/OpenRouterProvider.ts:27-37 | Pricing two usages separately is pricing their summed counts |
| Provider.ExtractUsage | JobReqDelivery/server/src/llm/providers/OpenRouterProvider.ts:86-94 | Reported counts are kept; a missing usage block, and each missing count within a present one, becomes 0; the usage carries its computed cost |
| Provider.ResponseContent | JobReqDelivery/server/src/llm/providers/OpenRouterProvider.ts:86 | The content is the first choice's text, or empty |
| Types.Set | JobReqDelivery/server/src/agents/AgentOrchestrator.ts:76-77 | Writing one agent's slot of the breakdown leaves the other two slots as they were |
| Types.PricingTableWellFormed | JobReqDelivery/server/src/types/index.ts:175-182 | The six prices are non-negative and the free model is priced 0/0 |
| Normalize.StrOr | JobReqDelivery/server/src/agents/RecruitingStrategyAgent.ts:238-248 | A string or its default: the value when present and non-empty, otherwise the default |
| Normalize.ListOr | JobReqDelivery/server/src/agents/RecruitingStrategyAgent.ts:238-248 | A list or nothing: the list when present, even if empty, otherwise empty |
| Normalize.EnsureCandidateProfile | JobReqDelivery/server/src/agents/RecruitingStrategyAgent.ts:238-248 | A missing profile becomes the all-empty one; each field of a present profile is kept or defaulted to `''` or `[]` |
| Normalize.EnsureProfileKeepsComplete | JobReqDelivery/server/dist/agents/ProfessionalRecruiter.js:178-188 | A profile with every field present comes back unchanged |
| Normalize.EnsureProfileIdempotent | JobReqDelivery/server/dist/agents/JobMarketResearcher.js:141-151 | Normalising a normalised profile changes nothing |
| Normalize.IdOr | JobReqDelivery/server/src/agents/RequirementsAnalyzer.ts:97 | A non-empty id is kept, otherwise the fresh one is used |
| AnalyzerAgent.AnalyzerPromptValues | JobReqDelivery/server/src/agents/RequirementsAnalyzer.ts:75-85 | Each empty field takes its default (`未指定`, `全职`, `未提供`, `面议`, `未知`, `正常`, `无`); a team size of 0 is rendered, not defaulted |
| AnalyzerAgent.PromptValuesNonEmpty | JobReqDelivery/server/src/agents/RequirementsAnalyzer.ts:75-85 | Every substituted value except possibly the team size is non-empty |
| AnalyzerAgent.BackfillQuestion | JobReqDelivery/server/src/agents/RequirementsAnalyzer.ts:96-98 | The question is unanswered, keeps a non-empty id or takes the fresh one, and passes its other fields through |
| AnalyzerAgent.BackfillQuestions | JobReqDelivery/server/src/agents/RequirementsAnalyzer.ts:95-99 | The list keeps its length and order, each question backfilled with the fresh id of its position |
| AnalyzerAgent.BackfillIdempotent | JobReqDelivery/server/src/agents/RequirementsAnalyzer.ts:95-99 | When the fresh ids are non-empty, backfilling a backfilled list changes nothing |
| AnalyzerAgent.AnalyzeWithUsage | JobReqDelivery/server/src/agents/RequirementsAnalyzer.ts:95-112 | The analyzer fails with its message exactly when the call fails or the answer has no question list; otherwise the title and lists pass through and the questions are the backfilled list, with the model's question, category, priority and answer kept |
| ResearcherAgent.JoinOr | JobReqDelivery/server/dist/agents/JobMarketResearcher.js:101-104 | The joined list, or the default when it joins to the empty string |
| ResearcherAgent.ResearcherPromptValues | JobReqDelivery/server/dist/agents/JobMarketResearcher.js:99-104 | The title passes through; each list that joins to text is rendered as its `、`-join, and one that joins to nothing renders as `未明确`, or `无` for the ambiguities; no value is empty |
| ResearcherAgent.EnsureCapability | JobReqDelivery/server/dist/agents/JobMarketResearcher.js:134-139 | Each of the four capability fields is kept or defaulted to `''` |
| ResearcherAgent.EnsureMustHave | JobReqDelivery/server/dist/agents/JobMarketResearcher.js:131-140 | A missing or non-list value gives no capabilities; a list keeps its length and order |
| ResearcherAgent.EnsureBenchmarks | JobReqDelivery/server/dist/agents/JobMarketResearcher.js:112-114 | Each missing benchmark is `待评估` |
| ResearcherAgent.ResearchWithUsage | JobReqDelivery/server/dist/agents/JobMarketResearcher.js:98-130 | The researcher fails with its message exactly when the call fails; otherwise titles and nice-to-haves default to empty and every field is filled |
| ResearcherAgent.EmptyAnswerIsComplete | JobReqDelivery/server/dist/agents/JobMarketResearcher.js:108-124 | An answer with every field missing still gives a complete output of defaults |
| RecruiterAgent.EnsureQuestion | JobReqDelivery/server/dist/agents/ProfessionalRecruiter.js:170-175 | The id is kept or fresh, the answered flag is the list's, and the category and priority default to `其他` and `medium`; the answer passes through |
| RecruiterAgent.EnsureQuestions | JobReqDelivery/server/dist/agents/ProfessionalRecruiter.js:166-177 | A missing list gives none, a non-list fails, and a list keeps its length and order |
| RecruiterAgent.ScoreOr5 | JobReqDelivery/server/dist/agents/ProfessionalRecruiter.js:150 | A truthy score is kept, a missing or zero one is 5, and nothing is clamped |
| RecruiterAgent.EvaluateWithUsage | JobReqDelivery/server/dist/agents/ProfessionalRecruiter.js:116-165 | The recruiter fails with its message exactly when the call fails or a question list is not a list; otherwise the answered list is the ensured answered list, each open question is ensured with the fresh id after the answered ones, the keywords are exactly the first five (all of them when there are fewer), the score and difficulty default, and answered and open questions are forced answered and open |
| RecruiterAgent.IsAnsweredFollowsList | JobReqDelivery/server/dist/agents/ProfessionalRecruiter.js:148-149 | Whatever the model said, the answered flag is the one of the list the question is in |
| RecruiterAgent.ScoreExamples | JobReqDelivery/server/dist/agents/ProfessionalRecruiter.js:150 | Worked example: 0 and a missing score become 5; 11 and -3 are kept |
| StrategyAgent.ParseVerdict | JobReqDelivery/server/src/agents/RecruitingStrategyAgent.ts:290-292 | A string names a verdict exactly when it is one of the three verdict names |
| StrategyAgent.DetermineFinalVerdict | JobReqDelivery/server/src/agents/RecruitingStrategyAgent.ts:286-298 | A valid given verdict is kept; otherwise 9 and above approves, 7 and above needs revision, and anything lower has major concerns |
| StrategyAgent.VerdictMonotone | JobReqDelivery/server/src/agents/RecruitingStrategyAgent.ts:295-297 | Without a given verdict, a higher score never gives a worse verdict |
| StrategyAgent.VerdictExamples | JobReqDelivery/server/src/agents/RecruitingStrategyAgent.ts:286-298 | Worked example: 9.5, 7.5 and 6.9 give approved, needs revision and major concerns; a valid given verdict wins; an unknown or empty one falls back to the score |
| StrategyAgent.ScoreOrDefault | JobReqDelivery/server/src/agents/RecruitingStrategyAgent.ts:255-257 | `??`: a present score, 0 included, is kept; a missing one is 5 |
| StrategyAgent.EnsureFitAssessment | JobReqDelivery/server/src/agents/RecruitingStrategyAgent.ts:250-284 | The scores default to 5 when missing; the overall score is the given one or the mean of the three; the verdict follows the rule; a missing dimension gets its default record, feasibility `medium`, and a present one keeps each given text and list and defaults each missing one to `''` or `[]` |
| StrategyAgent.NoAssessmentDefaults | JobReqDelivery/server/src/agents/RecruitingStrategyAgent.ts:250-298 | With no assessment, the scores are 5, 5 and 5, the overall is 5 and the verdict is major concerns |
| StrategyAgent.ZeroScoreIsKept | JobReqDelivery/server/src/agents/RecruitingStrategyAgent.ts:255 | A requirements-fit score of 0 stays 0 |
| StrategyAgent.MeanIsBetween | JobReqDelivery/server/src/agents/RecruitingStrategyAgent.ts:258 | Without a given overall score, the overall lies between the smallest and the largest of the three scores |
| StrategyAgent.ValidateWithUsage | JobReqDelivery/server/src/agents/RecruitingStrategyAgent.ts:165-236 | The strategy agent fails with its message exactly when the call fails; otherwise the profile and assessment are ensured, and each strategy and risk list and text is the given one or empty |
| Orchestrator.RunRound | JobReqDelivery/server/src/agents/AgentOrchestrator.ts:105-180 | A round leaves the round count alone and numbers its iteration record with the round |
| Orchestrator.ReturnedCalls | JobReqDelivery/server/src/agents/AgentOrchestrator.ts:116-159 | The calls of a round that returned are at most three, the analyzer's, the researcher's and the recruiter's in that order |
| Orchestrator.RoundUsage | JobReqDelivery/server/src/agents/AgentOrchestrator.ts:116-159 | Whichever agent throws, the round's totals are the replay of exactly the calls that returned before it; the round completes exactly when all three returned, with the same record from any totals |
| Orchestrator.RoundOkIffAgentsReturn | JobReqDelivery/server/src/agents/AgentOrchestrator.ts:105-180 | A round completes exactly when all three agents return, adding their three latencies; a failing analyzer leaves the totals as they were |
| Orchestrator.RoundPreservesConsistent | JobReqDelivery/server/src/agents/AgentOrchestrator.ts:117-159 | Whether it completes or fails, a round keeps the totals equal to the merge of the breakdowns |
| Orchestrator.AgentRoundsBehave | JobReqDelivery/server/src/agents/AgentOrchestrator.ts:105-180 | The agents' rounds keep the round count, number their records, and keep the totals consistent |
| Orchestrator.AgentRoundsAccount | JobReqDelivery/server/src/agents/AgentOrchestrator.ts:116-159 | The agents' rounds account for exactly the calls that returned |
| Orchestrator.LoopAppends | JobReqDelivery/server/src/agents/AgentOrchestrator.ts:105-196 | The loop only appends iterations, at most three in all, numbered from the next round on, and changes nothing else in the record; this characterises `Orchestrator.LoopWith` at orchestrator.dfy:174 |
| Orchestrator.LoopStopsAtThreshold | JobReqDelivery/server/src/agents/AgentOrchestrator.ts:183-195 | Every appended round but the last is below the threshold; a loop that ends normally stopped after the third round or on a satisfied one |
| Orchestrator.LoopCountsRounds | JobReqDelivery/server/src/agents/AgentOrchestrator.ts:106-107 | The round count is the number of rounds started, including a failed one |
| Orchestrator.LoopPreservesConsistent | JobReqDelivery/server/src/agents/AgentOrchestrator.ts:105-196 | The loop keeps the totals equal to the merge of the breakdowns |
| Orchestrator.LoopUsage | JobReqDelivery/server/src/agents/AgentOrchestrator.ts:105-196 | The loop's totals are the replay of every agent call that returned, in completed rounds and in a failed one alike |
| Orchestrator.LoopCallCount | JobReqDelivery/server/src/agents/AgentOrchestrator.ts:105-196 | Three calls returned for every appended round, and fewer than three more in a failed round |
| Orchestrator.ProjectFinal | JobReqDelivery/server/src/agents/AgentOrchestrator.ts:199-211 | The final output copies profile, keywords, difficulty and reasoning from the recruiter, and its questions are the open questions |
| Orchestrator.Finish | JobReqDelivery/server/src/agents/AgentOrchestrator.ts:199-243 | The error is rethrown exactly when the loop failed, and the totals are the loop's |
| Orchestrator.AnalysisKeepsHistory | JobReqDelivery/server/src/agents/AgentOrchestrator.ts:94-245 | A run appends at most three iterations numbered 1, 2, …, all but the last below the threshold, and keeps the record's id, requisition and creation time |
| Orchestrator.AnalysisCompletes | JobReqDelivery/server/src/agents/AgentOrchestrator.ts:94-211 | A run without error appended a round, ended satisfied or after three, is completed now with its final output from the last round, counts exactly its rounds in consistent totals, and its totals are the replay of the three calls of each round |
| Orchestrator.AnalysisFails | JobReqDelivery/server/src/agents/AgentOrchestrator.ts:105-243 | A failed run is marked failed, keeps the earlier rounds and nothing else changed, counts the failed round as started in consistent totals, and its totals are the replay of every call that returned, those of the failed round before the agent that threw included |
| Orchestrator.RunWithUsage | JobReqDelivery/server/src/agents/AgentOrchestrator.ts:105-243 | For rounds that account for the calls that returned, the run's totals replay those calls: three per appended round, and fewer than three more after a failure |
| Orchestrator.RunRounds | JobReqDelivery/server/src/agents/AgentOrchestrator.ts:105-196 | The loop method computes the functional loop from round 0, and a normal end appended something |
| Orchestrator.RunRoundsWith | JobReqDelivery/server/src/agents/AgentOrchestrator.ts:105-196 | For any rounds, the `while` loop method computes the functional loop from round 0, and a normal end appended something |
| Orchestrator.AnalyzeFrom | JobReqDelivery/server/src/agents/AgentOrchestrator.ts:105-243 | From reset totals, the method's outcome is the functional run and meets the completed-or-failed record promise |
| Orchestrator.Analyze | JobReqDelivery/server/src/agents/AgentOrchestrator.ts:94-245 | `analyze` resets the totals, runs the loop and finishes: at most three numbered rounds appended, consistent totals, and a completed or a failed record according to whether an error is rethrown; this characterises `Orchestrator.RunAnalysis` at orchestrator.dfy:598 |
| StableSort.Sort | JobReqDelivery/client/src/services/historyStorage.ts:43-45 | The sort is a permutation |
| StableSort.SortDescending | JobReqDelivery/client/src/services/historyStorage.ts:43-45 | The sorted list is in descending key order |
| StableSort.SortStable | JobReqDelivery/client/src/services/historyStorage.ts:126-129 | Entries with equal keys keep their relative order |
| StableSort.SortOfDescending | JobReqDelivery/client/src/services/historyStorage.ts:43-45 | An already descending list is left as it was |
| StableSort.SortKeepsDistinct | JobReqDelivery/client/src/services/historyStorage.ts:43-45 | Sorting keeps a list's ids distinct |
| StableSort.InsertDescending | JobReqDelivery/client/src/services/historyStorage.ts:43-45 | Inserting into a descending list keeps it descending |
| StableSort.InsertStable | JobReqDelivery/client/src/services/historyStorage.ts:126-129 | Insertion places an element after the entries with its key |
| HistoryStorage.GetAnalysisHistory | JobReqDelivery/client/src/services/historyStorage.ts:37-50 | The stored entries, newest first, as a permutation; none when the key is absent or unreadable |
| HistoryStorage.Upsert | JobReqDelivery/client/src/services/historyStorage.ts:58-67 | At most 50 entries; a new id goes in front; a known id is replaced in place at its first position, keeping the list's length; every entry is the new one or an old one |
| HistoryStorage.SaveAnalysisToHistory | JobReqDelivery/client/src/services/historyStorage.ts:53-71 | The upserted newest-first list is written under the history key, and no other key changes |
| HistoryStorage.GetAnalysisById | JobReqDelivery/client/src/services/historyStorage.ts:91-94 | The entry found has the id, is stored, and is the first with the id in the newest-first list; none is found exactly when no stored entry has the id |
| HistoryStorage.SaveThenGetById | JobReqDelivery/client/src/services/historyStorage.ts:53-94 | After a save into a capped list with distinct ids, looking up the entry's id gives exactly that entry |
| HistoryStorage.GetSavedEntry | JobReqDelivery/client/src/services/historyStorage.ts:91-94 | A stored entry whose id no other entry has is found by its id |
| HistoryStorage.UpsertKeepsDistinct | JobReqDelivery/client/src/services/historyStorage.ts:58-67 | An upsert keeps the ids distinct |
| HistoryStorage.SaveKeepsIdsDistinct | JobReqDelivery/client/src/services/historyStorage.ts:53-71 | A save keeps the stored ids distinct |
| HistoryStorage.Merge | JobReqDelivery/client/src/services/historyStorage.ts:82 | For each of the 13 fields, a value present in the update overrides and an absent one keeps the entry's value |
| HistoryStorage.MergeLaws | JobReqDelivery/client/src/services/historyStorage.ts:82 | An empty update changes nothing, and the same update twice is the same as once |
| HistoryStorage.UpdateFirst | JobReqDelivery/client/src/services/historyStorage.ts:80-84 | There is no result exactly when no entry has the id; otherwise one entry with the id has the update merged in and every other entry is kept |
| HistoryStorage.UpdateAnalysisInHistory | JobReqDelivery/client/src/services/historyStorage.ts:74-88 | Nothing is written when no entry has the id; otherwise the updated list is written, and no other key changes |
| HistoryStorage.UpdateTouchesOnlyTheId | JobReqDelivery/client/src/services/historyStorage.ts:74-88 | An unknown id leaves storage unchanged; a known one changes exactly one entry with that id by the merge |
| HistoryStorage.DeleteAnalysisFromHistory | JobReqDelivery/client/src/services/historyStorage.ts:97-105 | The list written back is the newest-first list without the entries with the id, and no other key changes |
| HistoryStorage.DeleteRemovesExactlyTheId | JobReqDelivery/client/src/services/historyStorage.ts:97-105 | After a delete the id is not found, and every entry with another id is still stored |
| HistoryStorage.ClearAllHistory | JobReqDelivery/client/src/services/historyStorage.ts:108-114 | The history reads back empty, and no other key changes |
| HistoryStorage.GetInputHistory | JobReqDelivery/client/src/services/historyStorage.ts:119-134 | The field's entries, as a permutation, most used first and then most recent first |
| HistoryStorage.Used | JobReqDelivery/client/src/services/historyStorage.ts:149-152 | A reused entry keeps its value, counts one more use and takes the new time |
| HistoryStorage.Remember | JobReqDelivery/client/src/services/historyStorage.ts:145-160 | A case-insensitive match is bumped in place; otherwise the value goes in front with count 1 |
| HistoryStorage.ReadTable | JobReqDelivery/client/src/services/historyStorage.ts:141-142 | An absent key gives an empty table; unreadable contents give none |
| HistoryStorage.SaveInputToHistory | JobReqDelivery/client/src/services/historyStorage.ts:137-168 | Too short a value, or unreadable storage, changes nothing; no other key ever changes; this characterises `HistoryStorage.TooShort` at history_storage.dfy:427 |
| HistoryStorage.SaveInputEffect | JobReqDelivery/client/src/services/historyStorage.ts:137-168 | A save that is not ignored leaves the field with its remembered list capped at 20, and every other field as it was |
| HistoryStorage.RememberTwice | JobReqDelivery/client/src/services/historyStorage.ts:145-160 | A value with no case-insensitive match, remembered twice, is one entry in front with count 2 and the second time |
| HistoryStorage.SaveInputTwice | JobReqDelivery/client/src/services/historyStorage.ts:145-163 | A new value saved twice is one entry, in front, counted twice, with the second time |
| HistoryStorage.Values | JobReqDelivery/client/src/services/historyStorage.ts:177-179 | The values of the entries, in order |
| HistoryStorage.SearchInputHistory | JobReqDelivery/client/src/services/historyStorage.ts:171-181 | An empty query gives nothing; otherwise as many values as stored entries contain the query, up to 10, each containing the query ignoring case |
| HistoryStorage.TopMatches | JobReqDelivery/client/src/services/historyStorage.ts:171-180 | The entries behind the suggestions number the stored matches up to 10, and each contains the query |
| HistoryStorage.SearchTopRanked | JobReqDelivery/client/src/services/historyStorage.ts:171-180 | The suggestions are the values of stored entries in `getInputHistory` order, most used first and then most recent first; this characterises `HistoryStorage.UsageKey` at history_storage.dfy:395 |
| HistoryStorage.SearchLeavesOnlyLower | JobReqDelivery/client/src/services/historyStorage.ts:171-180 | A matching stored entry is left out only when 10 are shown, and then ranks no higher than the last one shown |
| HistoryStorage.SearchSound | JobReqDelivery/client/src/services/historyStorage.ts:171-181 | Every suggestion is the value of an entry stored for the field |
| HistoryStorage.SearchComplete | JobReqDelivery/client/src/services/historyStorage.ts:171-181 | When at most 10 stored entries contain a non-empty query, every one of them is suggested |
| HistoryStorage.FilterCountPermutation | JobReqDelivery/client/src/services/historyStorage.ts:171-181 | Filtering two permutations of one list keeps the same number of elements, so the sorted and the stored list have the same matches |
| HistoryStorage.DeleteInputHistory | JobReqDelivery/client/src/services/historyStorage.ts:184-199 | The field loses exactly its entries equal to the value, case-sensitively, keeping the rest in order; other fields and keys are unchanged |
| HistoryStorage.ClearInputHistory | JobReqDelivery/client/src/services/historyStorage.ts:202-213 | The field reads back empty, and other fields and keys are unchanged |
| HistoryStorage.ClearAllInputHistory | JobReqDelivery/client/src/services/historyStorage.ts:216-222 | Every field reads back empty, and no other key changes |
| AppContext.OrNull | JobReqDelivery/client/src/context/AppContext.tsx:98-101 | A string or null: missing exactly when absent or empty, otherwise kept |
| AppContext.Reduce | JobReqDelivery/client/src/context/AppContext.tsx:68-111 | `RESET` gives the initial state and an unknown action changes nothing |
| AppContext.SetterChangesOnlyItsField | JobReqDelivery/client/src/context/AppContext.tsx:70-93 | Each `SET_*` action writes its payload into its own field and changes no other |
| AppContext.AddProgressAppends | JobReqDelivery/client/src/context/AppContext.tsx:82-83 | `ADD_AGENT_PROGRESS` appends the event at the end of the log and changes nothing else |
| AppContext.MergeFormLaws | JobReqDelivery/client/src/context/AppContext.tsx:74-75 | The form merge: an empty payload changes nothing, a full one replaces the form, repeating is idempotent, and two merges are one with the later keys winning; this characterises `AppContext.MergeForm` at app_context.dfy:86 |
| AppContext.UpdateFormMerges | JobReqDelivery/client/src/context/AppContext.tsx:74-75 | `UPDATE_FORM` replaces exactly the form keys the payload carries and no other field |
| AppContext.UpdateFormComposes | JobReqDelivery/client/src/context/AppContext.tsx:74-75 | Two `UPDATE_FORM`s act as one, and a full payload acts as `SET_FORM_DATA` |
| AppContext.LoadHistoryEffect | JobReqDelivery/client/src/context/AppContext.tsx:94-105 | `LOAD_HISTORY` shows the results exactly when there is a result, returns to step 1, counts the completed rounds, turns missing parts into empty ones, and keeps the submitting flag and the error |
| AppContext.ResetForgetsEverything | JobReqDelivery/client/src/context/AppContext.tsx:106-107 | `RESET` gives the same state from any state, so a second one changes nothing |
| AppContext.ProgressActions | JobReqDelivery/client/src/context/AppContext.tsx:82-83 | One progress action per event, in order |
| AppContext.StreamedProgressAppends | JobReqDelivery/client/src/context/AppContext.tsx:82-83 | Streaming events one by one appends them in arrival order and changes nothing else |
| AgentProgressView.GetAgentStatus | JobReqDelivery/client/src/components/AgentProgress/index.tsx:43-51 | Pending while no event names the agent |
| AgentProgressView.GetAgentMessage | JobReqDelivery/client/src/components/AgentProgress/index.tsx:54-58 | Empty while no event names the agent |
| AgentProgressView.EventUpdatesOnlyItsAgent | JobReqDelivery/client/src/components/AgentProgress/index.tsx:43-58 | A new event for the agent sets its status and message from that event; one for another agent changes neither |
| AgentProgressView.LastOwn | JobReqDelivery/client/src/components/AgentProgress/index.tsx:44-46 | The position of the last event naming the agent, none exactly when no event names it |
| AgentProgressView.ViewIsLastOwnEvent | JobReqDelivery/client/src/components/AgentProgress/index.tsx:43-58 | The status and message are those of the last event naming the agent: started is active, completed is done, any other type pending; with none, pending and empty |
| AgentProgressView.OtherAgentsEventKeepsCard | JobReqDelivery/client/src/components/AgentProgress/index.tsx:43-58 | Dispatching another agent's event leaves this agent's card as it was |
| JobReqForm.Next | JobReqDelivery/client/src/components/JobReqForm/index.tsx:19-24 | One step forward below step 4, nothing on step 4, and no other field changes |
| JobReqForm.Prev | JobReqDelivery/client/src/components/JobReqForm/index.tsx:26-31 | One step back above step 1, nothing on step 1, and no other field changes |
| JobReqForm.NextPrevInverse | JobReqDelivery/client/src/components/JobReqForm/index.tsx:19-31 | Back undoes forward and forward undoes back, away from the ends |
| JobReqForm.CanProceed | JobReqDelivery/client/src/components/JobReqForm/index.tsx:65-78 | The last step can always be left |
| JobReqForm.FirstBlankStep | JobReqDelivery/client/src/components/JobReqForm/index.tsx:35-49 | The first step, in order, whose field is blank; none exactly when every step can be left |
| JobReqForm.SubmitActions | JobReqDelivery/client/src/components/JobReqForm/index.tsx:33-63 | A submission always dispatches something |
| JobReqForm.BlankFieldBlocksSubmit | JobReqDelivery/client/src/components/JobReqForm/index.tsx:35-49 | A form with a blank field is not posted: it jumps to the first blank step, title before responsibilities before qualifications, and nothing else changes; this characterises `JobReqForm.HandleSubmit` at job_req_form.dfy:90 |
| JobReqForm.FilledFormIsPosted | JobReqDelivery/client/src/components/JobReqForm/index.tsx:51 | A filled form raises the submitting flag first |
| JobReqForm.PostedActions | JobReqDelivery/client/src/components/JobReqForm/index.tsx:51-62 | A posted form dispatches the raised flag, the id and the view when created, and the lowered flag |
| JobReqForm.CreatedShowsProcessing | JobReqDelivery/client/src/components/JobReqForm/index.tsx:51-62 | A created requisition is recorded, the processing view is shown, and the flag is down again; nothing else changes |
| JobReqForm.RejectedChangesNothing | JobReqDelivery/client/src/components/JobReqForm/index.tsx:51-62 | A rejected post leaves everything but the flag as it was, and the flag is down |
| InputHistoryHook.Close | JobReqDelivery/client/src/hooks/useInputHistory.ts:164-167 | The list is hidden with nothing highlighted, and the suggestions stay |
| InputHistoryHook.Select | JobReqDelivery/client/src/hooks/useInputHistory.ts:144-148 | The list is closed and the suggestion handed over |
| InputHistoryHook.KeyDown | JobReqDelivery/client/src/hooks/useInputHistory.ts:105-141 | Keys are ignored on a hidden or empty list, and no key changes the suggestions |
| InputHistoryHook.ArrowsStayInRange | JobReqDelivery/client/src/hooks/useInputHistory.ts:110-120 | The arrows keep the highlight on a suggestion, wrapping from the ends and from nothing |
| InputHistoryHook.ArrowsInverse | JobReqDelivery/client/src/hooks/useInputHistory.ts:110-120 | Up undoes down and down undoes up while a suggestion is highlighted |
| InputHistoryHook.ChoosingKeys | JobReqDelivery/client/src/hooks/useInputHistory.ts:121-139 | Enter and Tab hand over the highlighted suggestion exactly when it exists and is non-empty; otherwise Enter does nothing and Tab hides the list; Escape closes it |
| InputHistoryHook.TopValues | JobReqDelivery/client/src/hooks/useInputHistory.ts:56-57 | At most ten values |
| InputHistoryHook.UpdateSuggestions | JobReqDelivery/client/src/hooks/useInputHistory.ts:51-63 | The highlight is cleared, the shown flag kept, and at most ten suggestions are offered |
| InputHistoryHook.InputChanged | JobReqDelivery/client/src/hooks/useInputHistory.ts:66-77 | The highlight is cleared, and the list is shown when the input is long enough or the field has history |
| InputHistoryHook.Focus | JobReqDelivery/client/src/hooks/useInputHistory.ts:80-93 | Without history nothing changes; with history its top values are shown |
| InputHistoryHook.DeleteSuggestion | JobReqDelivery/client/src/hooks/useInputHistory.ts:151-154 | The value leaves the shown list and the stored history |
| InputHistoryHook.DeleteDropsOnlyTheValue | JobReqDelivery/client/src/hooks/useInputHistory.ts:151-154 | The value is no longer suggested, every other suggestion stays, and the shown flag and highlight are untouched |
| InputHistoryHook.StaleHighlightAfterDeletes | JobReqDelivery/client/src/hooks/useInputHistory.ts:110-154 | Worked example: because a delete keeps the highlight, deletes and an arrow can leave it past the end of the list, after which Enter chooses nothing |
| InputHistoryHook.SaveCurrentValue | JobReqDelivery/client/src/hooks/useInputHistory.ts:157-161 | A blank value stores nothing |
| InputHistoryHook.SaveCurrentValueStoresTrimmed | JobReqDelivery/client/src/hooks/useInputHistory.ts:157-161 | Saving is storing the trimmed value, and a trimmed value shorter than 2 changes nothing |
| Consultant.ConfiguredRates | JobReqConsultant/src/app/actions.ts:28-31 | An unset rate defaults to 2.00 input and 12.00 output dollars per million; a set one is used |
| Consultant.CostLaws | JobReqConsultant/src/app/actions.ts:28-45 | No tokens cost nothing; cost is non-negative for non-negative counts and rates; the default price is (2·in + 12·out)/10⁶; a call without usage leaves the totals; this characterises `Consultant.CalculateCost` at consultant.dfy:43, `Consultant.AccumulateUsage` at consultant.dfy:48 |
| Consultant.AccumulateAllSums | JobReqConsultant/src/app/actions.ts:36-45 | After any calls the totals are the start plus the sums reported, and the cost is the start plus the price of the summed counts |
| Consultant.Say | JobReqConsultant/src/app/actions.ts:92-152 | An assistant message is appended to the conversation |
| Consultant.Prepare | JobReqConsultant/src/app/actions.ts:55-65 | Totals exist and the user's message is appended before any agent runs |
| Consultant.SubmitFrame | JobReqConsultant/src/app/actions.ts:47-155 | A submission keeps earlier messages, appends the user's first and then at most two replies, gives an id only when there is none, leaves totals, never moves back a step, and ends with the apology when saving fails; this characterises `Consultant.Submit` at consultant.dfy:240 |
| Consultant.FirstTurnSucceeds | JobReqConsultant/src/app/actions.ts:68-101 | A first turn whose three calls return sets round 1, completes exactly when the recruiter says so, keeps the analyzed title and counts the three calls' usage; this characterises `Consultant.FirstTurn` at consultant.dfy:198 |
| Consultant.FirstTurnFails | JobReqConsultant/src/app/actions.ts:68-101 | A first turn whose call fails stays in the first step and apologises; an analyzer failure counts nothing, a research failure records the analysis and counts its usage, and a recruiter failure records analysis and research and counts exactly their two usages |
| Consultant.ClarifyTurnEffect | JobReqConsultant/src/app/actions.ts:103-131 | A clarifying turn records one exchange and one more round; on return it completes when the recruiter says so or the round limit is reached; on failure the step stays and an apology is appended; this characterises `Consultant.ClarifyTurn` at consultant.dfy:226 |
| Consultant.CompletedCallsNoAgent | JobReqConsultant/src/app/actions.ts:68-131 | A completed consultation calls no agent: only the id, the totals and the messages change |
| Requisitions.IndexOfId | JobReqDelivery/server/src/routes/requisitions.ts:151 | The first analysis with the id; none exactly when no analysis has it |
| Requisitions.IndexOfRequisition | JobReqDelivery/server/src/routes/requisitions.ts:128-134 | The first analysis of the requisition in insertion order; none exactly when there is none |
| Requisitions.SetAnalysisIsMapSet | JobReqDelivery/server/src/routes/requisitions.ts:151 | `Map.set` stores the analysis under its id in place, adds an entry only for a new id, keeps every other entry, and keeps the ids distinct |
| Requisitions.CreateValidates | JobReqDelivery/server/src/routes/requisitions.ts:14-67 | A create is refused exactly when a required field is missing or empty, leaving the stores alone; otherwise both ids are returned, the requisition is stored processing with the normal-urgency context when none was sent, and the new processing analysis is stored; this characterises `Requisitions.Create` at requisitions.dfy:115 |
| Requisitions.Get | JobReqDelivery/server/src/routes/requisitions.ts:92-114 | Not found exactly for an unknown requisition; otherwise the stored requisition |
| Requisitions.GetFindsEarliestAnalysis | JobReqDelivery/server/src/routes/requisitions.ts:101-113 | A lookup returns an analysis exactly when one was made for the requisition, and then the earliest |
| Requisitions.IndexOfRequisitionAppend | JobReqDelivery/server/src/routes/requisitions.ts:128-134 | Adding another requisition's analysis last does not change which analysis a requisition finds |
| Requisitions.CreateThenGet | JobReqDelivery/server/src/routes/requisitions.ts:14-114 | With fresh ids, a lookup after a create returns the new requisition and its analysis, and every earlier requisition looks up as before |
| Requisitions.ApplyAnswer | JobReqDelivery/server/src/routes/requisitions.ts:141-149 | An answer keeps the number of questions |
| Requisitions.ApplyAnswers | JobReqDelivery/server/src/routes/requisitions.ts:141-149 | The answers keep the number of questions |
| Requisitions.LastAnswerFor | JobReqDelivery/server/src/routes/requisitions.ts:141-149 | None exactly when no answer names the id |
| Requisitions.LastAnswerIsLast | JobReqDelivery/server/src/routes/requisitions.ts:141-149 | The answer recorded for an id is the one at the last position naming it |
| Requisitions.ApplyAnswerEffect | JobReqDelivery/server/src/routes/requisitions.ts:142-148 | One answer changes only the first question with its id, and keeps every id |
| Requisitions.ApplyAnswersEffect | JobReqDelivery/server/src/routes/requisitions.ts:141-149 | Ids and order are kept; the first question with an id records the last answer for it and is marked answered; answers with unknown ids are ignored and every other question is unchanged |
| Requisitions.ApplyDistinctAnswers | JobReqDelivery/server/src/routes/requisitions.ts:141-149 | With distinct ids and one answer per question, every answered question holds its answer and no other question changes |
| Requisitions.AnswerAnalysis | JobReqDelivery/server/src/routes/requisitions.ts:141-148 | The answers are merged into the clarifying questions and nothing else in the record changes, except that a completed record's last round shows the same merged list, because a completed run's final output holds that round's open-question array itself (AgentOrchestrator.ts line 208) |
| Requisitions.AnswerKeepsShared | JobReqDelivery/server/src/routes/requisitions.ts:141-148 | Answering a record whose two views agree keeps them in agreement, and the last round's open questions become its old ones with the answers merged in |
| Requisitions.Clarify | JobReqDelivery/server/src/routes/requisitions.ts:117-164 | A not-found reply leaves the stores alone |
| Requisitions.ClarifyEffect | JobReqDelivery/server/src/routes/requisitions.ts:117-164 | Clarify fails exactly when the requisition or its analysis is missing; otherwise only the earliest analysis changes: its clarifying questions become the merge of the answers, and a completed record's last round is answered with them; a lookup then shows it |
| Requisitions.ClarifyKeepsShared | JobReqDelivery/server/src/routes/requisitions.ts:141-151 | Clarify keeps every stored record's final questions and last-round open questions in agreement |
| Requisitions.CreateKeepsShared | JobReqDelivery/server/src/routes/requisitions.ts:40-63 | A create adds a processing record, which shares no list, so every record still agrees |
| Requisitions.SettledRunShares | JobReqDelivery/server/src/agents/AgentOrchestrator.ts:199-210 | A completed run takes its final questions from its last round, and a rejected one is failed, so the settled record agrees |
| Requisitions.RunLeavesShared | JobReqDelivery/server/src/routes/requisitions.ts:73-78 | The record any orchestrator run settles into agrees, whether the run completed or was rejected |
| Requisitions.SettleKeepsShared | JobReqDelivery/server/src/routes/requisitions.ts:73-78 | Settling a stored record's run keeps every record in agreement |
| Requisitions.ClarifyKeepsKeysDistinct | JobReqDelivery/server/src/routes/requisitions.ts:151 | Clarify keeps the analysis store a map |
| Requisitions.Settle | JobReqDelivery/server/src/routes/requisitions.ts:73-78 | Settling the background run leaves the requisitions alone |
| Requisitions.SettleReplacesRecord | JobReqDelivery/server/src/routes/requisitions.ts:73-78 | The settled record becomes the run's result, failed when the run was rejected, and nothing else changes |
| Requisitions.SettleRecordsOutcome | JobReqDelivery/server/src/routes/requisitions.ts:73-78 | The record keeps its id and requisition, ends failed exactly when the run was rejected and completed otherwise, and no other record changes |
| Requisitions.RunKeepsIdentity | JobReqDelivery/server/src/agents/AgentOrchestrator.ts:94-245 | The orchestrator's run keeps the record's id and requisition |
| Requisitions.RunCompletes | JobReqDelivery/server/src/agents/AgentOrchestrator.ts:199-211 | A run that is not rejected leaves the record completed |

## Left out

- Network calls are not modelled: the providers' HTTP and streaming calls, the Anthropic, OpenAI and Ollama providers, and the consultant's agent SDK. Their answers enter as oracle functions.
- `JSON.parse` is a caller-supplied partial function. A parse that fails is `None`.
- `uuidv4` and the clock are parameters wherever the model keeps the value they produce. This covers the requisition and analysis ids, the consultant's session id, a question's backfilled id, the input-history timestamps and the analysis's creation and completion times. A call's latency is the number the provider reports.
- The timestamp of each orchestrator round (`new Date()` at JobReqDelivery/server/src/agents/AgentOrchestrator.ts:178) is not modelled. `Types.Iteration` has no such field, and nothing in the modelled code reads it.
- Requisitions.Create: one `now` stands for the three clock reads of a create (JobReqDelivery/server/src/routes/requisitions.ts:33, 34 and 60). The stored requisition's `createdAt` and `updatedAt` are therefore equal, and the analysis's `createdAt` equals them too. The source can store instants a millisecond apart.
- Prompt templates and the `$`-pattern rules of `String.prototype.replace` are not modelled. Only the values substituted into the prompts are.
- Socket.io progress emission and the client's socket hook are not modelled. The client reducer takes the events as actions.
- Real `localStorage` and the consultant's file storage are not modelled. Storage is an abstract map.
- A stored input table in which some fields are not lists is not modelled. The store holds either a table of entry lists or unparsable text. The source would still save into such a table, for example `{"a":5}` becomes `{"a":5,"b":[…]}`, keeping the malformed field.
- The consultant's save is reduced to whether it succeeded.
- Floating point is not modelled. Costs and the fit-score mean are `real`, with no IEEE rounding, no `NaN` from `parseFloat` and no display formatting.
- Rendering components and React plumbing are not modelled. The debounce and blur timers appear only through their eventual effect: `InputChanged` and `Close`.
- `GET /` of the requisition routes is not modelled. Its listing order depends on the map's iteration order.
- The 500 replies of the requisition routes are not modelled. They answer exceptions the model cannot raise.
- The requisition's intermediate pending status is not modelled. It is overwritten by processing before a reply is sent.
- While a run is under way, the server mutates the analysis in place. The model records only the settled end state: `Settle`.
- String lengths count characters, not UTF-16 code units.
- Case-insensitive comparison lowers ASCII letters only.
- `MODEL_PRICING` lookups by inherited object keys such as `constructor` are not modelled. The table is a map.
- Priority, difficulty and status strings coming from a model are kept as strings. The code does not check them against their enumerations.
- A satisfaction score coming from a model is taken as a number or absent. The source keeps a string score such as `"9"` through `|| 5` (JobReqDelivery/server/dist/agents/ProfessionalRecruiter.js:150). It then compares that string to the threshold by coercion (JobReqDelivery/server/src/agents/AgentOrchestrator.ts:183), so `"9"` counts as satisfied and a non-numeric string never does. `RecruiterOutput.satisfactionScore` is a `real`, which cannot represent such a string.
- AnalyzerAgent.AnalyzeWithUsage: the analyzer's title and four lists are taken as present. The source defaults none of them. A missing list would make the researcher's `join` (JobMarketResearcher.js:101-104) or the orchestrator's `ambiguities.length` (AgentOrchestrator.ts:126) throw after the analyzer's usage was counted; that failure path is not modelled.
- Consultant.ConfiguredRates: takes the two settings already read as numbers. `parseFloat` of an unparsable setting is not modelled.
- Usage.MergeUsage: its contract states only that a cost is present. The field-wise sums are stated through `MergeCommutes`, `MergeAssociates`, `MergeEmpty` and `ReplayTotals`.

=== FILE: agent_progress.dfy ===
/**
 * The progress screen's view of one agent: its status and latest message,
 * both read off the last event in the log that names that agent.
 */
module AgentProgressView {
  import opened Wrappers
  import opened Types
  import opened JsString
  import opened AppContext

  datatype AgentStatus = Pending | Active | Done

  function About(agent: AgentRole): ProgressEvent -> bool {
    (e: ProgressEvent) => e.agent == Some(agent)
  }

  /** The status a last event gives: started means active, completed means done, anything else pending. */
  function StatusAfter(t: EventType): AgentStatus {
    if t == AgentStart then Active else if t == AgentComplete then Done else AgentStatus.Pending
  }

  /** `getAgentStatus`: pending until the agent has an event, then the status its last event gives. */
  function GetAgentStatus(events: seq<ProgressEvent>, agent: AgentRole): (st: AgentStatus)
    ensures Filter(events, About(agent)) == [] ==> st == AgentStatus.Pending
  {
    var mine := Filter(events, About(agent));
    if |mine| == 0 then AgentStatus.Pending else StatusAfter(mine[|mine| - 1].eventType)
  }

  /** `getAgentMessage`: the message of the agent's last event, empty when it has none. */
  function GetAgentMessage(events: seq<ProgressEvent>, agent: AgentRole): (m: string)
    ensures Filter(events, About(agent)) == [] ==> m == ""
  {
    var mine := Filter(events, About(agent));
    if |mine| == 0 then "" else mine[|mine| - 1].message
  }

  /**
   * One more event changes an agent's view only when it names that agent, and then the view is
   * the one that event gives.
   */
  lemma EventUpdatesOnlyItsAgent(events: seq<ProgressEvent>, e: ProgressEvent, agent: AgentRole)
    ensures e.agent == Some(agent) ==>
      GetAgentStatus(events + [e], agent) == StatusAfter(e.eventType) && GetAgentMessage(events + [e], agent) == e.message
    ensures e.agent != Some(agent) ==>
      GetAgentStatus(events + [e], agent) == GetAgentStatus(events, agent)
      && GetAgentMessage(events + [e], agent) == GetAgentMessage(events, agent)
  {
    FilterAppend(events, [e], About(agent));
    assert Filter([e], About(agent)) == if e.agent == Some(agent) then [e] else [];
  }

  /** The position of the last event naming the agent, if any. */
  function LastOwn(events: seq<ProgressEvent>, agent: AgentRole): (r: Option<nat>)
    ensures r.None? <==> forall k :: 0 <= k < |events| ==> events[k].agent != Some(agent)
    ensures r.Some? ==> r.value < |events| && events[r.value].agent == Some(agent)
    ensures r.Some? ==> forall j :: r.value < j < |events| ==> events[j].agent != Some(agent)
    decreases |events|
  {
    if |events| == 0 then None
    else if events[|events| - 1].agent == Some(agent) then Some(|events| - 1)
    else LastOwn(events[..|events| - 1], agent)
  }

  /**
   * The status and message are those of the last event naming the agent, or pending and empty
   * when no event names it; events about other agents never matter.
   */
  lemma {:induction false} ViewIsLastOwnEvent(events: seq<ProgressEvent>, agent: AgentRole)
    ensures LastOwn(events, agent).None? ==>
      GetAgentStatus(events, agent) == AgentStatus.Pending && GetAgentMessage(events, agent) == ""
    ensures LastOwn(events, agent).Some? ==>
      GetAgentStatus(events, agent) == StatusAfter(events[LastOwn(events, agent).value].eventType)
      && GetAgentMessage(events, agent) == events[LastOwn(events, agent).value].message
    decreases |events|
  {
    if |events| == 0 {
      assert Filter(events, About(agent)) == [];
    } else {
      var init := events[..|events| - 1];
      var e := events[|events| - 1];
      assert events == init + [e];
      EventUpdatesOnlyItsAgent(init, e, agent);
      if e.agent != Some(agent) {
        ViewIsLastOwnEvent(init, agent);
        assert LastOwn(events, agent) == LastOwn(init, agent);
        if LastOwn(init, agent).Some? {
          assert init[LastOwn(init, agent).value] == events[LastOwn(init, agent).value];
        }
      }
    }
  }

  /** On the client, an `ADD_AGENT_PROGRESS` for another agent leaves this agent's card as it was. */
  lemma OtherAgentsEventKeepsCard(s: AppState, e: ProgressEvent, agent: AgentRole)
    requires e.agent != Some(agent)
    ensures GetAgentStatus(Reduce(s, AddAgentProgress(e)).agentProgress, agent) == GetAgentStatus(s.agentProgress, agent)
    ensures GetAgentMessage(Reduce(s, AddAgentProgress(e)).agentProgress, agent) == GetAgentMessage(s.agentProgress, agent)
  {
    EventUpdatesOnlyItsAgent(s.agentProgress, e, agent);
  }
}

=== FILE: app_context.dfy ===
/**
 * The client's application state and its reducer: every screen reads this
 * state and changes it only by dispatching one of the actions below.
 */
module AppContext {
  import opened Wrappers
  import opened Types
  import opened JsString

  datatype ViewState = FormView | ProcessingView | ResultsView

  /** The form has four steps, numbered from 1. */
  type FormStep = s: int | 1 <= s <= 4 witness 1

  datatype AppState = AppState(
    viewState: ViewState,
    currentStep: FormStep,
    formData: FormData,
    requisitionId: Option<string>,
    analysisResult: Option<AnalysisResult>,
    agentProgress: seq<ProgressEvent>,
    currentIteration: int,
    isSubmitting: bool,
    error: Option<string>,
    tokenUsage: Option<AnalysisTokenUsage>)

  /** An empty form: outsourced position, normal urgency. */
  const InitialFormData: FormData :=
    FormData(BasicInfo("", "", "", "外包"), "", "", AdditionalContext(Some(""), None, "正常", Some("")))

  const InitialState: AppState :=
    AppState(FormView, 1, InitialFormData, None, None, [], 0, false, None, None)

  /** A partial form: the top-level keys it carries replace the form's. */
  datatype FormPatch = FormPatch(
    basicInfo: Option<BasicInfo>,
    responsibilities: Option<string>,
    qualifications: Option<string>,
    additionalContext: Option<AdditionalContext>)

  /** A saved analysis reopened from the history list. */
  datatype HistoryPayload = HistoryPayload(
    formData: FormData,
    analysisResult: Option<AnalysisResult>,
    agentProgress: Option<seq<ProgressEvent>>,
    tokenUsage: Option<AnalysisTokenUsage>,
    requisitionId: Option<string>)

  /** The actions the reducer knows, and any other action type, which it ignores. */
  datatype Action =
    | SetView(view: ViewState)
    | SetStep(step: FormStep)
    | UpdateForm(patch: FormPatch)
    | SetFormData(form: FormData)
    | SetRequisitionId(id: string)
    | SetAnalysisResult(result: AnalysisResult)
    | AddAgentProgress(event: ProgressEvent)
    | SetAgentProgress(events: seq<ProgressEvent>)
    | SetIteration(iteration: int)
    | SetSubmitting(submitting: bool)
    | SetError(message: Option<string>)
    | SetTokenUsage(usage: AnalysisTokenUsage)
    | LoadHistory(payload: HistoryPayload)
    | Reset
    | Unrecognised(name: string)

  /** The fields of the state, to say which ones an action may change. */
  datatype Field =
    ViewField | StepField | FormField | RequisitionField | ResultField | ProgressField
    | IterationField | SubmittingField | ErrorField | TokenField

  /** Every field of `t` outside `changed` is as in `s`. */
  ghost predicate Unchanged(s: AppState, t: AppState, changed: set<Field>) {
    && (ViewField !in changed ==> t.viewState == s.viewState)
    && (StepField !in changed ==> t.currentStep == s.currentStep)
    && (FormField !in changed ==> t.formData == s.formData)
    && (RequisitionField !in changed ==> t.requisitionId == s.requisitionId)
    && (ResultField !in changed ==> t.analysisResult == s.analysisResult)
    && (ProgressField !in changed ==> t.agentProgress == s.agentProgress)
    && (IterationField !in changed ==> t.currentIteration == s.currentIteration)
    && (SubmittingField !in changed ==> t.isSubmitting == s.isSubmitting)
    && (ErrorField !in changed ==> t.error == s.error)
    && (TokenField !in changed ==> t.tokenUsage == s.tokenUsage)
  }

  function MergeForm(form: FormData, patch: FormPatch): FormData {
    FormData(
      patch.basicInfo.GetOr(form.basicInfo),
      patch.responsibilities.GetOr(form.responsibilities),
      patch.qualifications.GetOr(form.qualifications),
      patch.additionalContext.GetOr(form.additionalContext))
  }

  predicate IsIterationComplete(e: ProgressEvent) {
    e.eventType == IterationComplete
  }

  /** The number of completed rounds recorded in a saved event log, 0 without one. */
  function CompletedRounds(events: Option<seq<ProgressEvent>>): nat {
    match events
    case None => 0
    case Some(es) => |Filter(es, (e: ProgressEvent) => IsIterationComplete(e))|
  }

  /** `x || null` on an optional string: an empty string counts as missing. */
  function OrNull(s: Option<string>): (r: Option<string>)
    ensures r.None? <==> s.None? || s == Some("")
    ensures r.Some? ==> r == s
  {
    if s == Some("") then None else s
  }

  /** `appReducer`. */
  function Reduce(s: AppState, a: Action): (r: AppState)
    ensures a.Reset? ==> r == InitialState
    ensures a.Unrecognised? ==> r == s
  {
    match a
    case SetView(v) => s.(viewState := v)
    case SetStep(step) => s.(currentStep := step)
    case UpdateForm(patch) => s.(formData := MergeForm(s.formData, patch))
    case SetFormData(form) => s.(formData := form)
    case SetRequisitionId(id) => s.(requisitionId := Some(id))
    case SetAnalysisResult(result) => s.(analysisResult := Some(result))
    case AddAgentProgress(e) => s.(agentProgress := s.agentProgress + [e])
    case SetAgentProgress(events) => s.(agentProgress := events)
    case SetIteration(n) => s.(currentIteration := n)
    case SetSubmitting(b) => s.(isSubmitting := b)
    case SetError(m) => s.(error := m)
    case SetTokenUsage(u) => s.(tokenUsage := Some(u))
    case LoadHistory(p) =>
      s.(formData := p.formData,
         analysisResult := p.analysisResult,
         agentProgress := p.agentProgress.GetOr([]),
         tokenUsage := p.tokenUsage,
         requisitionId := OrNull(p.requisitionId),
         viewState := if p.analysisResult.Some? then ResultsView else FormView,
         currentStep := 1,
         currentIteration := CompletedRounds(p.agentProgress))
    case Reset => InitialState
    case Unrecognised(_) => s
  }

  /** The one field a plain setter writes. */
  function SetterField(a: Action): Field
    requires a.SetView? || a.SetStep? || a.SetFormData? || a.SetRequisitionId? || a.SetAnalysisResult?
      || a.SetAgentProgress? || a.SetIteration? || a.SetSubmitting? || a.SetError? || a.SetTokenUsage?
  {
    match a
    case SetView(_) => ViewField
    case SetStep(_) => StepField
    case SetFormData(_) => FormField
    case SetRequisitionId(_) => RequisitionField
    case SetAnalysisResult(_) => ResultField
    case SetAgentProgress(_) => ProgressField
    case SetIteration(_) => IterationField
    case SetSubmitting(_) => SubmittingField
    case SetError(_) => ErrorField
    case SetTokenUsage(_) => TokenField
  }

  /** Each `SET_*` action writes its payload into its own field and changes no other field. */
  lemma SetterChangesOnlyItsField(s: AppState, a: Action)
    requires a.SetView? || a.SetStep? || a.SetFormData? || a.SetRequisitionId? || a.SetAnalysisResult?
      || a.SetAgentProgress? || a.SetIteration? || a.SetSubmitting? || a.SetError? || a.SetTokenUsage?
    ensures Unchanged(s, Reduce(s, a), {SetterField(a)})
    ensures a.SetView? ==> Reduce(s, a).viewState == a.view
    ensures a.SetStep? ==> Reduce(s, a).currentStep == a.step
    ensures a.SetFormData? ==> Reduce(s, a).formData == a.form
    ensures a.SetRequisitionId? ==> Reduce(s, a).requisitionId == Some(a.id)
    ensures a.SetAnalysisResult? ==> Reduce(s, a).analysisResult == Some(a.result)
    ensures a.SetAgentProgress? ==> Reduce(s, a).agentProgress == a.events
    ensures a.SetIteration? ==> Reduce(s, a).currentIteration == a.iteration
    ensures a.SetSubmitting? ==> Reduce(s, a).isSubmitting == a.submitting
    ensures a.SetError? ==> Reduce(s, a).error == a.message
    ensures a.SetTokenUsage? ==> Reduce(s, a).tokenUsage == Some(a.usage)
  {
  }

  /** `ADD_AGENT_PROGRESS` puts the event at the end of the log and changes nothing else. */
  lemma AddProgressAppends(s: AppState, e: ProgressEvent)
    ensures Reduce(s, AddAgentProgress(e)).agentProgress == s.agentProgress + [e]
    ensures Unchanged(s, Reduce(s, AddAgentProgress(e)), {ProgressField})
  {
  }

  /** The payload carrying every key of `form`. */
  function FullPatch(form: FormData): FormPatch {
    FormPatch(Some(form.basicInfo), Some(form.responsibilities), Some(form.qualifications), Some(form.additionalContext))
  }

  /** `q` after `p`, key by key, the later one winning. */
  function Then(p: FormPatch, q: FormPatch): FormPatch {
    FormPatch(
      if q.basicInfo.Some? then q.basicInfo else p.basicInfo,
      if q.responsibilities.Some? then q.responsibilities else p.responsibilities,
      if q.qualifications.Some? then q.qualifications else p.qualifications,
      if q.additionalContext.Some? then q.additionalContext else p.additionalContext)
  }

  /**
   * A shallow merge: an empty payload changes nothing, a full one replaces the whole form,
   * merging a payload twice is merging it once, and two merges in a row are one merge in which
   * the later keys win.
   */
  lemma MergeFormLaws(form: FormData, other: FormData, p: FormPatch, q: FormPatch)
    ensures MergeForm(form, FormPatch(None, None, None, None)) == form
    ensures MergeForm(form, FullPatch(other)) == other
    ensures MergeForm(MergeForm(form, p), p) == MergeForm(form, p)
    ensures MergeForm(MergeForm(form, p), q) == MergeForm(form, Then(p, q))
  {
  }

  /** `UPDATE_FORM` replaces exactly the top-level form keys the payload carries, and no other field. */
  lemma UpdateFormMerges(s: AppState, p: FormPatch)
    ensures Unchanged(s, Reduce(s, UpdateForm(p)), {FormField})
    ensures var f := Reduce(s, UpdateForm(p)).formData;
      && f.basicInfo == (if p.basicInfo.Some? then p.basicInfo.value else s.formData.basicInfo)
      && f.responsibilities == (if p.responsibilities.Some? then p.responsibilities.value else s.formData.responsibilities)
      && f.qualifications == (if p.qualifications.Some? then p.qualifications.value else s.formData.qualifications)
      && f.additionalContext == (if p.additionalContext.Some? then p.additionalContext.value else s.formData.additionalContext)
  {
  }

  /** Two `UPDATE_FORM`s in a row act as one, and a full payload acts as `SET_FORM_DATA`. */
  lemma UpdateFormComposes(s: AppState, p: FormPatch, q: FormPatch, form: FormData)
    ensures Reduce(Reduce(s, UpdateForm(p)), UpdateForm(q)) == Reduce(s, UpdateForm(Then(p, q)))
    ensures Reduce(s, UpdateForm(FullPatch(form))) == Reduce(s, SetFormData(form))
  {
    MergeFormLaws(s.formData, form, p, q);
  }

  /**
   * `LOAD_HISTORY` shows the results exactly when the saved analysis has a result, returns to
   * step 1, counts the completed rounds in the saved log, turns missing parts into empty ones,
   * and leaves the submitting flag and the error alone.
   */
  lemma LoadHistoryEffect(s: AppState, p: HistoryPayload)
    ensures Reduce(s, LoadHistory(p)).viewState == ResultsView <==> p.analysisResult.Some?
    ensures Reduce(s, LoadHistory(p)).viewState != ProcessingView
    ensures Reduce(s, LoadHistory(p)).currentStep == 1
    ensures Reduce(s, LoadHistory(p)).formData == p.formData
    ensures Reduce(s, LoadHistory(p)).analysisResult == p.analysisResult
    ensures Reduce(s, LoadHistory(p)).agentProgress == if p.agentProgress.Some? then p.agentProgress.value else []
    ensures Reduce(s, LoadHistory(p)).tokenUsage == p.tokenUsage
    ensures Reduce(s, LoadHistory(p)).requisitionId.None? <==> p.requisitionId.None? || p.requisitionId == Some("")
    ensures Reduce(s, LoadHistory(p)).currentIteration ==
      if p.agentProgress.None? then 0 else |Filter(p.agentProgress.value, (e: ProgressEvent) => IsIterationComplete(e))|
    ensures Unchanged(s, Reduce(s, LoadHistory(p)),
      {ViewField, StepField, FormField, RequisitionField, ResultField, ProgressField, IterationField, TokenField})
  {
  }

  /** `RESET` returns the initial state whatever the state was, so a second reset changes nothing. */
  lemma ResetForgetsEverything(s: AppState, t: AppState)
    ensures Reduce(s, Reset) == Reduce(t, Reset)
    ensures Reduce(Reduce(s, Reset), Reset) == Reduce(s, Reset)
    ensures Reduce(s, Reset).viewState == FormView && Reduce(s, Reset).currentStep == 1
    ensures Reduce(s, Reset).agentProgress == [] && !Reduce(s, Reset).isSubmitting
  {
  }

  /** Dispatching a list of actions in order. */
  function ReduceAll(s: AppState, actions: seq<Action>): AppState
    decreases |actions|
  {
    if |actions| == 0 then s else ReduceAll(Reduce(s, actions[0]), actions[1..])
  }

  function ProgressActions(events: seq<ProgressEvent>): (r: seq<Action>)
    ensures |r| == |events|
    ensures forall k :: 0 <= k < |r| ==> r[k] == AddAgentProgress(events[k])
  {
    seq(|events|, k requires 0 <= k < |events| => AddAgentProgress(events[k]))
  }

  /** Streaming events one by one appends them to the log in arrival order and changes nothing else. */
  lemma {:induction false} StreamedProgressAppends(s: AppState, events: seq<ProgressEvent>)
    ensures ReduceAll(s, ProgressActions(events)).agentProgress == s.agentProgress + events
    ensures Unchanged(s, ReduceAll(s, ProgressActions(events)), {ProgressField})
    decreases |events|
  {
    if |events| > 0 {
      var next := Reduce(s, AddAgentProgress(events[0]));
      assert ProgressActions(events)[1..] == ProgressActions(events[1..]);
      StreamedProgressAppends(next, events[1..]);
      assert s.agentProgress + [events[0]] + events[1..] == s.agentProgress + events;
    } else {
      assert s.agentProgress + events == s.agentProgress;
    }
  }
}

=== FILE: consultant.dfy ===
/**
 * The consultant chat: one submission moves a consultation through
 * INITIAL → CLARIFYING → COMPLETED, calling the requirements analyzer, the
 * market researcher and the recruiter, and adding up the tokens they report.
 *
 * The agents are oracles returning a value or an error; persisting the
 * consultation is reduced to whether the save succeeded.
 */
module Consultant {
  import opened Wrappers
  import opened JsString

  datatype Step = Initial | Clarifying | Completed

  /** The recruiter is consulted at most this many times before the consultation is closed. */
  const MaxRounds: int := 3

  /** Token counts one agent call reports. */
  datatype Tokens = Tokens(promptTokens: int, completionTokens: int, totalTokens: int)

  /** The running totals of a consultation; the cost is in US dollars. */
  datatype Totals = Totals(inputTokens: int, outputTokens: int, totalTokens: int, estimatedCost: real)

  const ZeroTotals: Totals := Totals(0, 0, 0, 0.0)

  /** Dollar prices per million input and output tokens. */
  datatype Rates = Rates(inputRate: real, outputRate: real)

  /** The rates when the environment sets none: 2.00 and 12.00 dollars per million tokens. */
  const DefaultRates: Rates := Rates(2.0, 12.0)

  /** The rates from the environment's two settings, already read as numbers; an unset one takes its default. */
  function ConfiguredRates(input: Option<real>, output: Option<real>): (r: Rates)
    ensures input.None? ==> r.inputRate == 2.0
    ensures output.None? ==> r.outputRate == 12.0
    ensures input.Some? ==> r.inputRate == input.value
    ensures output.Some? ==> r.outputRate == output.value
  {
    Rates(input.GetOr(DefaultRates.inputRate), output.GetOr(DefaultRates.outputRate))
  }

  /** `calculateCost`. */
  function CalculateCost(input: int, output: int, rates: Rates): real {
    input as real / 1000000.0 * rates.inputRate + output as real / 1000000.0 * rates.outputRate
  }

  /** `accumulateUsage`: a call that reported nothing adds nothing. */
  function AccumulateUsage(current: Totals, newUsage: Option<Tokens>, rates: Rates): Totals {
    match newUsage
    case None => current
    case Some(u) =>
      Totals(
        current.inputTokens + u.promptTokens,
        current.outputTokens + u.completionTokens,
        current.totalTokens + u.totalTokens,
        current.estimatedCost + CalculateCost(u.promptTokens, u.completionTokens, rates))
  }

  /**
   * No tokens cost nothing, cost grows with either count at non-negative rates, and a call without
   * a usage report leaves the totals as they were.
   */
  lemma CostLaws(current: Totals, input: int, output: int, rates: Rates)
    ensures CalculateCost(0, 0, rates) == 0.0
    ensures input >= 0 && output >= 0 && rates.inputRate >= 0.0 && rates.outputRate >= 0.0 ==>
      CalculateCost(input, output, rates) >= 0.0
    ensures CalculateCost(input, output, DefaultRates) == (2.0 * input as real + 12.0 * output as real) / 1000000.0
    ensures AccumulateUsage(current, None, rates) == current
  {
  }

  function Prompt(u: Option<Tokens>): int { if u.Some? then u.value.promptTokens else 0 }
  function Completion(u: Option<Tokens>): int { if u.Some? then u.value.completionTokens else 0 }
  function Total(u: Option<Tokens>): int { if u.Some? then u.value.totalTokens else 0 }

  function SumPrompt(us: seq<Option<Tokens>>): int decreases |us| {
    if |us| == 0 then 0 else Prompt(us[0]) + SumPrompt(us[1..])
  }
  function SumCompletion(us: seq<Option<Tokens>>): int decreases |us| {
    if |us| == 0 then 0 else Completion(us[0]) + SumCompletion(us[1..])
  }
  function SumTotal(us: seq<Option<Tokens>>): int decreases |us| {
    if |us| == 0 then 0 else Total(us[0]) + SumTotal(us[1..])
  }

  /** Accumulating the reports of several calls, in order. */
  function AccumulateAll(current: Totals, us: seq<Option<Tokens>>, rates: Rates): Totals
    decreases |us|
  {
    if |us| == 0 then current else AccumulateAll(AccumulateUsage(current, us[0], rates), us[1..], rates)
  }

  /**
   * After any number of calls the totals are the starting totals plus the sums of what the calls
   * reported, and the cost is the starting cost plus the price of the summed token counts.
   */
  lemma {:induction false} AccumulateAllSums(current: Totals, us: seq<Option<Tokens>>, rates: Rates)
    ensures AccumulateAll(current, us, rates).inputTokens == current.inputTokens + SumPrompt(us)
    ensures AccumulateAll(current, us, rates).outputTokens == current.outputTokens + SumCompletion(us)
    ensures AccumulateAll(current, us, rates).totalTokens == current.totalTokens + SumTotal(us)
    ensures AccumulateAll(current, us, rates).estimatedCost ==
      current.estimatedCost + CalculateCost(SumPrompt(us), SumCompletion(us), rates)
    decreases |us|
  {
    if |us| > 0 {
      AccumulateAllSums(AccumulateUsage(current, us[0], rates), us[1..], rates);
    }
  }

  datatype JobInput = JobInput(title: Option<string>, responsibilities: string, qualifications: string, otherInfo: Option<string>)

  datatype AnalyzerOut = AnalyzerOut(jobTitle: string, analysisSummary: string, missingInfo: seq<string>, usage: Option<Tokens>)

  datatype ResearchOut = ResearchOut(
    similarPositions: seq<string>,
    candidatePersona: string,
    capabilityProfile: string,
    domainAnalysis: string,
    usage: Option<Tokens>)

  datatype RecruiterOut = RecruiterOut(
    clarificationQuestions: seq<string>,
    isComplete: bool,
    candidateProfile: Option<string>,
    searchKeywords: Option<seq<string>>,
    difficultyAssessment: Option<string>,
    finalReport: Option<string>,
    usage: Option<Tokens>)

  /** One clarifying exchange: the questions that were asked and the client's reply. */
  datatype Exchange = Exchange(question: string, answer: string)

  datatype Role = User | Assistant

  datatype Message = Message(role: Role, content: string)

  /** A consultation; the totals may be missing in a consultation saved by an older version. */
  datatype State = State(
    id: Option<string>,
    step: Step,
    iteration: int,
    jobInput: JobInput,
    analysis: Option<AnalyzerOut>,
    research: Option<ResearchOut>,
    recruiter: Option<RecruiterOut>,
    history: seq<Exchange>,
    messages: seq<Message>,
    usage: Option<Totals>)

  /** The three agents; each returns its output or fails. */
  datatype Agents = Agents(
    analyze: JobInput -> Result<AnalyzerOut, string>,
    research: (JobInput, string) -> Result<ResearchOut, string>,
    consult: (JobInput, Option<AnalyzerOut>, Option<ResearchOut>, seq<Exchange>, int) -> Result<RecruiterOut, string>)

  const DoneText: string := "分析完成。"
  const ErrorText: string := "抱歉，处理您的请求时出现错误。请稍后重试。"
  const FirstQuestionsText: string := "为了更精准地匹配候选人，我需要向您确认以下信息：\n\n"
  const MoreQuestionsText: string := "还有一些细节需要确认：\n\n"
  const NoQuestionsText: string := "General Clarification"

  /** The closing message: the recruiter's report, or a plain notice when it wrote none. */
  function Report(rec: RecruiterOut): string {
    match rec.finalReport
    case Some(text) => if text == "" then DoneText else text
    case None => DoneText
  }

  function Say(s: State, text: string): (r: State)
    ensures r.messages == s.messages + [Message(Assistant, text)]
  {
    s.(messages := s.messages + [Message(Assistant, text)])
  }

  function Totals0(s: State): Totals {
    s.usage.GetOr(ZeroTotals)
  }

  /**
   * What happens before any agent is called: the totals exist, a consultation without an id
   * (or with an empty one) gets `freshId`, and the user's message is appended.
   */
  function Prepare(prev: State, userInput: string, freshId: string): (s: State)
    ensures s.usage == Some(Totals0(prev))
    ensures s.messages == prev.messages + [Message(User, userInput)]
  {
    prev.(usage := Some(Totals0(prev)),
          id := if prev.id.None? || prev.id == Some("") then Some(freshId) else prev.id,
          messages := prev.messages + [Message(User, userInput)])
  }

  /** The job the first turn works on: the user's text as both responsibilities and qualifications. */
  function FirstInput(userInput: string): JobInput {
    JobInput(Some(""), userInput, userInput, Some(""))
  }

  /** The first turn: analyze, research and consult once on the user's text. */
  function FirstTurn(s: State, userInput: string, agents: Agents, rates: Rates): Result<State, State> {
    var input := FirstInput(userInput);
    match agents.analyze(input)
    case Err(_) => Err(s)
    case Ok(analysis) =>
      var s1 := s.(analysis := Some(analysis),
                   jobInput := input.(title := Some(analysis.jobTitle)),
                   usage := Some(AccumulateUsage(Totals0(s), analysis.usage, rates)));
      match agents.research(input, analysis.jobTitle)
      case Err(_) => Err(s1)
      case Ok(research) =>
        var s2 := s1.(research := Some(research), usage := Some(AccumulateUsage(Totals0(s1), research.usage, rates)));
        match agents.consult(input, Some(analysis), Some(research), [], 1)
        case Err(_) => Err(s2)
        case Ok(rec) =>
          var s3 := s2.(recruiter := Some(rec), usage := Some(AccumulateUsage(Totals0(s2), rec.usage, rates)), iteration := 1);
          if rec.isComplete then Ok(Say(s3.(step := Completed), Report(rec)))
          else Ok(Say(s3.(step := Clarifying), FirstQuestionsText + Join(rec.clarificationQuestions, "\n\n")))
  }

  /** The questions the reply answers: the recruiter's last questions, or a placeholder. */
  function LastQuestions(s: State): string {
    match s.recruiter
    case None => NoQuestionsText
    case Some(rec) => var q := Join(rec.clarificationQuestions, "\n"); if q == "" then NoQuestionsText else q
  }

  /** A later turn: record the exchange, count the round, and consult again. */
  function ClarifyTurn(s: State, userInput: string, agents: Agents, rates: Rates): Result<State, State> {
    var s1 := s.(history := s.history + [Exchange(LastQuestions(s), userInput)], iteration := s.iteration + 1);
    match agents.consult(s1.jobInput, s1.analysis, s1.research, s1.history, s1.iteration)
    case Err(_) => Err(s1)
    case Ok(rec) =>
      var s2 := s1.(recruiter := Some(rec), usage := Some(AccumulateUsage(Totals0(s1), rec.usage, rates)));
      if rec.isComplete || s1.iteration >= MaxRounds then Ok(Say(s2.(step := Completed), Report(rec)))
      else Ok(Say(s2, MoreQuestionsText + Join(rec.clarificationQuestions, "\n\n")))
  }

  /**
   * `submitConsultation`. A failing agent or a failing save is not rethrown: the state reached so
   * far is returned with an apology appended.
   */
  function Submit(prev: State, userInput: string, agents: Agents, rates: Rates, freshId: string, saveOk: bool): State {
    var s := Prepare(prev, userInput, freshId);
    var outcome :=
      match s.step
      case Initial => FirstTurn(s, userInput, agents, rates)
      case Clarifying => ClarifyTurn(s, userInput, agents, rates)
      case Completed => Ok(s);
    match outcome
    case Ok(t) => if saveOk then t else Say(t, ErrorText)
    case Err(t) => Say(t, ErrorText)
  }

  /** How far along a consultation is. */
  function Rank(step: Step): nat {
    match step
    case Initial => 0
    case Clarifying => 1
    case Completed => 2
  }

  /**
   * Every submission keeps the earlier messages, appends the user's message before anything else
   * and then at most two assistant messages, gives an id only to a consultation without one,
   * always leaves totals behind, never moves the consultation back a step, and ends with the
   * apology when the save fails.
   */
  lemma SubmitFrame(prev: State, userInput: string, agents: Agents, rates: Rates, freshId: string, saveOk: bool)
    ensures var r := Submit(prev, userInput, agents, rates, freshId, saveOk);
      && |prev.messages| + 1 <= |r.messages| <= |prev.messages| + 3
      && r.messages[..|prev.messages| + 1] == prev.messages + [Message(User, userInput)]
      && (forall k :: |prev.messages| < k < |r.messages| ==> r.messages[k].role == Assistant)
      && r.id == (if prev.id.None? || prev.id == Some("") then Some(freshId) else prev.id)
      && r.usage.Some?
      && Rank(r.step) >= Rank(prev.step)
      && (!saveOk ==> r.messages[|r.messages| - 1] == Message(Assistant, ErrorText))
  {
  }

  /**
   * A first turn whose three calls all return sets round 1, completes exactly when the recruiter
   * says so and otherwise waits for clarification, keeps the analyzed title, and counts the usage
   * of all three calls.
   */
  lemma FirstTurnSucceeds(prev: State, userInput: string, agents: Agents, rates: Rates, freshId: string, saveOk: bool,
                          a: AnalyzerOut, b: ResearchOut, c: RecruiterOut)
    requires prev.step == Initial
    requires agents.analyze(FirstInput(userInput)) == Ok(a)
    requires agents.research(FirstInput(userInput), a.jobTitle) == Ok(b)
    requires agents.consult(FirstInput(userInput), Some(a), Some(b), [], 1) == Ok(c)
    ensures var r := Submit(prev, userInput, agents, rates, freshId, saveOk);
      && r.iteration == 1
      && (r.step == Completed <==> c.isComplete)
      && (r.step == Clarifying <==> !c.isComplete)
      && r.analysis == Some(a) && r.research == Some(b) && r.recruiter == Some(c)
      && r.jobInput.title == Some(a.jobTitle)
      && r.history == prev.history
      && r.usage == Some(AccumulateAll(Totals0(prev), [a.usage, b.usage, c.usage], rates))
      && (c.isComplete && saveOk ==> r.messages[|r.messages| - 1] == Message(Assistant, Report(c)))
  {
    var t := Totals0(prev);
    var t1 := AccumulateUsage(t, a.usage, rates);
    var t2 := AccumulateUsage(t1, b.usage, rates);
    var t3 := AccumulateUsage(t2, c.usage, rates);
    assert [a.usage, b.usage, c.usage][1..] == [b.usage, c.usage];
    assert [b.usage, c.usage][1..] == [c.usage];
    assert AccumulateAll(t3, [], rates) == t3;
    assert AccumulateAll(t2, [c.usage], rates) == t3;
    assert AccumulateAll(t1, [b.usage, c.usage], rates) == t3;
  }

  /**
   * A first turn whose call fails stays in the first step, apologises, and counts only the calls
   * that returned before the failure.
   */
  lemma FirstTurnFails(prev: State, userInput: string, agents: Agents, rates: Rates, freshId: string, saveOk: bool)
    requires prev.step == Initial
    ensures var r := Submit(prev, userInput, agents, rates, freshId, saveOk);
      var input := FirstInput(userInput);
      && (agents.analyze(input).Err? ==>
            r.step == Initial && r.usage == Some(Totals0(prev)) && r.analysis == prev.analysis
            && r.messages[|r.messages| - 1] == Message(Assistant, ErrorText))
      && (agents.analyze(input).Ok? && agents.research(input, agents.analyze(input).value.jobTitle).Err? ==>
            r.step == Initial && r.analysis == Some(agents.analyze(input).value) && r.research == prev.research
            && r.usage == Some(AccumulateUsage(Totals0(prev), agents.analyze(input).value.usage, rates))
            && r.messages[|r.messages| - 1] == Message(Assistant, ErrorText))
      && (agents.analyze(input).Ok? ==>
            var a := agents.analyze(input).value;
            agents.research(input, a.jobTitle).Ok? ==>
              var b := agents.research(input, a.jobTitle).value;
              agents.consult(input, Some(a), Some(b), [], 1).Err? ==>
                && r.step == Initial && r.iteration == prev.iteration
                && r.analysis == Some(a) && r.research == Some(b) && r.recruiter == prev.recruiter
                && r.jobInput.title == Some(a.jobTitle)
                && r.usage == Some(AccumulateAll(Totals0(prev), [a.usage, b.usage], rates))
                && r.messages[|r.messages| - 1] == Message(Assistant, ErrorText))
  {
    var input := FirstInput(userInput);
    if agents.analyze(input).Ok? {
      var a := agents.analyze(input).value;
      if agents.research(input, a.jobTitle).Ok? {
        var b := agents.research(input, a.jobTitle).value;
        var t1 := AccumulateUsage(Totals0(prev), a.usage, rates);
        var t2 := AccumulateUsage(t1, b.usage, rates);
        assert [a.usage, b.usage][1..] == [b.usage];
        assert [b.usage][1..] == [];
        assert AccumulateAll(t2, [], rates) == t2;
        assert AccumulateAll(t1, [b.usage], rates) == t2;
      }
    }
  }

  /**
   * A clarifying turn records one exchange and counts one more round whatever happens; when the
   * recruiter returns, the consultation completes exactly when the recruiter says so or the round
   * limit is reached, and its usage is counted; when it fails, the step and recruiter output stay
   * and an apology is appended.
   */
  lemma ClarifyTurnEffect(prev: State, userInput: string, agents: Agents, rates: Rates, freshId: string, saveOk: bool)
    requires prev.step == Clarifying
    ensures var r := Submit(prev, userInput, agents, rates, freshId, saveOk);
      var history := prev.history + [Exchange(LastQuestions(prev), userInput)];
      var call := agents.consult(prev.jobInput, prev.analysis, prev.research, history, prev.iteration + 1);
      && r.history == history
      && r.iteration == prev.iteration + 1
      && (call.Ok? ==>
            && (r.step == Completed <==> call.value.isComplete || prev.iteration + 1 >= MaxRounds)
            && (r.step == Clarifying <==> !(call.value.isComplete || prev.iteration + 1 >= MaxRounds))
            && r.recruiter == Some(call.value)
            && r.usage == Some(AccumulateUsage(Totals0(prev), call.value.usage, rates)))
      && (call.Err? ==>
            && r.step == Clarifying && r.recruiter == prev.recruiter && r.usage == Some(Totals0(prev))
            && r.messages[|r.messages| - 1] == Message(Assistant, ErrorText))
  {
  }

  /** A completed consultation calls no agent: only the id, the totals and the messages change. */
  lemma CompletedCallsNoAgent(prev: State, userInput: string, agents: Agents, other: Agents, rates: Rates, freshId: string, saveOk: bool)
    requires prev.step == Completed
    ensures Submit(prev, userInput, agents, rates, freshId, saveOk) == Submit(prev, userInput, other, rates, freshId, saveOk)
    ensures Submit(prev, userInput, agents, rates, freshId, saveOk) ==
      if saveOk then Prepare(prev, userInput, freshId) else Say(Prepare(prev, userInput, freshId), ErrorText)
  {
  }
}

=== FILE: history_storage.dfy ===
/**
 * The client's history store: the list of past analyses and, per form field,
 * the list of values typed before, both kept under fixed keys of the
 * browser's local storage.
 *
 * Local storage is a map from key to what the key holds once parsed: a list
 * of analyses, a table of per-field input lists, or text that does not
 * parse. The last case also stands for a parsed value that is not a list,
 * or not an object of lists, where the code's sort or lookup throws and its
 * catch falls back as for unparsable text. A table in which only some
 * fields hold lists is not represented: the code would keep such a table's
 * other fields when saving. An absent key and an empty string are the same,
 * as both are falsy. Timestamps are the millisecond values their ISO strings
 * denote; the wall clock is a parameter.
 */
module HistoryStorage {
  import opened Wrappers
  import opened JsString
  import opened Types
  import opened StableSort

  const HistoryKey: string := "job_req_analysis_history"
  const InputHistoryKey: string := "job_req_input_history"
  const MaxHistoryEntries: nat := 50
  const MaxInputHistoryPerField: nat := 20
  const MaxSuggestions: nat := 10
  const MinInputLength: nat := 2

  /** One past analysis, with what the client shows of it. */
  datatype HistoryEntry = HistoryEntry(
    id: string,
    requisitionId: string,
    title: string,
    department: string,
    location: string,
    jobType: string,
    status: AnalysisStatus,
    createdAt: int,
    completedAt: Option<int>,
    formData: FormData,
    analysisResult: Option<AnalysisResult>,
    agentProgress: Option<seq<ProgressEvent>>,
    tokenUsage: Option<AnalysisTokenUsage>)

  /** One remembered input value, with when it was last used and how often. */
  datatype InputEntry = InputEntry(value: string, timestamp: int, count: int)

  /** What a key of local storage holds, once parsed. */
  datatype Stored =
    | AnalysisList(entries: seq<HistoryEntry>)
    | InputTable(fields: map<string, seq<InputEntry>>)
    | Unparsable

  type Store = map<string, Stored>

  // ==================== analysis history ====================

  /** Newest first. */
  function CreatedKey(e: HistoryEntry): Key {
    Key(e.createdAt, 0)
  }

  function IdOf(e: HistoryEntry): string {
    e.id
  }

  function HasId(id: string): HistoryEntry -> bool {
    (h: HistoryEntry) => h.id == id
  }

  function NotId(id: string): HistoryEntry -> bool {
    (h: HistoryEntry) => h.id != id
  }

  /** The list as stored, or nothing when the key is absent or holds something else. */
  function StoredHistory(store: Store): seq<HistoryEntry> {
    if HistoryKey in store && store[HistoryKey].AnalysisList? then store[HistoryKey].entries else []
  }

  /** `getAnalysisHistory`: the stored entries, newest first; none when absent or unreadable. */
  function GetAnalysisHistory(store: Store): (r: seq<HistoryEntry>)
    ensures multiset(r) == multiset(StoredHistory(store))
    ensures Descending(r, CreatedKey)
    ensures (HistoryKey !in store || !store[HistoryKey].AnalysisList?) ==> r == []
  {
    SortDescending(StoredHistory(store), CreatedKey);
    Sort(StoredHistory(store), CreatedKey)
  }

  /**
   * The list step of a save: replace the first entry with the entry's id in place, or else put
   * the entry in front; then keep the first 50.
   */
  function Upsert(history: seq<HistoryEntry>, entry: HistoryEntry): (r: seq<HistoryEntry>)
    ensures |r| <= MaxHistoryEntries
    ensures (forall k :: 0 <= k < |history| ==> history[k].id != entry.id) ==> r == Take([entry] + history, MaxHistoryEntries)
    ensures (exists k :: 0 <= k < |history| && history[k].id == entry.id) ==> |r| == |Take(history, MaxHistoryEntries)|
    ensures forall i :: 0 <= i < |history| && history[i].id == entry.id && (forall k :: 0 <= k < i ==> history[k].id != entry.id) ==>
      r == Take(history[i := entry], MaxHistoryEntries)
    ensures forall k :: 0 <= k < |r| ==> r[k] == entry || r[k] in history
  {
    var updated := match FindIndex(history, HasId(entry.id))
      case Some(i) => history[i := entry]
      case None => [entry] + history;
    assert forall k :: 0 <= k < |updated| ==> updated[k] == entry || updated[k] in history;
    Take(updated, MaxHistoryEntries)
  }

  /** `saveAnalysisToHistory`: writes the upserted newest-first list under the history key, and nothing else. */
  function SaveAnalysisToHistory(store: Store, entry: HistoryEntry): (r: Store)
    ensures HistoryKey in r && r[HistoryKey] == AnalysisList(Upsert(GetAnalysisHistory(store), entry))
    ensures forall key :: key != HistoryKey ==> (key in r <==> key in store) && (key in store ==> r[key] == store[key])
  {
    store[HistoryKey := AnalysisList(Upsert(GetAnalysisHistory(store), entry))]
  }

  /** `getAnalysisById`: the first entry with the id in the newest-first list, if any. */
  function GetAnalysisById(store: Store, id: string): (r: Option<HistoryEntry>)
    ensures r.Some? ==> r.value.id == id && r.value in StoredHistory(store)
    ensures r.Some? ==>
      exists i :: 0 <= i < |GetAnalysisHistory(store)| && GetAnalysisHistory(store)[i] == r.value &&
        forall j :: 0 <= j < i ==> GetAnalysisHistory(store)[j].id != id
    ensures r.None? <==> forall k :: 0 <= k < |StoredHistory(store)| ==> StoredHistory(store)[k].id != id
  {
    var history := GetAnalysisHistory(store);
    match FindIndex(history, HasId(id))
    case Some(i) =>
      assert history[i] in multiset(StoredHistory(store));
      Some(history[i])
    case None =>
      assert forall k :: 0 <= k < |StoredHistory(store)| ==> StoredHistory(store)[k] in multiset(history);
      None
  }

  /**
   * After a save, looking the entry up by its id gives exactly that entry, provided the stored
   * list respected the cap and told its entries apart by id, as every save leaves it.
   */
  lemma SaveThenGetById(store: Store, entry: HistoryEntry)
    requires |StoredHistory(store)| <= MaxHistoryEntries
    requires DistinctBy(StoredHistory(store), IdOf)
    ensures GetAnalysisById(SaveAnalysisToHistory(store, entry), entry.id) == Some(entry)
  {
    var history := GetAnalysisHistory(store);
    SortKeepsDistinct(StoredHistory(store), CreatedKey, IdOf);
    var saved := SaveAnalysisToHistory(store, entry);
    var list := Upsert(history, entry);
    assert StoredHistory(saved) == list;
    match FindIndex(history, HasId(entry.id))
    case Some(i) =>
      assert list == history[i := entry];
      forall k | 0 <= k < |list| && k != i
        ensures list[k].id != entry.id
      {
        assert IdOf(history[k]) != IdOf(history[i]);
      }
      GetSavedEntry(saved, entry, i);
    case None =>
      assert list == Take([entry] + history, MaxHistoryEntries);
      forall k | 0 < k < |list|
        ensures list[k].id != entry.id
      {
        assert list[k] == history[k - 1];
      }
      GetSavedEntry(saved, entry, 0);
  }

  /** If the entry is stored and is the only stored entry with its id, the lookup finds it. */
  lemma GetSavedEntry(store: Store, entry: HistoryEntry, i: nat)
    requires i < |StoredHistory(store)| && StoredHistory(store)[i] == entry
    requires forall k :: 0 <= k < |StoredHistory(store)| && k != i ==> StoredHistory(store)[k].id != entry.id
    ensures GetAnalysisById(store, entry.id) == Some(entry)
  {
    var history := GetAnalysisHistory(store);
    var r := GetAnalysisById(store, entry.id);
    assert r.Some?;
    assert r.value in multiset(StoredHistory(store));
    var m :| 0 <= m < |StoredHistory(store)| && StoredHistory(store)[m] == r.value;
    assert m == i;
  }

  /** An upsert keeps the ids of a list distinct. */
  lemma UpsertKeepsDistinct(history: seq<HistoryEntry>, entry: HistoryEntry)
    requires DistinctBy(history, IdOf)
    ensures DistinctBy(Upsert(history, entry), IdOf)
  {
    var list := Upsert(history, entry);
    match FindIndex(history, HasId(entry.id))
    case Some(i) =>
      assert list == Take(history[i := entry], MaxHistoryEntries);
      forall a, b | 0 <= a < |list| && 0 <= b < |list| && a != b
        ensures IdOf(list[a]) != IdOf(list[b])
      {
        assert IdOf(history[a]) != IdOf(history[b]);
      }
    case None =>
      assert list == Take([entry] + history, MaxHistoryEntries);
      forall a, b | 0 <= a < |list| && 0 <= b < |list| && a != b
        ensures IdOf(list[a]) != IdOf(list[b])
      {
        if a > 0 && b > 0 {
          assert IdOf(history[a - 1]) != IdOf(history[b - 1]);
        } else if a == 0 {
          assert list[b] == history[b - 1];
        } else {
          assert list[a] == history[a - 1];
        }
      }
  }

  /** A save keeps the ids of the stored list distinct. */
  lemma SaveKeepsIdsDistinct(store: Store, entry: HistoryEntry)
    requires DistinctBy(StoredHistory(store), IdOf)
    ensures DistinctBy(StoredHistory(SaveAnalysisToHistory(store, entry)), IdOf)
  {
    SortKeepsDistinct(StoredHistory(store), CreatedKey, IdOf);
    UpsertKeepsDistinct(GetAnalysisHistory(store), entry);
    assert StoredHistory(SaveAnalysisToHistory(store, entry)) == Upsert(GetAnalysisHistory(store), entry);
  }

  /**
   * The fields of an entry an update may set. A field of `Partial<AnalysisHistoryEntry>` that is
   * present overrides, even when its value is `undefined`, which for the optional fields is the
   * inner `None`.
   */
  datatype Patch = Patch(
    id: Option<string>,
    requisitionId: Option<string>,
    title: Option<string>,
    department: Option<string>,
    location: Option<string>,
    jobType: Option<string>,
    status: Option<AnalysisStatus>,
    createdAt: Option<int>,
    completedAt: Option<Option<int>>,
    formData: Option<FormData>,
    analysisResult: Option<Option<AnalysisResult>>,
    agentProgress: Option<Option<seq<ProgressEvent>>>,
    tokenUsage: Option<Option<AnalysisTokenUsage>>)

  const NoChanges: Patch := Patch(None, None, None, None, None, None, None, None, None, None, None, None, None)

  /** `{ ...e, ...updates }`: each field the update carries overrides, and every other field is kept. */
  function Merge(e: HistoryEntry, p: Patch): (r: HistoryEntry)
    ensures p.id.Some? ==> r.id == p.id.value
    ensures p.id.None? ==> r.id == e.id
    ensures p.requisitionId.Some? ==> r.requisitionId == p.requisitionId.value
    ensures p.requisitionId.None? ==> r.requisitionId == e.requisitionId
    ensures p.title.Some? ==> r.title == p.title.value
    ensures p.title.None? ==> r.title == e.title
    ensures p.department.Some? ==> r.department == p.department.value
    ensures p.department.None? ==> r.department == e.department
    ensures p.location.Some? ==> r.location == p.location.value
    ensures p.location.None? ==> r.location == e.location
    ensures p.jobType.Some? ==> r.jobType == p.jobType.value
    ensures p.jobType.None? ==> r.jobType == e.jobType
    ensures p.status.Some? ==> r.status == p.status.value
    ensures p.status.None? ==> r.status == e.status
    ensures p.createdAt.Some? ==> r.createdAt == p.createdAt.value
    ensures p.createdAt.None? ==> r.createdAt == e.createdAt
    ensures p.completedAt.Some? ==> r.completedAt == p.completedAt.value
    ensures p.completedAt.None? ==> r.completedAt == e.completedAt
    ensures p.formData.Some? ==> r.formData == p.formData.value
    ensures p.formData.None? ==> r.formData == e.formData
    ensures p.analysisResult.Some? ==> r.analysisResult == p.analysisResult.value
    ensures p.analysisResult.None? ==> r.analysisResult == e.analysisResult
    ensures p.agentProgress.Some? ==> r.agentProgress == p.agentProgress.value
    ensures p.agentProgress.None? ==> r.agentProgress == e.agentProgress
    ensures p.tokenUsage.Some? ==> r.tokenUsage == p.tokenUsage.value
    ensures p.tokenUsage.None? ==> r.tokenUsage == e.tokenUsage
  {
    HistoryEntry(
      p.id.GetOr(e.id), p.requisitionId.GetOr(e.requisitionId), p.title.GetOr(e.title),
      p.department.GetOr(e.department), p.location.GetOr(e.location), p.jobType.GetOr(e.jobType),
      p.status.GetOr(e.status), p.createdAt.GetOr(e.createdAt), p.completedAt.GetOr(e.completedAt),
      p.formData.GetOr(e.formData), p.analysisResult.GetOr(e.analysisResult),
      p.agentProgress.GetOr(e.agentProgress), p.tokenUsage.GetOr(e.tokenUsage))
  }

  /** An empty update changes nothing, and applying the same update twice is applying it once. */
  lemma MergeLaws(e: HistoryEntry, p: Patch)
    ensures Merge(e, NoChanges) == e
    ensures Merge(Merge(e, p), p) == Merge(e, p)
  {
  }

  /** `after` is `before` with the entry at `i`, which has the id, merged with the update. */
  ghost predicate UpdatedAt(before: seq<HistoryEntry>, after: seq<HistoryEntry>, i: nat, id: string, updates: Patch) {
    && |after| == |before| && i < |before|
    && before[i].id == id
    && after[i] == Merge(before[i], updates)
    && forall k :: 0 <= k < |after| && k != i ==> after[k] == before[k]
  }

  /** The list step of an update: merge the update into the first entry with the id, if any. */
  function UpdateFirst(history: seq<HistoryEntry>, id: string, updates: Patch): (r: Option<seq<HistoryEntry>>)
    ensures r.None? <==> forall k :: 0 <= k < |history| ==> history[k].id != id
    ensures r.Some? ==> exists i :: 0 <= i < |history| && UpdatedAt(history, r.value, i, id, updates)
  {
    match FindIndex(history, HasId(id))
    case Some(i) =>
      assert UpdatedAt(history, history[i := Merge(history[i], updates)], i, id, updates);
      Some(history[i := Merge(history[i], updates)])
    case None => None
  }

  /**
   * `updateAnalysisInHistory`: writes back the newest-first list with the update merged into the
   * first entry with the id; writes nothing when no entry has the id.
   */
  function UpdateAnalysisInHistory(store: Store, id: string, updates: Patch): (r: Store)
    ensures UpdateFirst(GetAnalysisHistory(store), id, updates).None? ==> r == store
    ensures UpdateFirst(GetAnalysisHistory(store), id, updates).Some? ==>
      HistoryKey in r && r[HistoryKey] == AnalysisList(UpdateFirst(GetAnalysisHistory(store), id, updates).value)
    ensures forall key :: key != HistoryKey ==> (key in r <==> key in store) && (key in store ==> r[key] == store[key])
  {
    match UpdateFirst(GetAnalysisHistory(store), id, updates)
    case Some(list) => store[HistoryKey := AnalysisList(list)]
    case None => store
  }

  /**
   * An update for an id no stored entry has writes nothing; otherwise it changes exactly one
   * entry, one with that id, by merging the update into it.
   */
  lemma UpdateTouchesOnlyTheId(store: Store, id: string, updates: Patch)
    ensures (forall k :: 0 <= k < |StoredHistory(store)| ==> StoredHistory(store)[k].id != id) ==>
      UpdateAnalysisInHistory(store, id, updates) == store
    ensures (exists k :: 0 <= k < |StoredHistory(store)| && StoredHistory(store)[k].id == id) ==>
      exists i :: 0 <= i < |GetAnalysisHistory(store)| &&
        UpdatedAt(GetAnalysisHistory(store), StoredHistory(UpdateAnalysisInHistory(store, id, updates)), i, id, updates)
  {
    var history := GetAnalysisHistory(store);
    if forall k :: 0 <= k < |StoredHistory(store)| ==> StoredHistory(store)[k].id != id {
      forall k | 0 <= k < |history|
        ensures history[k].id != id
      {
        assert history[k] in multiset(StoredHistory(store));
      }
    } else {
      var k :| 0 <= k < |StoredHistory(store)| && StoredHistory(store)[k].id == id;
      assert StoredHistory(store)[k] in multiset(history);
      var m :| 0 <= m < |history| && history[m] == StoredHistory(store)[k];
      assert history[m].id == id;
      var next := UpdateFirst(history, id, updates);
      assert next.Some?;
      assert StoredHistory(UpdateAnalysisInHistory(store, id, updates)) == next.value;
    }
  }

  /** `deleteAnalysisFromHistory`: writes back the newest-first list without the entries with the id. */
  function DeleteAnalysisFromHistory(store: Store, id: string): (r: Store)
    ensures HistoryKey in r && r[HistoryKey].AnalysisList?
    ensures r[HistoryKey].entries == Filter(GetAnalysisHistory(store), NotId(id))
    ensures forall key :: key != HistoryKey ==> (key in r <==> key in store) && (key in store ==> r[key] == store[key])
  {
    store[HistoryKey := AnalysisList(Filter(GetAnalysisHistory(store), NotId(id)))]
  }

  /** After a delete no entry has the id, and every stored entry with another id is still there. */
  lemma DeleteRemovesExactlyTheId(store: Store, id: string)
    ensures GetAnalysisById(DeleteAnalysisFromHistory(store, id), id).None?
    ensures forall k :: 0 <= k < |StoredHistory(store)| && StoredHistory(store)[k].id != id ==>
      StoredHistory(store)[k] in StoredHistory(DeleteAnalysisFromHistory(store, id))
  {
    var r := DeleteAnalysisFromHistory(store, id);
    var history := GetAnalysisHistory(store);
    assert StoredHistory(r) == Filter(history, NotId(id));
    forall k | 0 <= k < |StoredHistory(r)|
      ensures StoredHistory(r)[k].id != id
    {
      assert NotId(id)(StoredHistory(r)[k]);
    }
    forall k | 0 <= k < |StoredHistory(store)| && StoredHistory(store)[k].id != id
      ensures StoredHistory(store)[k] in StoredHistory(r)
    {
      var e := StoredHistory(store)[k];
      assert e in multiset(history);
      var m :| 0 <= m < |history| && history[m] == e;
      assert NotId(id)(history[m]);
    }
  }

  /** `clearAllHistory`. */
  function ClearAllHistory(store: Store): (r: Store)
    ensures GetAnalysisHistory(r) == []
    ensures forall key :: key != HistoryKey ==> (key in r <==> key in store) && (key in store ==> r[key] == store[key])
  {
    store - {HistoryKey}
  }

  // ==================== input history ====================

  /** Most used first, then most recently used. */
  function UsageKey(e: InputEntry): Key {
    Key(e.count, e.timestamp)
  }

  /** The field's list as stored, or nothing. */
  function StoredInputs(store: Store, field: string): seq<InputEntry> {
    if InputHistoryKey in store && store[InputHistoryKey].InputTable? && field in store[InputHistoryKey].fields
    then store[InputHistoryKey].fields[field]
    else []
  }

  /** `getInputHistory`: the field's entries, most used first and then most recent first. */
  function GetInputHistory(store: Store, field: string): (r: seq<InputEntry>)
    ensures multiset(r) == multiset(StoredInputs(store, field))
    ensures Descending(r, UsageKey)
  {
    SortDescending(StoredInputs(store, field), UsageKey);
    Sort(StoredInputs(store, field), UsageKey)
  }

  /** Equal up to ASCII case, the comparison a save uses. */
  function SameText(value: string): InputEntry -> bool {
    (h: InputEntry) => Lower(h.value) == Lower(value)
  }

  function Used(e: InputEntry, now: int): (r: InputEntry)
    ensures r.value == e.value && r.count == e.count + 1 && r.timestamp == now
  {
    e.(count := e.count + 1, timestamp := now)
  }

  /** Whether a save is ignored: an empty value, or one shorter than 2 once trimmed. */
  predicate TooShort(value: string) {
    value == "" || |Trim(value)| < MinInputLength
  }

  /** The field's list after using `value` at `now`, before the cap: bump a match in place or put a new entry first. */
  function Remember(list: seq<InputEntry>, value: string, now: int): (r: seq<InputEntry>)
    ensures FindIndex(list, SameText(value)).Some? ==>
      var i := FindIndex(list, SameText(value)).value;
      && |r| == |list| && r[i] == Used(list[i], now)
      && forall k :: 0 <= k < |list| && k != i ==> r[k] == list[k]
    ensures FindIndex(list, SameText(value)).None? ==> r == [InputEntry(value, now, 1)] + list
  {
    match FindIndex(list, SameText(value))
    case Some(i) => list[i := Used(list[i], now)]
    case None => [InputEntry(value, now, 1)] + list
  }

  /** The table a write starts from: none when the stored text is unreadable, empty when absent. */
  function ReadTable(store: Store): (r: Option<map<string, seq<InputEntry>>>)
    ensures InputHistoryKey !in store ==> r == Some(map[])
    ensures InputHistoryKey in store && store[InputHistoryKey].InputTable? ==> r == Some(store[InputHistoryKey].fields)
    ensures InputHistoryKey in store && !store[InputHistoryKey].InputTable? ==> r.None?
  {
    if InputHistoryKey !in store then Some(map[])
    else if store[InputHistoryKey].InputTable? then Some(store[InputHistoryKey].fields)
    else None
  }

  function FieldOf(table: map<string, seq<InputEntry>>, field: string): seq<InputEntry> {
    if field in table then table[field] else []
  }

  /**
   * `saveInputToHistory`: ignores values that are too short, and leaves unreadable storage alone;
   * otherwise remembers the value in the field's stored list and keeps its first 20 entries.
   */
  function SaveInputToHistory(store: Store, field: string, value: string, now: int): (r: Store)
    ensures TooShort(value) || ReadTable(store).None? ==> r == store
    ensures forall key :: key != InputHistoryKey ==> (key in r <==> key in store) && (key in store ==> r[key] == store[key])
  {
    if TooShort(value) then store
    else match ReadTable(store)
      case None => store
      case Some(table) =>
        store[InputHistoryKey := InputTable(table[field := Take(Remember(FieldOf(table, field), value, now), MaxInputHistoryPerField)])]
  }

  /**
   * A save that is not ignored leaves the field with its remembered list, capped at 20 entries,
   * and every other field as it was.
   */
  lemma SaveInputEffect(store: Store, field: string, value: string, now: int)
    requires !TooShort(value) && ReadTable(store).Some?
    ensures StoredInputs(SaveInputToHistory(store, field, value, now), field) ==
      Take(Remember(StoredInputs(store, field), value, now), MaxInputHistoryPerField)
    ensures |StoredInputs(SaveInputToHistory(store, field, value, now), field)| <= MaxInputHistoryPerField
    ensures forall other :: other != field ==>
      StoredInputs(SaveInputToHistory(store, field, value, now), other) == StoredInputs(store, other)
  {
    var table := ReadTable(store).value;
    var list := Take(Remember(FieldOf(table, field), value, now), MaxInputHistoryPerField);
    var next := table[field := list];
    var r := SaveInputToHistory(store, field, value, now);
    assert r == store[InputHistoryKey := InputTable(next)];
    ReadBackTable(store, next, field);
    ReadTableFields(store, field);
    assert StoredInputs(r, field) == list;
    forall other | other != field
      ensures StoredInputs(r, other) == StoredInputs(store, other)
    {
      ReadBackTable(store, next, other);
      ReadTableFields(store, other);
    }
  }

  /** A field read back from a table just written. */
  lemma ReadBackTable(store: Store, table: map<string, seq<InputEntry>>, f: string)
    ensures StoredInputs(store[InputHistoryKey := InputTable(table)], f) == FieldOf(table, f)
  {
  }

  /** A field read from a readable store is the field of its table. */
  lemma ReadTableFields(store: Store, f: string)
    requires ReadTable(store).Some?
    ensures StoredInputs(store, f) == FieldOf(ReadTable(store).value, f)
  {
  }

  /**
   * Using a new value twice leaves one entry for it, in front, counted twice and stamped with
   * the second use.
   */
  lemma SaveInputTwice(store: Store, field: string, value: string, now1: int, now2: int)
    requires !TooShort(value) && ReadTable(store).Some?
    requires FindIndex(StoredInputs(store, field), SameText(value)).None?
    requires |StoredInputs(store, field)| < MaxInputHistoryPerField
    ensures StoredInputs(SaveInputToHistory(SaveInputToHistory(store, field, value, now1), field, value, now2), field) ==
      [InputEntry(value, now2, 2)] + StoredInputs(store, field)
  {
    var list := StoredInputs(store, field);
    var once := SaveInputToHistory(store, field, value, now1);
    SaveInputEffect(store, field, value, now1);
    assert StoredInputs(once, field) == Remember(list, value, now1);
    assert ReadTable(once).Some?;
    SaveInputEffect(once, field, value, now2);
    RememberTwice(list, value, now1, now2);
  }

  /** A new value remembered twice is one entry in front, counted twice, with the second time. */
  lemma RememberTwice(list: seq<InputEntry>, value: string, now1: int, now2: int)
    requires FindIndex(list, SameText(value)).None?
    ensures Remember(Remember(list, value, now1), value, now2) == [InputEntry(value, now2, 2)] + list
  {
    var first := [InputEntry(value, now1, 1)] + list;
    assert SameText(value)(first[0]);
    assert FindIndex(first, SameText(value)) == Some(0);
  }

  function ValueOf(e: InputEntry): string {
    e.value
  }

  function Values(xs: seq<InputEntry>): (r: seq<string>)
    ensures |r| == |xs|
    ensures forall k :: 0 <= k < |xs| ==> r[k] == xs[k].value
  {
    seq(|xs|, k requires 0 <= k < |xs| => xs[k].value)
  }

  /** Contains the query, ignoring ASCII case. */
  function Matches(query: string): InputEntry -> bool {
    (h: InputEntry) => Includes(Lower(h.value), Lower(query))
  }

  /** How many of the field's stored entries contain the query, ignoring case. */
  function MatchCount(store: Store, field: string, query: string): nat {
    |Filter(StoredInputs(store, field), Matches(query))|
  }

  /**
   * The entries behind the suggestions: those that contain the query, ignoring case, in
   * `getInputHistory` order, at most 10 of them.
   */
  function TopMatches(store: Store, field: string, query: string): (r: seq<InputEntry>)
    ensures |r| == if MatchCount(store, field, query) < MaxSuggestions then MatchCount(store, field, query) else MaxSuggestions
    ensures forall k :: 0 <= k < |r| ==> Matches(query)(r[k])
  {
    FilterCountPermutation(StoredInputs(store, field), GetInputHistory(store, field), Matches(query));
    Take(Filter(GetInputHistory(store, field), Matches(query)), MaxSuggestions)
  }

  /**
   * `searchInputHistory`: nothing for an empty query; otherwise the values of the field's entries
   * that contain the query, ignoring case, in `getInputHistory` order, as many as match up to 10.
   */
  function SearchInputHistory(store: Store, field: string, query: string): (r: seq<string>)
    ensures query == "" ==> r == []
    ensures query != "" ==>
      |r| == if MatchCount(store, field, query) < MaxSuggestions then MatchCount(store, field, query) else MaxSuggestions
    ensures |r| <= MaxSuggestions
    ensures forall k :: 0 <= k < |r| ==> Includes(Lower(r[k]), Lower(query))
  {
    if query == "" then []
    else
      var top := TopMatches(store, field, query);
      assert forall k :: 0 <= k < |top| ==> Matches(query)(top[k]);
      Values(top)
  }

  /**
   * The suggestions are the values of stored entries listed most used first and then most
   * recent first, the order of `getInputHistory`.
   */
  lemma SearchTopRanked(store: Store, field: string, query: string)
    ensures var top := TopMatches(store, field, query);
      && (query != "" ==> SearchInputHistory(store, field, query) == Values(top))
      && (forall k :: 0 <= k < |top| ==> top[k] in StoredInputs(store, field))
      && Descending(top, UsageKey)
  {
    var history := GetInputHistory(store, field);
    var hits := Filter(history, Matches(query));
    var top := TopMatches(store, field, query);
    assert top == Take(hits, MaxSuggestions);
    FilterDescending(history, Matches(query), UsageKey);
    forall k | 0 <= k < |top|
      ensures top[k] in StoredInputs(store, field)
    {
      assert top[k] == hits[k];
      assert top[k] in multiset(history);
    }
  }

  /**
   * No better match is passed over: a matching stored entry is left out only once 10 are
   * suggested, and then it ranks no higher than the last one suggested.
   */
  lemma SearchLeavesOnlyLower(store: Store, field: string, query: string)
    ensures var top := TopMatches(store, field, query);
      forall e :: e in StoredInputs(store, field) && Matches(query)(e) && e !in top ==>
        |top| == MaxSuggestions && AtLeast(UsageKey(top[|top| - 1]), UsageKey(e))
  {
    var history := GetInputHistory(store, field);
    var hits := Filter(history, Matches(query));
    var top := TopMatches(store, field, query);
    assert top == Take(hits, MaxSuggestions);
    FilterDescending(history, Matches(query), UsageKey);
    forall e | e in StoredInputs(store, field) && Matches(query)(e) && e !in top
      ensures |top| == MaxSuggestions && AtLeast(UsageKey(top[|top| - 1]), UsageKey(e))
    {
      assert e in multiset(history);
      assert e in hits;
      TakeLeavesLower(hits, MaxSuggestions, UsageKey, e);
    }
  }

  /** In a descending list, an element not among the first `n` ranks no higher than the `n`-th. */
  lemma TakeLeavesLower<T>(xs: seq<T>, n: nat, key: T -> Key, x: T)
    requires Descending(xs, key)
    requires n > 0 && x in xs && x !in Take(xs, n)
    ensures |Take(xs, n)| == n && AtLeast(key(xs[n - 1]), key(x))
  {
    var j :| 0 <= j < |xs| && xs[j] == x;
    assert Take(xs, n) == xs[..n];
  }

  /** Filtering keeps a descending list descending. */
  lemma {:induction false} FilterDescending<T>(xs: seq<T>, p: T -> bool, key: T -> Key)
    requires Descending(xs, key)
    ensures Descending(Filter(xs, p), key)
  {
    if |xs| > 0 {
      var tail := Filter(xs[1..], p);
      FilterDescending(xs[1..], p, key);
      if p(xs[0]) {
        var r := [xs[0]] + tail;
        forall i, j | 0 <= i < j < |r|
          ensures AtLeast(key(r[i]), key(r[j]))
        {
          if i == 0 {
            assert r[j] == tail[j - 1] && tail[j - 1] in xs[1..];
          } else {
            assert r[i] == tail[i - 1] && r[j] == tail[j - 1];
          }
        }
      }
    }
  }

  /** Every suggestion is the value of an entry stored for the field. */
  lemma SearchSound(store: Store, field: string, query: string)
    ensures forall k :: 0 <= k < |SearchInputHistory(store, field, query)| ==>
      exists e :: e in StoredInputs(store, field) && e.value == SearchInputHistory(store, field, query)[k]
  {
    if query != "" {
      var history := GetInputHistory(store, field);
      var hits := Filter(history, Matches(query));
      var r := SearchInputHistory(store, field, query);
      forall k | 0 <= k < |r|
        ensures exists e :: e in StoredInputs(store, field) && e.value == r[k]
      {
        assert r == Values(hits)[..|r|];
        assert r[k] == Values(hits)[k] == hits[k].value;
        var e := hits[k];
        assert e in history;
        assert e in multiset(StoredInputs(store, field));
        assert e in StoredInputs(store, field) && e.value == r[k];
      }
    } else {
      assert SearchInputHistory(store, field, query) == [];
    }
  }

  /** When at most 10 stored entries contain a non-empty query, every one of them is suggested. */
  lemma SearchComplete(store: Store, field: string, query: string)
    requires query != ""
    requires |Filter(StoredInputs(store, field), Matches(query))| <= MaxSuggestions
    ensures forall e :: e in StoredInputs(store, field) && Matches(query)(e) ==> e.value in SearchInputHistory(store, field, query)
  {
    var history := GetInputHistory(store, field);
    var hits := Filter(history, Matches(query));
    var r := SearchInputHistory(store, field, query);
    FilterCountPermutation(StoredInputs(store, field), history, Matches(query));
    assert r == Values(hits);
    forall e | e in StoredInputs(store, field) && Matches(query)(e)
      ensures e.value in r
    {
      assert e in multiset(history);
      var m :| 0 <= m < |history| && history[m] == e;
      assert e in hits;
      var j :| 0 <= j < |hits| && hits[j] == e;
      assert r[j] == e.value;
    }
  }

  /** Filtering two permutations of each other keeps the same number of elements. */
  lemma {:induction false} FilterCountPermutation<T>(a: seq<T>, b: seq<T>, p: T -> bool)
    requires multiset(a) == multiset(b)
    ensures |Filter(a, p)| == |Filter(b, p)|
    decreases |a|
  {
    if |a| > 0 {
      var x := a[0];
      assert x in multiset(b);
      var m :| 0 <= m < |b| && b[m] == x;
      var rest := b[..m] + b[m + 1..];
      assert b == b[..m] + [x] + b[m + 1..];
      assert multiset(b) == multiset(b[..m]) + multiset{x} + multiset(b[m + 1..]);
      assert multiset(rest) == multiset(b[..m]) + multiset(b[m + 1..]);
      assert a == [x] + a[1..];
      assert multiset(a) == multiset{x} + multiset(a[1..]);
      assert multiset{x} + multiset(a[1..]) == multiset{x} + multiset(rest);
      assert multiset(a[1..]) == multiset(rest) by {
        forall y
          ensures multiset(a[1..])[y] == multiset(rest)[y]
        {
          assert (multiset{x} + multiset(a[1..]))[y] == (multiset{x} + multiset(rest))[y];
        }
      }
      FilterCountPermutation(a[1..], rest, p);
      FilterAppend([x], a[1..], p);
      FilterAppend(b[..m] + [x], b[m + 1..], p);
      FilterAppend(b[..m], [x], p);
      FilterAppend(b[..m], b[m + 1..], p);
    } else {
      assert b == [];
    }
  }

  function NotValue(value: string): InputEntry -> bool {
    (h: InputEntry) => h.value != value
  }

  /**
   * `deleteInputHistory`: drops the field's entries equal to the value, case-sensitively, keeping
   * the rest in order; does nothing when storage is absent or unreadable or the field has no list.
   */
  function DeleteInputHistory(store: Store, field: string, value: string): (r: Store)
    ensures forall key :: key != InputHistoryKey ==> (key in r <==> key in store) && (key in store ==> r[key] == store[key])
    ensures StoredInputs(r, field) == Filter(StoredInputs(store, field), NotValue(value))
    ensures forall other :: other != field ==> StoredInputs(r, other) == StoredInputs(store, other)
    ensures forall k :: 0 <= k < |StoredInputs(r, field)| ==> StoredInputs(r, field)[k].value != value
  {
    if InputHistoryKey !in store || !store[InputHistoryKey].InputTable? || field !in store[InputHistoryKey].fields then store
    else
      var table := store[InputHistoryKey].fields;
      var kept := Filter(table[field], NotValue(value));
      assert forall k :: 0 <= k < |kept| ==> NotValue(value)(kept[k]);
      store[InputHistoryKey := InputTable(table[field := kept])]
  }

  /** `clearInputHistory`: drops the field's list; does nothing when storage is absent or unreadable. */
  function ClearInputHistory(store: Store, field: string): (r: Store)
    ensures StoredInputs(r, field) == []
    ensures forall other :: other != field ==> StoredInputs(r, other) == StoredInputs(store, other)
    ensures forall key :: key != InputHistoryKey ==> (key in r <==> key in store) && (key in store ==> r[key] == store[key])
  {
    if InputHistoryKey !in store || !store[InputHistoryKey].InputTable? then store
    else store[InputHistoryKey := InputTable(store[InputHistoryKey].fields - {field})]
  }

  /** `clearAllInputHistory`. */
  function ClearAllInputHistory(store: Store): (r: Store)
    ensures forall field :: GetInputHistory(r, field) == []
    ensures forall key :: key != InputHistoryKey ==> (key in r <==> key in store) && (key in store ==> r[key] == store[key])
  {
    store - {InputHistoryKey}
  }
}

=== FILE: input_history_hook.dfy ===
/**
 * The autocomplete state behind a form field: the suggestion list, whether
 * it is shown, and the highlighted position, driven by typing, focus, the
 * keyboard and the field's stored input history.
 */
module InputHistoryHook {
  import opened Wrappers
  import opened JsString
  import opened HistoryStorage

  /** `selectedIndex` is -1 when nothing is highlighted. */
  datatype Hook = Hook(suggestions: seq<string>, showSuggestions: bool, selectedIndex: int)

  const InitialHook: Hook := Hook([], false, -1)

  datatype KeyPress = ArrowDown | ArrowUp | Enter | Escape | Tab | OtherKey(name: string)

  /** The hook after a key, and the suggestion handed to the field, if one was chosen. */
  datatype KeyResult = KeyResult(hook: Hook, chosen: Option<string>)

  /** `closeSuggestions`, and the delayed effect of a blur. */
  function Close(h: Hook): (r: Hook)
    ensures !r.showSuggestions && r.selectedIndex == -1 && r.suggestions == h.suggestions
  {
    h.(showSuggestions := false, selectedIndex := -1)
  }

  /** `selectSuggestion`: closes the list and hands the suggestion to the field. */
  function Select(h: Hook, suggestion: string): (r: KeyResult)
    ensures r.hook == Close(h) && r.chosen == Some(suggestion)
  {
    KeyResult(Close(h), Some(suggestion))
  }

  /** The highlighted suggestion exists and is a non-empty string. */
  predicate Selectable(h: Hook) {
    0 <= h.selectedIndex < |h.suggestions| && h.suggestions[h.selectedIndex] != ""
  }

  /** `handleKeyDown`. */
  function KeyDown(h: Hook, key: KeyPress): (r: KeyResult)
    ensures !h.showSuggestions || |h.suggestions| == 0 ==> r == KeyResult(h, None)
    ensures r.hook.suggestions == h.suggestions
  {
    var n := |h.suggestions|;
    if !h.showSuggestions || n == 0 then KeyResult(h, None)
    else match key
      case ArrowDown => KeyResult(h.(selectedIndex := if h.selectedIndex < n - 1 then h.selectedIndex + 1 else 0), None)
      case ArrowUp => KeyResult(h.(selectedIndex := if h.selectedIndex > 0 then h.selectedIndex - 1 else n - 1), None)
      case Enter => if Selectable(h) then Select(h, h.suggestions[h.selectedIndex]) else KeyResult(h, None)
      case Escape => KeyResult(Close(h), None)
      case Tab => if Selectable(h) then Select(h, h.suggestions[h.selectedIndex]) else KeyResult(h.(showSuggestions := false), None)
      case OtherKey(_) => KeyResult(h, None)
  }

  /** The index points into the list, or at nothing. */
  predicate InRange(h: Hook) {
    -1 <= h.selectedIndex < |h.suggestions|
  }

  /**
   * On a shown, non-empty list, the arrows move the highlight with wrap-around and keep it on a
   * suggestion: down from nothing or from the last goes to the first, up from nothing or from
   * the first goes to the last.
   */
  lemma ArrowsStayInRange(h: Hook)
    requires h.showSuggestions && |h.suggestions| > 0 && InRange(h)
    ensures 0 <= KeyDown(h, ArrowDown).hook.selectedIndex < |h.suggestions|
    ensures 0 <= KeyDown(h, ArrowUp).hook.selectedIndex < |h.suggestions|
    ensures h.selectedIndex == |h.suggestions| - 1 || h.selectedIndex == -1 ==> KeyDown(h, ArrowDown).hook.selectedIndex == 0
    ensures h.selectedIndex <= 0 ==> KeyDown(h, ArrowUp).hook.selectedIndex == |h.suggestions| - 1
    ensures KeyDown(h, ArrowDown).chosen.None? && KeyDown(h, ArrowUp).chosen.None?
  {
  }

  /** Up undoes down and down undoes up whenever a suggestion is highlighted. */
  lemma ArrowsInverse(h: Hook)
    requires h.showSuggestions && 0 <= h.selectedIndex < |h.suggestions|
    ensures KeyDown(KeyDown(h, ArrowDown).hook, ArrowUp).hook == h
    ensures KeyDown(KeyDown(h, ArrowUp).hook, ArrowDown).hook == h
  {
  }

  /**
   * Enter and Tab hand over the highlighted suggestion exactly when it exists and is non-empty,
   * closing the list; otherwise Enter does nothing and Tab only hides the list. Escape always
   * hides the list and clears the highlight.
   */
  lemma ChoosingKeys(h: Hook)
    requires h.showSuggestions && |h.suggestions| > 0
    ensures KeyDown(h, Enter).chosen.Some? <==> Selectable(h)
    ensures KeyDown(h, Tab).chosen.Some? <==> Selectable(h)
    ensures Selectable(h) ==>
      KeyDown(h, Enter) == KeyResult(Close(h), Some(h.suggestions[h.selectedIndex])) && KeyDown(h, Tab) == KeyDown(h, Enter)
    ensures !Selectable(h) ==> KeyDown(h, Enter).hook == h && KeyDown(h, Tab).hook == h.(showSuggestions := false)
    ensures KeyDown(h, Escape) == KeyResult(Close(h), None)
  {
  }

  /** The first ten stored values, most used first. */
  function TopValues(store: Store, field: string): (r: seq<string>)
    ensures |r| <= MaxSuggestions
  {
    Take(Values(GetInputHistory(store, field)), MaxSuggestions)
  }

  /**
   * `updateSuggestions`: the top stored values while the input is shorter than `minLength`,
   * otherwise the stored values that contain it; the highlight is cleared either way.
   */
  function UpdateSuggestions(h: Hook, store: Store, field: string, value: string, minLength: int): (r: Hook)
    ensures r.selectedIndex == -1 && r.showSuggestions == h.showSuggestions
    ensures |r.suggestions| <= MaxSuggestions
  {
    h.(suggestions := if |value| < minLength then TopValues(store, field) else SearchInputHistory(store, field, value),
       selectedIndex := -1)
  }

  /**
   * The debounced effect of typing: refresh the suggestions, and show them when the input is long
   * enough or the field has any history; otherwise the shown flag stays as it was.
   */
  function InputChanged(h: Hook, store: Store, field: string, value: string, minLength: int): (r: Hook)
    ensures r.selectedIndex == -1
    ensures |value| >= minLength || |StoredInputs(store, field)| > 0 ==> r.showSuggestions
    ensures |value| < minLength && |StoredInputs(store, field)| == 0 ==> r.showSuggestions == h.showSuggestions
  {
    var next := UpdateSuggestions(h, store, field, value, minLength);
    if |value| >= minLength || |GetInputHistory(store, field)| > 0 then next.(showSuggestions := true) else next
  }

  /** `handleInputFocus`: with any history, show its top values; the highlight is left alone. */
  function Focus(h: Hook, store: Store, field: string): (r: Hook)
    ensures |StoredInputs(store, field)| == 0 ==> r == h
    ensures |StoredInputs(store, field)| > 0 ==> r == h.(suggestions := TopValues(store, field), showSuggestions := true)
  {
    if |GetInputHistory(store, field)| > 0 then h.(suggestions := TopValues(store, field), showSuggestions := true) else h
  }

  /** The hook's part of a delete: the value leaves the shown list. */
  function DropSuggestion(h: Hook, suggestion: string): Hook {
    h.(suggestions := Filter(h.suggestions, (s: string) => s != suggestion))
  }

  /** `deleteSuggestion`: forgets the value in storage and drops it from the shown list. */
  function DeleteSuggestion(h: Hook, store: Store, field: string, suggestion: string): (r: (Hook, Store))
    ensures r.0 == DropSuggestion(h, suggestion)
    ensures r.1 == DeleteInputHistory(store, field, suggestion)
  {
    (DropSuggestion(h, suggestion), DeleteInputHistory(store, field, suggestion))
  }

  /**
   * After a delete the value is no longer suggested, every other suggestion is still there, and
   * the shown flag and the highlight are not touched; a list without the value is left as it was.
   */
  lemma DeleteDropsOnlyTheValue(h: Hook, store: Store, field: string, suggestion: string)
    ensures suggestion !in DeleteSuggestion(h, store, field, suggestion).0.suggestions
    ensures forall k :: 0 <= k < |h.suggestions| && h.suggestions[k] != suggestion ==>
      h.suggestions[k] in DeleteSuggestion(h, store, field, suggestion).0.suggestions
    ensures DeleteSuggestion(h, store, field, suggestion).0.showSuggestions == h.showSuggestions
    ensures DeleteSuggestion(h, store, field, suggestion).0.selectedIndex == h.selectedIndex
    ensures (forall k :: 0 <= k < |h.suggestions| ==> h.suggestions[k] != suggestion) ==>
      DeleteSuggestion(h, store, field, suggestion).0 == h
  {
    if forall k :: 0 <= k < |h.suggestions| ==> h.suggestions[k] != suggestion {
      FilterAll(h.suggestions, (s: string) => s != suggestion);
    }
  }

  /**
   * Because a delete keeps the highlight, two deletes and an ArrowUp can leave it past the end of
   * the list; Enter then chooses nothing.
   */
  lemma StaleHighlightAfterDeletes()
    ensures var h := Hook(["a", "b", "c"], true, 2);
      var once := DropSuggestion(h, "b");
      var twice := DropSuggestion(once, "c");
      var up := KeyDown(twice, ArrowUp).hook;
      && InRange(h) && twice.suggestions == ["a"]
      && up.selectedIndex == 1 && !InRange(up)
      && KeyDown(up, Enter).chosen.None?
  {
    var h := Hook(["a", "b", "c"], true, 2);
    DropExampleFirst();
    DropExampleSecond();
    var twice := Hook(["a"], true, 2);
    assert KeyDown(twice, ArrowUp).hook == Hook(["a"], true, 1);
  }

  lemma DropExampleFirst()
    ensures DropSuggestion(Hook(["a", "b", "c"], true, 2), "b") == Hook(["a", "c"], true, 2)
  {
    var p := (s: string) => s != "b";
    assert ["a", "b", "c"] == ["a"] + ["b", "c"];
    FilterAppend(["a"], ["b", "c"], p);
    assert ["b", "c"] == ["b"] + ["c"];
    FilterAppend(["b"], ["c"], p);
  }

  lemma DropExampleSecond()
    ensures DropSuggestion(Hook(["a", "c"], true, 2), "c") == Hook(["a"], true, 2)
  {
    var q := (s: string) => s != "c";
    assert ["a", "c"] == ["a"] + ["c"];
    FilterAppend(["a"], ["c"], q);
  }

  /**
   * `saveCurrentValue`: blank input is skipped, anything else is stored trimmed. Storage applies
   * its own length check to the trimmed value, so this is the same as always storing the trimmed
   * value.
   */
  function SaveCurrentValue(store: Store, field: string, value: string, now: int): (r: Store)
    ensures Trim(value) == "" ==> r == store
  {
    if value != "" && Trim(value) != "" then SaveInputToHistory(store, field, Trim(value), now) else store
  }

  lemma SaveCurrentValueStoresTrimmed(store: Store, field: string, value: string, now: int)
    ensures SaveCurrentValue(store, field, value, now) == SaveInputToHistory(store, field, Trim(value), now)
    ensures |Trim(value)| < MinInputLength ==> SaveCurrentValue(store, field, value, now) == store
  {
    TrimIdempotent(value);
    if value == "" {
      assert Trim(value) == "";
    }
  }
}

=== FILE: job_req_form.dfy ===
/**
 * The four-step requisition form: moving between steps, whether a step may
 * be left, and the submission, which validates, posts the form and records
 * the outcome, all through the reducer's actions.
 */
module JobReqForm {
  import opened Wrappers
  import opened Types
  import opened JsString
  import opened AppContext

  /** `handleNext`: one step forward, unless on the last step. */
  function Next(s: AppState): (r: AppState)
    ensures s.currentStep < 4 ==> r.currentStep == s.currentStep + 1
    ensures s.currentStep == 4 ==> r == s
    ensures Unchanged(s, r, {StepField})
  {
    if s.currentStep < 4 then Reduce(s, SetStep(s.currentStep + 1)) else s
  }

  /** `handlePrev`: one step back, unless on the first step. */
  function Prev(s: AppState): (r: AppState)
    ensures s.currentStep > 1 ==> r.currentStep == s.currentStep - 1
    ensures s.currentStep == 1 ==> r == s
    ensures Unchanged(s, r, {StepField})
  {
    if s.currentStep > 1 then Reduce(s, SetStep(s.currentStep - 1)) else s
  }

  /** Back undoes forward and forward undoes back, away from the ends. */
  lemma NextPrevInverse(s: AppState)
    ensures s.currentStep < 4 ==> Prev(Next(s)) == s
    ensures s.currentStep > 1 ==> Next(Prev(s)) == s
  {
  }

  /** Empty once trimmed. */
  predicate Blank(text: string) {
    Trim(text) == ""
  }

  /** `canProceed`: the step's required field is filled; the last step has none. */
  function CanProceed(step: FormStep, form: FormData): (ok: bool)
    ensures step == 4 ==> ok
  {
    match step
    case 1 => !Blank(form.basicInfo.title)
    case 2 => !Blank(form.responsibilities)
    case 3 => !Blank(form.qualifications)
    case 4 => true
  }

  /** The first step whose required field is blank, checked in step order. */
  function FirstBlankStep(form: FormData): (r: Option<FormStep>)
    ensures r.Some? ==> 1 <= r.value <= 3 && !CanProceed(r.value, form)
    ensures r.Some? ==> forall k: FormStep :: k < r.value ==> CanProceed(k, form)
    ensures r.None? <==> forall k: FormStep :: CanProceed(k, form)
  {
    if Blank(form.basicInfo.title) then Some(1)
    else if Blank(form.responsibilities) then Some(2)
    else if Blank(form.qualifications) then Some(3)
    else
      assert forall k: FormStep :: CanProceed(k, form) by {
        forall k: FormStep ensures CanProceed(k, form) {
          assert k == 1 || k == 2 || k == 3 || k == 4;
        }
      }
      None
  }

  /** What the server said to the posted form. */
  datatype PostOutcome = Created(requisitionId: string) | Rejected(message: string)

  /**
   * The actions `handleSubmit` dispatches: a jump to the first blank step, or the submitting
   * flag around the post, with the new requisition and the processing view when it succeeds.
   */
  function SubmitActions(form: FormData, outcome: PostOutcome): (r: seq<Action>)
    ensures |r| >= 1
  {
    match FirstBlankStep(form)
    case Some(step) => [SetStep(step)]
    case None =>
      match outcome
      case Created(id) => [SetSubmitting(true), SetRequisitionId(id), SetView(ProcessingView), SetSubmitting(false)]
      case Rejected(_) => [SetSubmitting(true), SetSubmitting(false)]
  }

  /** The state after a submission; `outcome` is only consulted when the form is posted. */
  function HandleSubmit(s: AppState, outcome: PostOutcome): AppState {
    ReduceAll(s, SubmitActions(s.formData, outcome))
  }

  /**
   * A form with a blank required field is not posted: the form jumps to the first such step,
   * title before responsibilities before qualifications, and nothing else changes.
   */
  lemma BlankFieldBlocksSubmit(s: AppState, outcome: PostOutcome)
    requires FirstBlankStep(s.formData).Some?
    ensures HandleSubmit(s, outcome) == s.(currentStep := FirstBlankStep(s.formData).value)
    ensures Blank(s.formData.basicInfo.title) ==> HandleSubmit(s, outcome).currentStep == 1
    ensures !Blank(s.formData.basicInfo.title) && Blank(s.formData.responsibilities) ==>
      HandleSubmit(s, outcome).currentStep == 2
    ensures !Blank(s.formData.basicInfo.title) && !Blank(s.formData.responsibilities) && Blank(s.formData.qualifications) ==>
      HandleSubmit(s, outcome).currentStep == 3
  {
    var step := FirstBlankStep(s.formData).value;
    assert SubmitActions(s.formData, outcome) == [SetStep(step)];
    assert ReduceAll(s, [SetStep(step)]) == ReduceAll(Reduce(s, SetStep(step)), []);
  }

  /** Dispatching a non-empty list is dispatching its first action, then the rest. */
  lemma ReduceAllCons(s: AppState, actions: seq<Action>)
    requires |actions| > 0
    ensures ReduceAll(s, actions) == ReduceAll(Reduce(s, actions[0]), actions[1..])
  {
  }

  /** A filled form is posted with the submitting flag raised. */
  lemma FilledFormIsPosted(s: AppState, outcome: PostOutcome)
    requires forall k: FormStep :: CanProceed(k, s.formData)
    ensures SubmitActions(s.formData, outcome)[0] == SetSubmitting(true)
    ensures Reduce(s, SubmitActions(s.formData, outcome)[0]).isSubmitting
  {
  }

  /** The actions of a submission that passes validation. */
  lemma PostedActions(form: FormData, outcome: PostOutcome)
    requires forall k: FormStep :: CanProceed(k, form)
    ensures outcome.Created? ==>
      SubmitActions(form, outcome) ==
        [SetSubmitting(true), SetRequisitionId(outcome.requisitionId), SetView(ProcessingView), SetSubmitting(false)]
    ensures outcome.Rejected? ==> SubmitActions(form, outcome) == [SetSubmitting(true), SetSubmitting(false)]
  {
  }

  /** The four actions of a created submission, dispatched in order. */
  lemma CreatedRun(s: AppState, id: string)
    ensures ReduceAll(s, [SetSubmitting(true), SetRequisitionId(id), SetView(ProcessingView), SetSubmitting(false)])
      == s.(requisitionId := Some(id), viewState := ProcessingView, isSubmitting := false)
  {
    var acts := [SetSubmitting(true), SetRequisitionId(id), SetView(ProcessingView), SetSubmitting(false)];
    var s1 := s.(isSubmitting := true);
    var s2 := s1.(requisitionId := Some(id));
    var s3 := s2.(viewState := ProcessingView);
    ReduceAllCons(s, acts);
    assert Reduce(s, acts[0]) == s1;
    ReduceAllCons(s1, acts[1..]);
    assert Reduce(s1, acts[1..][0]) == s2 && acts[1..][1..] == acts[2..];
    ReduceAllCons(s2, acts[2..]);
    assert Reduce(s2, acts[2..][0]) == s3 && acts[2..][1..] == acts[3..];
    ReduceAllCons(s3, acts[3..]);
    assert Reduce(s3, acts[3..][0]) == s3.(isSubmitting := false) && acts[3..][1..] == [];
  }

  /** The two actions of a rejected submission, dispatched in order. */
  lemma RejectedRun(s: AppState)
    ensures ReduceAll(s, [SetSubmitting(true), SetSubmitting(false)]) == s.(isSubmitting := false)
  {
    var acts := [SetSubmitting(true), SetSubmitting(false)];
    var s1 := s.(isSubmitting := true);
    ReduceAllCons(s, acts);
    assert Reduce(s, acts[0]) == s1;
    ReduceAllCons(s1, acts[1..]);
    assert Reduce(s1, acts[1..][0]) == s.(isSubmitting := false) && acts[1..][1..] == [];
  }

  /**
   * When the filled form's requisition is created, it is recorded and the processing view shown,
   * and the submitting flag is down again.
   */
  lemma CreatedShowsProcessing(s: AppState, id: string)
    requires forall k: FormStep :: CanProceed(k, s.formData)
    ensures HandleSubmit(s, Created(id)) == s.(requisitionId := Some(id), viewState := ProcessingView, isSubmitting := false)
  {
    PostedActions(s.formData, Created(id));
    CreatedRun(s, id);
  }

  /** When the post is rejected, only the submitting flag has moved, and it is down again. */
  lemma RejectedChangesNothing(s: AppState, message: string)
    requires forall k: FormStep :: CanProceed(k, s.formData)
    ensures HandleSubmit(s, Rejected(message)) == s.(isSubmitting := false)
  {
    PostedActions(s.formData, Rejected(message));
    RejectedRun(s);
  }
}

=== FILE: js_string.dfy ===
/**
 * The few JavaScript string and array primitives the system relies on:
 * `trim`, the regular-expression class `\s`, `indexOf`/`lastIndexOf`,
 * `startsWith`, `includes`, `join`, `toLowerCase`, number-to-string
 * conversion, and the array methods `slice(0, n)` and `filter`.
 */
module JsString {
  import opened Wrappers

  /** The ECMAScript WhiteSpace and LineTerminator characters: what `trim` strips and `\s` matches. */
  predicate IsSpace(c: char) {
    || c == ' ' || c == '\t' || c == '\n' || c == '\r'
    || c == '\U{000B}' || c == '\U{000C}' || c == '\U{00A0}' || c == '\U{FEFF}'
    || c == '\U{1680}' || ('\U{2000}' <= c <= '\U{200A}')
    || c == '\U{2028}' || c == '\U{2029}' || c == '\U{202F}' || c == '\U{205F}' || c == '\U{3000}'
  }

  ghost predicate AllSpace(s: string) {
    forall k :: 0 <= k < |s| ==> IsSpace(s[k])
  }

  /** The first index at or after `i` that does not hold white space (`|s|` when there is none). */
  function SkipSpaces(s: string, i: nat): (j: nat)
    requires i <= |s|
    ensures i <= j <= |s|
    ensures AllSpace(s[i..j])
    ensures j == |s| || !IsSpace(s[j])
    decreases |s| - i
  {
    if i < |s| && IsSpace(s[i]) then
      var j := SkipSpaces(s, i + 1);
      assert s[i..j] == [s[i]] + s[i + 1..j];
      j
    else i
  }

  /** One past the last index below `j` that does not hold white space (0 when there is none). */
  function TrimEndIndex(s: string, j: nat): (k: nat)
    requires j <= |s|
    ensures k <= j
    ensures AllSpace(s[k..j])
    ensures k == 0 || !IsSpace(s[k - 1])
    decreases j
  {
    if j > 0 && IsSpace(s[j - 1]) then
      var k := TrimEndIndex(s, j - 1);
      assert s[k..j] == s[k..j - 1] + [s[j - 1]];
      k
    else j
  }

  /** `r` is `s` with its leading and trailing white space removed. */
  ghost predicate IsTrimOf(r: string, s: string) {
    exists i, j :: 0 <= i <= j <= |s| && r == s[i..j] && AllSpace(s[..i]) && AllSpace(s[j..])
                   && (r == [] || (!IsSpace(r[0]) && !IsSpace(r[|r| - 1])))
  }

  /** `String.prototype.trim`. */
  function Trim(s: string): (r: string)
    ensures IsTrimOf(r, s)
    ensures |r| <= |s|
  {
    var i := SkipSpaces(s, 0);
    var j := TrimEndIndex(s, |s|);
    if j <= i then
      assert AllSpace(s[..0]) && AllSpace(s[0..]) by {
        forall k | 0 <= k < |s| ensures IsSpace(s[k]) {
          if k < i { assert s[0..i][k] == s[k]; } else { assert s[j..|s|][k - j] == s[k]; }
        }
      }
      ""
    else
      assert s[..i] == s[0..i] && s[j..] == s[j..|s|];
      s[i..j]
  }

  /** Trimming a string that neither starts nor ends with white space leaves it unchanged. */
  lemma TrimUnchanged(s: string)
    requires s == [] || (!IsSpace(s[0]) && !IsSpace(s[|s| - 1]))
    ensures Trim(s) == s
  {
    if s != [] {
      assert SkipSpaces(s, 0) == 0;
      assert TrimEndIndex(s, |s|) == |s|;
    }
  }

  /** Trimming twice is trimming once. */
  lemma TrimIdempotent(s: string)
    ensures Trim(Trim(s)) == Trim(s)
  {
    TrimUnchanged(Trim(s));
  }

  lemma SkipAllSpaces(s: string, i: nat)
    requires i <= |s|
    requires AllSpace(s)
    ensures SkipSpaces(s, i) == |s|
    decreases |s| - i
  {
    if i < |s| {
      SkipAllSpaces(s, i + 1);
    }
  }

  /** A string is blank (`!s.trim()`) exactly when every character is white space. */
  lemma TrimEmptyIffBlank(s: string)
    ensures Trim(s) == [] <==> AllSpace(s)
  {
    var i := SkipSpaces(s, 0);
    var j := TrimEndIndex(s, |s|);
    if AllSpace(s) {
      SkipAllSpaces(s, 0);
    } else {
      var k :| 0 <= k < |s| && !IsSpace(s[k]);
      assert forall m :: 0 <= m < i ==> s[0..i][m] == s[m];
      assert forall m :: j <= m < |s| ==> s[j..|s|][m - j] == s[m];
      assert i <= k < j;
    }
  }

  /** `s.startsWith(p)`. */
  predicate StartsWith(s: string, p: string) {
    |p| <= |s| && s[..|p|] == p
  }

  /** `pat` occurs in `s` at index `i`. */
  predicate OccursAt(s: string, pat: string, i: nat) {
    i + |pat| <= |s| && s[i..i + |pat|] == pat
  }

  /** The first occurrence of `pat` in `s` at or after `from` (`s.indexOf(pat, from)`). */
  function FindFrom(s: string, pat: string, from: nat): (r: Option<nat>)
    requires |pat| > 0
    ensures r.Some? ==> from <= r.value && OccursAt(s, pat, r.value)
    ensures forall k :: from <= k && (r.None? || k < r.value) ==> !OccursAt(s, pat, k)
    decreases |s| - from
  {
    if from + |pat| > |s| then None
    else if s[from..from + |pat|] == pat then Some(from)
    else FindFrom(s, pat, from + 1)
  }

  /** `s.indexOf(c)`: the first index holding `c`. */
  function IndexOf(s: string, c: char): (r: Option<nat>)
    ensures r.Some? ==> r.value < |s| && s[r.value] == c
    ensures forall k :: 0 <= k < |s| && (r.None? || k < r.value) ==> s[k] != c
  {
    if |s| == 0 then None
    else if s[0] == c then Some(0)
    else match IndexOf(s[1..], c)
      case None => None
      case Some(k) => Some(k + 1)
  }

  /** `s.lastIndexOf(c)`: the last index holding `c`. */
  function LastIndexOf(s: string, c: char): (r: Option<nat>)
    ensures r.Some? ==> r.value < |s| && s[r.value] == c
    ensures forall k :: 0 <= k < |s| && (r.None? || k > r.value) ==> s[k] != c
  {
    if |s| == 0 then None
    else if s[|s| - 1] == c then Some(|s| - 1)
    else LastIndexOf(s[..|s| - 1], c)
  }

  /** `s.includes(sub)`. */
  predicate Includes(s: string, sub: string) {
    exists i: nat :: i <= |s| && OccursAt(s, sub, i)
  }

  /** `String.prototype.toLowerCase`, restricted to the ASCII letters. */
  function LowerChar(c: char): (r: char)
    ensures 'A' <= c <= 'Z' ==> r as int == c as int + 32
    ensures !('A' <= c <= 'Z') ==> r == c
  {
    if 'A' <= c <= 'Z' then (c as int + 32) as char else c
  }

  function Lower(s: string): (r: string)
    ensures |r| == |s|
    ensures forall k :: 0 <= k < |s| ==> r[k] == LowerChar(s[k])
  {
    seq(|s|, k requires 0 <= k < |s| => LowerChar(s[k]))
  }

  /** `xs.join(sep)`. */
  function Join(xs: seq<string>, sep: string): (r: string)
    ensures xs == [] ==> r == ""
    ensures |xs| == 1 ==> r == xs[0]
  {
    if |xs| == 0 then ""
    else if |xs| == 1 then xs[0]
    else xs[0] + sep + Join(xs[1..], sep)
  }

  /** The decimal text of a digit. */
  function DigitChar(d: nat): char
    requires d < 10
  {
    ['0', '1', '2', '3', '4', '5', '6', '7', '8', '9'][d]
  }

  /** `n.toString()` for a non-negative integer. */
  function NatToString(n: nat): (r: string)
    ensures |r| > 0
    ensures forall k :: 0 <= k < |r| ==> '0' <= r[k] <= '9'
  {
    if n < 10 then [DigitChar(n)] else NatToString(n / 10) + [DigitChar(n % 10)]
  }

  /** `n.toString()` for an integer. */
  function IntToString(n: int): (r: string)
    ensures r != ""
  {
    if n < 0 then "-" + NatToString(-n) else NatToString(n)
  }

  /** `xs.slice(0, n)`: the first `n` elements, or all of them when there are fewer. */
  function Take<T>(xs: seq<T>, n: nat): (r: seq<T>)
    ensures |r| == if |xs| < n then |xs| else n
    ensures r == xs[..|r|]
  {
    if |xs| <= n then xs else xs[..n]
  }

  /** `xs.filter(p)`: the elements satisfying `p`, in their order. */
  function Filter<T>(xs: seq<T>, p: T -> bool): (r: seq<T>)
    ensures |r| <= |xs|
    ensures forall k :: 0 <= k < |r| ==> r[k] in xs && p(r[k])
    ensures forall k :: 0 <= k < |xs| && p(xs[k]) ==> xs[k] in r
  {
    if |xs| == 0 then []
    else if p(xs[0]) then [xs[0]] + Filter(xs[1..], p)
    else Filter(xs[1..], p)
  }

  /** Filtering distributes over concatenation, which is what "keeps the order" means. */
  lemma {:induction false} FilterAppend<T>(xs: seq<T>, ys: seq<T>, p: T -> bool)
    ensures Filter(xs + ys, p) == Filter(xs, p) + Filter(ys, p)
  {
    if |xs| > 0 {
      assert (xs + ys)[1..] == xs[1..] + ys;
      FilterAppend(xs[1..], ys, p);
    } else {
      assert xs + ys == ys;
    }
  }

  /** A filter that every element passes keeps the sequence. */
  lemma {:induction false} FilterAll<T>(xs: seq<T>, p: T -> bool)
    requires forall k :: 0 <= k < |xs| ==> p(xs[k])
    ensures Filter(xs, p) == xs
  {
    if |xs| > 0 {
      FilterAll(xs[1..], p);
    }
  }

  /** `xs.findIndex(p)`: the first index whose element satisfies `p` (JavaScript's -1 is `None`). */
  function FindIndex<T>(xs: seq<T>, p: T -> bool): (r: Option<nat>)
    ensures r.Some? ==> r.value < |xs| && p(xs[r.value])
    ensures forall k :: 0 <= k < |xs| && (r.None? || k < r.value) ==> !p(xs[k])
  {
    if |xs| == 0 then None
    else if p(xs[0]) then Some(0)
    else match FindIndex(xs[1..], p)
      case None => None
      case Some(k) => Some(k + 1)
  }
}

=== FILE: json_repair.dfy ===
/**
 * How the LLM service turns raw model text into parsed JSON: it picks a JSON
 * candidate out of the text, heuristically closes a truncated candidate, and
 * hands the result to the JSON parser, which is an oracle here.
 *
 * The repair is a faithful copy of the source's heuristic, quirks included:
 * closers are appended brackets first (so `[{` becomes `[{]}`), the
 * trailing-comma rewrite also fires inside string literals, and one pass can
 * leave `,]` behind when the input held `,,]`.
 */
module JsonRepair {
  import opened Wrappers
  import opened JsString
  import opened Types

  const Fence: string := "```"

  // ---------------------------------------------------------------------------
  // Candidate extraction
  // ---------------------------------------------------------------------------

  /** Where the first match of /```(?:json)?\s*([\s\S]*?)```/ lies: its opening fence, capture start and closing fence. */
  datatype FenceMatch = FenceMatch(open: nat, captureStart: nat, close: nat)

  /** The regular expression matches exactly when the text holds two fences that do not overlap. */
  ghost predicate HasFencedBlock(s: string) {
    exists i: nat, j: nat :: i + 3 <= j && OccursAt(s, Fence, i) && OccursAt(s, Fence, j)
  }

  /** The first match of the fenced-block regular expression, if any. */
  function FirstFence(s: string): (r: Option<FenceMatch>)
    ensures r.Some? <==> HasFencedBlock(s)
    ensures r.Some? ==> var m := r.value;
      && OccursAt(s, Fence, m.open)
      && (forall k :: 0 <= k < m.open ==> !OccursAt(s, Fence, k))
      && TagEnd(s, m.open) <= m.captureStart <= m.close
      && OccursAt(s, Fence, m.close)
      && (forall k :: m.captureStart <= k < m.close ==> !OccursAt(s, Fence, k))
      && AllSpace(s[TagEnd(s, m.open)..m.captureStart])
      && (m.captureStart == |s| || !IsSpace(s[m.captureStart]))
  {
    match FindFrom(s, Fence, 0)
    case None =>
      None
    case Some(i) =>
      var p := TagEnd(s, i);
      var q := SkipSpaces(s, p);
      match FindFrom(s, Fence, q)
      case None =>
        assert !HasFencedBlock(s) by {
          forall a: nat, b: nat | a + 3 <= b && OccursAt(s, Fence, a) && OccursAt(s, Fence, b)
            ensures false
          {
            assert i <= a;
            NoFenceBeforeCapture(s, i, p, q, b);
          }
        }
        None
      case Some(j) =>
        Some(FenceMatch(i, q, j))
  }

  /** Where the optional `json` tag after an opening fence at `i` ends. */
  function TagEnd(s: string, i: nat): (p: nat)
    requires OccursAt(s, Fence, i)
    ensures i + 3 <= p <= |s|
  {
    i + 3 + (if OccursAt(s, "json", i + 3) then 4 else 0)
  }

  /** A fence cannot start inside the optional `json` tag or the white space that follows the opening fence. */
  lemma NoFenceBeforeCapture(s: string, i: nat, p: nat, q: nat, b: nat)
    requires OccursAt(s, Fence, i)
    requires p == TagEnd(s, i)
    requires p <= q <= |s| && AllSpace(s[p..q])
    requires i + 3 <= b && OccursAt(s, Fence, b)
    ensures q <= b
  {
    assert s[b] == '`' by { assert s[b..b + 3][0] == s[b]; }
    forall m | i + 3 <= m < q ensures s[m] != '`' {
      if m < p {
        assert s[i + 3..i + 7][m - (i + 3)] == s[m];
      } else {
        assert s[p..q][m - p] == s[m];
      }
    }
  }

  /** The capture group of the first fenced block, if there is one. */
  function FenceCapture(s: string): (r: Option<string>)
    ensures r.Some? <==> HasFencedBlock(s)
  {
    match FirstFence(s)
    case None => None
    case Some(m) => Some(s[m.captureStart..m.close])
  }

  /** The text holds a `{` somewhere before a `}`. */
  ghost predicate HasBracePair(s: string) {
    exists i, j :: 0 <= i < j < |s| && s[i] == '{' && s[j] == '}'
  }

  ghost predicate Lacks(s: string, c: char) {
    forall k :: 0 <= k < |s| ==> s[k] != c
  }

  /**
   * The JSON candidate `chatJSONWithUsage` hands to the repair: the trimmed inside of the
   * first fenced block; otherwise the slice from the first `{` to the last `}` when the
   * last `}` follows the first `{`; otherwise the whole text.
   */
  function ExtractCandidate(content: string): (r: string)
    ensures HasFencedBlock(content) ==> r == Trim(FenceCapture(content).value)
    ensures !HasFencedBlock(content) && HasBracePair(content) ==>
      exists a, b :: 0 <= a < b < |content| && r == content[a..b + 1]
        && content[a] == '{' && content[b] == '}' && Lacks(content[..a], '{') && Lacks(content[b + 1..], '}')
    ensures !HasFencedBlock(content) && !HasBracePair(content) ==> r == content
  {
    match FenceCapture(content)
    case Some(block) =>
      Trim(block)
    case None =>
      var start := IndexOf(content, '{');
      var end := LastIndexOf(content, '}');
      if start.Some? && end.Some? && end.value > start.value then
        var a, b := start.value, end.value;
        assert Lacks(content[..a], '{') by {
          forall k | 0 <= k < a ensures content[..a][k] != '{' { assert content[..a][k] == content[k]; }
        }
        var tail := content[b + 1..];
        assert Lacks(tail, '}') by {
          forall k | 0 <= k < |tail| ensures tail[k] != '}' {
            assert tail[k] == content[k + b + 1];
          }
        }
        content[a..b + 1]
      else
        content
  }

  // ---------------------------------------------------------------------------
  // The truncation scanner
  // ---------------------------------------------------------------------------

  /** The scanner's four variables. */
  datatype ScanState = ScanState(braceCount: int, bracketCount: int, inString: bool, escape: bool)

  const Start: ScanState := ScanState(0, 0, false, false)

  /** One iteration of the scanning loop. A backslash escapes the next character even outside a string. */
  function Step(st: ScanState, c: char): ScanState {
    if st.escape then st.(escape := false)
    else if c == '\\' then st.(escape := true)
    else if c == '"' then st.(inString := !st.inString)
    else if st.inString then st
    else if c == '{' then st.(braceCount := st.braceCount + 1)
    else if c == '}' then st.(braceCount := st.braceCount - 1)
    else if c == '[' then st.(bracketCount := st.bracketCount + 1)
    else if c == ']' then st.(bracketCount := st.bracketCount - 1)
    else st
  }

  /** The scanner state after reading `s` from state `st`. */
  function Run(st: ScanState, s: string): ScanState
    decreases |s|
  {
    if |s| == 0 then st else Run(Step(st, s[0]), s[1..])
  }

  function Scan(s: string): ScanState {
    Run(Start, s)
  }

  /** Scanning a concatenation scans the second part from where the first left off. */
  lemma {:induction false} RunAppend(st: ScanState, a: string, b: string)
    ensures Run(st, a + b) == Run(Run(st, a), b)
    decreases |a|
  {
    if |a| == 0 {
      assert a + b == b;
    } else {
      assert (a + b)[0] == a[0] && (a + b)[1..] == a[1..] + b;
      RunAppend(Step(st, a[0]), a[1..], b);
    }
  }

  /** A character after a backslash changes neither the counts nor the string flag. */
  lemma EscapedCharIsInert(st: ScanState, c: char)
    requires st.escape
    ensures Step(st, c) == st.(escape := false)
  {
  }

  /**
   * Inside a string literal, a stretch of text without quotes or backslashes leaves the
   * scanner where it was: braces and brackets in it are not counted.
   */
  lemma {:induction false} StringBodyIsInert(st: ScanState, body: string)
    requires st.inString && !st.escape
    requires forall k :: 0 <= k < |body| ==> body[k] != '"' && body[k] != '\\'
    ensures Run(st, body) == st
    decreases |body|
  {
    if |body| > 0 {
      StringBodyIsInert(st, body[1..]);
    }
  }

  /** A complete string literal without escapes, whatever brackets it holds, contributes nothing to the counts. */
  lemma QuotedLiteralIsInert(st: ScanState, body: string)
    requires !st.inString && !st.escape
    requires forall k :: 0 <= k < |body| ==> body[k] != '"' && body[k] != '\\'
    ensures Run(st, "\"" + body + "\"") == st
  {
    var open := Step(st, '"');
    assert Run(st, "\"") == open by { assert "\""[1..] == []; }
    RunAppend(st, "\"", body);
    StringBodyIsInert(open, body);
    RunAppend(st, "\"" + body, "\"");
    assert Run(open, "\"") == st by { assert "\""[1..] == []; }
  }

  /** The scanning loop of `tryFixTruncatedJSON`; its result is the scanner state after the whole text. */
  method ScanText(s: string) returns (braceCount: int, bracketCount: int, inString: bool, escape: bool)
    ensures ScanState(braceCount, bracketCount, inString, escape) == Scan(s)
  {
    braceCount, bracketCount, inString, escape := 0, 0, false, false;
    var i := 0;
    while i < |s|
      invariant 0 <= i <= |s|
      invariant Run(ScanState(braceCount, bracketCount, inString, escape), s[i..]) == Scan(s)
    {
      var c := s[i];
      assert s[i..][1..] == s[i + 1..];
      if escape {
        escape := false;
      } else if c == '\\' {
        escape := true;
      } else if c == '"' {
        inString := !inString;
      } else if !inString {
        if c == '{' { braceCount := braceCount + 1; }
        if c == '}' { braceCount := braceCount - 1; }
        if c == '[' { bracketCount := bracketCount + 1; }
        if c == ']' { bracketCount := bracketCount - 1; }
      }
      i := i + 1;
    }
  }

  // ---------------------------------------------------------------------------
  // Closing what was left open
  // ---------------------------------------------------------------------------

  function Repeat(c: char, n: nat): (r: string)
    ensures |r| == n
    ensures forall k :: 0 <= k < n ==> r[k] == c
  {
    seq(n, _ => c)
  }

  function PositivePart(n: int): nat {
    if n > 0 then n else 0
  }

  /** What the repair appends: a quote when the scan ends inside a string, then `]`s, then `}`s. */
  function Closers(st: ScanState): string {
    (if st.inString then "\"" else "") + Repeat(']', PositivePart(st.bracketCount)) + Repeat('}', PositivePart(st.braceCount))
  }

  /** The two appending loops of `tryFixTruncatedJSON`. */
  method AppendClosers(t: string) returns (fixed: string)
    ensures fixed == t + Closers(Scan(t))
  {
    var braceCount, bracketCount, inString, escape := ScanText(t);
    fixed := t;
    if inString {
      fixed := fixed + "\"";
    }
    ghost var quoted := fixed;
    while bracketCount > 0
      invariant fixed == quoted + Repeat(']', PositivePart(Scan(t).bracketCount) - PositivePart(bracketCount))
      invariant bracketCount <= Scan(t).bracketCount
      invariant bracketCount > 0 ==> bracketCount == Scan(t).bracketCount - (|fixed| - |quoted|)
      decreases bracketCount
    {
      fixed := fixed + "]";
      bracketCount := bracketCount - 1;
    }
    ghost var bracketed := fixed;
    while braceCount > 0
      invariant fixed == bracketed + Repeat('}', PositivePart(Scan(t).braceCount) - PositivePart(braceCount))
      invariant braceCount <= Scan(t).braceCount
      invariant braceCount > 0 ==> braceCount == Scan(t).braceCount - (|fixed| - |bracketed|)
      decreases braceCount
    {
      fixed := fixed + "}";
      braceCount := braceCount - 1;
    }
    assert quoted == t + (if Scan(t).inString then "\"" else "");
  }

  /** Reading `n` closing characters of one kind lowers that count by `n` and nothing else. */
  lemma {:induction false} RunClosers(st: ScanState, c: char, n: nat)
    requires !st.inString && !st.escape
    requires c == ']' || c == '}'
    ensures Run(st, Repeat(c, n)) ==
      if c == ']' then st.(bracketCount := st.bracketCount - n) else st.(braceCount := st.braceCount - n)
    decreases n
  {
    if n > 0 {
      assert Repeat(c, n)[1..] == Repeat(c, n - 1);
      RunClosers(Step(st, c), c, n - 1);
    }
  }

  /**
   * When the scan does not end right after a backslash, the appended closers close the open
   * string and bring both counts down to at most zero: the repaired text is balanced as far
   * as the scanner can tell (though not necessarily correctly nested).
   */
  lemma ClosersBalance(t: string)
    requires !Scan(t).escape
    ensures Scan(t + Closers(Scan(t))).inString == false
    ensures Scan(t + Closers(Scan(t))).escape == false
    ensures Scan(t + Closers(Scan(t))).braceCount == if Scan(t).braceCount > 0 then 0 else Scan(t).braceCount
    ensures Scan(t + Closers(Scan(t))).bracketCount == if Scan(t).bracketCount > 0 then 0 else Scan(t).bracketCount
  {
    var st := Scan(t);
    var quote := if st.inString then "\"" else "";
    var brackets := Repeat(']', PositivePart(st.bracketCount));
    var braces := Repeat('}', PositivePart(st.braceCount));
    assert Closers(st) == quote + brackets + braces;
    assert t + Closers(st) == ((t + quote) + brackets) + braces;
    RunAppend(Start, t + quote, brackets);
    RunAppend(Start, (t + quote) + brackets, braces);
    RunAppend(Start, t, quote);
    var afterQuote := Run(st, quote);
    if st.inString {
      assert quote[..0] == [];
      assert afterQuote == st.(inString := false);
    } else {
      assert afterQuote == st;
    }
    RunClosers(afterQuote, ']', PositivePart(st.bracketCount));
    var afterBrackets := Run(afterQuote, brackets);
    RunClosers(afterBrackets, '}', PositivePart(st.braceCount));
  }

  // ---------------------------------------------------------------------------
  // Trailing commas
  // ---------------------------------------------------------------------------

  predicate IsCloser(c: char) {
    c == ']' || c == '}'
  }

  /** The regular expression /,(\s*[\]}])/ matches at index `k`. */
  predicate CommaBeforeCloserAt(s: string, k: nat)
    requires k < |s|
  {
    s[k] == ',' && SkipSpaces(s, k + 1) < |s| && IsCloser(s[SkipSpaces(s, k + 1)])
  }

  ghost predicate HasCommaBeforeCloser(s: string) {
    exists k: nat :: k < |s| && CommaBeforeCloserAt(s, k)
  }

  /**
   * `s.replace(/,(\s*[\]}])/g, '$1')`: scanning left to right, every match loses its comma
   * and keeps its white space and closer, and the scan resumes after the closer.
   */
  function StripTrailingCommas(s: string): (r: string)
    ensures |r| <= |s|
    decreases |s|
  {
    if |s| == 0 then ""
    else if CommaBeforeCloserAt(s, 0) then
      var q := SkipSpaces(s, 1);
      s[1..q + 1] + StripTrailingCommas(s[q + 1..])
    else [s[0]] + StripTrailingCommas(s[1..])
  }

  /** `s` with every comma removed. */
  function WithoutCommas(s: string): string
    decreases |s|
  {
    if |s| == 0 then ""
    else if s[0] == ',' then WithoutCommas(s[1..])
    else [s[0]] + WithoutCommas(s[1..])
  }

  lemma {:induction false} WithoutCommasAppend(a: string, b: string)
    ensures WithoutCommas(a + b) == WithoutCommas(a) + WithoutCommas(b)
    decreases |a|
  {
    if |a| > 0 {
      assert (a + b)[1..] == a[1..] + b;
      WithoutCommasAppend(a[1..], b);
    } else {
      assert a + b == b;
    }
  }

  /** Stripping only ever deletes commas: every other character survives, in order. */
  lemma {:induction false} StripDeletesOnlyCommas(s: string)
    ensures WithoutCommas(StripTrailingCommas(s)) == WithoutCommas(s)
    decreases |s|
  {
    if |s| == 0 {
    } else if CommaBeforeCloserAt(s, 0) {
      var q := SkipSpaces(s, 1);
      StripDeletesOnlyCommas(s[q + 1..]);
      StripMatchStep(s, q);
    } else {
      StripDeletesOnlyCommas(s[1..]);
      StripKeepStep(s);
    }
  }

  /** The step of a match: the comma goes, the text up to the closer is kept, the rest is stripped. */
  lemma StripMatchStep(s: string, q: nat)
    requires 0 < q < |s| && s[0] == ','
    requires WithoutCommas(StripTrailingCommas(s[q + 1..])) == WithoutCommas(s[q + 1..])
    ensures WithoutCommas(s[1..q + 1] + StripTrailingCommas(s[q + 1..])) == WithoutCommas(s)
  {
    WithoutCommasAppend(s[1..q + 1], StripTrailingCommas(s[q + 1..]));
    WithoutCommasAppend(s[1..q + 1], s[q + 1..]);
    assert s[1..q + 1] + s[q + 1..] == s[1..];
  }

  /** The step without a match: the first character is kept, the rest is stripped. */
  lemma StripKeepStep(s: string)
    requires 0 < |s|
    requires WithoutCommas(StripTrailingCommas(s[1..])) == WithoutCommas(s[1..])
    ensures WithoutCommas([s[0]] + StripTrailingCommas(s[1..])) == WithoutCommas(s)
  {
    WithoutCommasAppend([s[0]], StripTrailingCommas(s[1..]));
    WithoutCommasAppend([s[0]], s[1..]);
    assert [s[0]] + s[1..] == s;
  }

  /** A comma-before-closer match in a suffix is one in the whole text. */
  lemma MatchInSuffix(s: string, d: nat, k: nat)
    requires d <= |s| && k < |s| - d
    ensures CommaBeforeCloserAt(s[d..], k) <==> CommaBeforeCloserAt(s, k + d)
  {
    var t := s[d..];
    SkipSpacesShift(s, d, k + 1);
  }

  lemma {:induction false} SkipSpacesShift(s: string, d: nat, i: nat)
    requires d <= |s| && i <= |s| - d
    ensures SkipSpaces(s[d..], i) + d == SkipSpaces(s, i + d)
    decreases |s| - d - i
  {
    if i < |s| - d {
      assert s[d..][i] == s[i + d];
      if IsSpace(s[i + d]) {
        SkipSpacesShift(s, d, i + 1);
      }
    }
  }

  /**
   * The reference the replace is checked against: `s` from index `k` on, with exactly the
   * commas at which the expression matches deleted and every other character kept.
   */
  function DropMatched(s: string, k: nat): string
    requires k <= |s|
    decreases |s| - k
  {
    if k == |s| then ""
    else if CommaBeforeCloserAt(s, k) then DropMatched(s, k + 1)
    else [s[k]] + DropMatched(s, k + 1)
  }

  /** A span without commas passes through the reference whole. */
  lemma {:induction false} DropKeepsCommaFree(s: string, i: nat, j: nat)
    requires i <= j <= |s|
    requires forall p :: i <= p < j ==> s[p] != ','
    ensures DropMatched(s, i) == s[i..j] + DropMatched(s, j)
    decreases j - i
  {
    if i < j {
      DropKeepsCommaFree(s, i + 1, j);
      DropKeepsNonComma(s, i);
      assert s[i..j] == [s[i]] + s[i + 1..j];
      assert [s[i]] + (s[i + 1..j] + DropMatched(s, j)) == ([s[i]] + s[i + 1..j]) + DropMatched(s, j);
    }
  }

  /** A character other than a comma is kept by the reference. */
  lemma DropKeepsNonComma(s: string, i: nat)
    requires i < |s| && s[i] != ','
    ensures DropMatched(s, i) == [s[i]] + DropMatched(s, i + 1)
  {
  }

  /**
   * Every match loses its comma and nothing else is deleted: the left-to-right replace deletes
   * exactly the commas at which the expression matches. No match is skipped, because a match
   * holds only white space and a closer after its comma, so matches never overlap.
   */
  lemma StripDeletesEveryMatchedComma(s: string)
    ensures StripTrailingCommas(s) == DropMatched(s, 0)
  {
    StripFrom(s, 0);
    assert s[0..] == s;
  }

  /** Stripping a suffix computes the reference from the suffix's start. */
  lemma {:induction false} StripFrom(s: string, k: nat)
    requires k <= |s|
    ensures StripTrailingCommas(s[k..]) == DropMatched(s, k)
    decreases |s| - k
  {
    if k < |s| {
      MatchInSuffix(s, k, 0);
      if CommaBeforeCloserAt(s, k) {
        var q := SkipSpaces(s[k..], 1);
        StripFrom(s, k + q + 1);
        StripMatchBranch(s, k, q);
      } else {
        StripFrom(s, k + 1);
        StripKeepBranch(s, k);
      }
    }
  }

  /** At a match the comma goes and the white space and closer up to the resumption point stay. */
  lemma StripMatchBranch(s: string, k: nat, q: nat)
    requires k < |s| && CommaBeforeCloserAt(s, k) && CommaBeforeCloserAt(s[k..], 0)
    requires q == SkipSpaces(s[k..], 1)
    requires StripTrailingCommas(s[k + q + 1..]) == DropMatched(s, k + q + 1)
    ensures StripTrailingCommas(s[k..]) == DropMatched(s, k)
  {
    var t := s[k..];
    StripUnfoldsAtMatch(t, q);
    SliceOfSuffix(s, k, q + 1, |t|);
    SliceOfSuffix(s, k, 1, q + 1);
    SkipSpacesShift(s, k, 1);
    MatchSpanCommaFree(s, k);
    DropKeepsCommaFree(s, k + 1, k + q + 1);
    DropSkipsMatch(s, k);
  }

  /** A slice of a suffix is the corresponding slice of the whole text. */
  lemma SliceOfSuffix(s: string, k: nat, a: nat, b: nat)
    requires k <= |s| && a <= b <= |s| - k
    ensures s[k..][a..b] == s[k + a..k + b]
    ensures b == |s| - k ==> s[k..][a..] == s[k + a..]
  {
  }

  /** At a match, stripping keeps the white space and closer and resumes after the closer. */
  lemma StripUnfoldsAtMatch(t: string, q: nat)
    requires 0 < |t| && CommaBeforeCloserAt(t, 0) && q == SkipSpaces(t, 1)
    ensures StripTrailingCommas(t) == t[1..q + 1] + StripTrailingCommas(t[q + 1..])
  {
  }

  /** The white space after a matched comma and the closer that ends the match hold no comma. */
  lemma MatchSpanCommaFree(s: string, k: nat)
    requires k < |s| && CommaBeforeCloserAt(s, k)
    ensures forall p :: k + 1 <= p < SkipSpaces(s, k + 1) + 1 ==> s[p] != ','
  {
    var e := SkipSpaces(s, k + 1);
    forall p | k + 1 <= p < e + 1
      ensures s[p] != ','
    {
      if p < e {
        assert s[k + 1..e][p - k - 1] == s[p];
      }
    }
  }

  /** The reference deletes a matched comma. */
  lemma DropSkipsMatch(s: string, k: nat)
    requires k < |s| && CommaBeforeCloserAt(s, k)
    ensures DropMatched(s, k) == DropMatched(s, k + 1)
  {
  }

  /** Away from a match the first character is kept. */
  lemma StripKeepBranch(s: string, k: nat)
    requires k < |s| && !CommaBeforeCloserAt(s, k) && !CommaBeforeCloserAt(s[k..], 0)
    requires StripTrailingCommas(s[k + 1..]) == DropMatched(s, k + 1)
    ensures StripTrailingCommas(s[k..]) == DropMatched(s, k)
  {
    assert s[k..][1..] == s[k + 1..];
  }

  /** Text without any comma-before-closer match comes through stripping unchanged. */
  lemma {:induction false} StripWithoutMatchIsIdentity(s: string)
    requires !HasCommaBeforeCloser(s)
    ensures StripTrailingCommas(s) == s
    decreases |s|
  {
    if |s| > 0 {
      assert !CommaBeforeCloserAt(s, 0);
      assert !HasCommaBeforeCloser(s[1..]) by {
        forall k: nat | k < |s| - 1 ensures !CommaBeforeCloserAt(s[1..], k) {
          MatchInSuffix(s, 1, k);
        }
      }
      StripWithoutMatchIsIdentity(s[1..]);
      assert [s[0]] + s[1..] == s;
    }
  }

  /** A comma-free prefix passes through stripping unchanged. */
  lemma {:induction false} StripKeepsCommaFreePrefix(a: string, b: string)
    requires Lacks(a, ',')
    ensures StripTrailingCommas(a + b) == a + StripTrailingCommas(b)
    decreases |a|
  {
    if |a| > 0 {
      var s := a + b;
      assert s[0] == a[0] && s[1..] == a[1..] + b;
      assert !CommaBeforeCloserAt(s, 0);
      assert Lacks(a[1..], ',') by {
        forall k | 0 <= k < |a| - 1 ensures a[1..][k] != ',' { assert a[1..][k] == a[k + 1]; }
      }
      StripKeepsCommaFreePrefix(a[1..], b);
      assert [a[0]] + (a[1..] + StripTrailingCommas(b)) == a + StripTrailingCommas(b);
    } else {
      assert a + b == b;
    }
  }

  /** Text without commas is left alone. */
  lemma StripCommaFree(s: string)
    requires Lacks(s, ',')
    ensures StripTrailingCommas(s) == s
  {
    StripKeepsCommaFreePrefix(s, "");
    assert s + "" == s;
  }

  /** One pass does not reach a fixed point: `,,]` loses only its second comma. */
  lemma StripIsSinglePass()
    ensures StripTrailingCommas(",,]") == ",]"
    ensures StripTrailingCommas(",]") == "]"
  {
    assert !CommaBeforeCloserAt(",,]", 0) by { assert SkipSpaces(",,]", 1) == 1; }
    assert ",,]"[1..] == ",]";
    assert CommaBeforeCloserAt(",]", 0) by { assert SkipSpaces(",]", 1) == 1; }
    assert ",]"[1..2] == "]" && ",]"[2..] == "";
  }

  /** The comma rewrite ignores string literals: a `,}` inside a string loses its comma. */
  lemma StripReachesIntoStrings()
    ensures StripTrailingCommas("\",}\"") == "\"}\""
  {
    var s := "\",}\"";
    assert !CommaBeforeCloserAt(s, 0);
    assert s[1..] == ",}\"";
    assert CommaBeforeCloserAt(",}\"", 0) by { assert SkipSpaces(",}\"", 1) == 1; }
    assert ",}\""[1..2] == "}" && ",}\""[2..] == "\"";
    assert !CommaBeforeCloserAt("\"", 0);
    assert "\""[1..] == "";
  }

  // ---------------------------------------------------------------------------
  // tryFixTruncatedJSON and chatJSONWithUsage
  // ---------------------------------------------------------------------------

  /** The repaired text, as a function: trim, append closers, strip trailing commas. */
  function Repair(s: string): string {
    var t := Trim(s);
    StripTrailingCommas(t + Closers(Scan(t)))
  }

  /** `tryFixTruncatedJSON`. */
  method TryFixTruncatedJson(s: string) returns (fixed: string)
    ensures fixed == Repair(s)
    ensures WithoutCommas(fixed) == WithoutCommas(Trim(s) + Closers(Scan(Trim(s))))
  {
    var t := Trim(s);
    fixed := AppendClosers(t);
    StripDeletesOnlyCommas(fixed);
    fixed := StripTrailingCommas(fixed);
  }

  /**
   * Text that ends outside a string, leaves no bracket or brace open and holds no comma
   * before a closer comes back as its trimmed form.
   */
  lemma RepairOfCompleteText(s: string)
    requires !Scan(Trim(s)).inString
    requires Scan(Trim(s)).braceCount <= 0 && Scan(Trim(s)).bracketCount <= 0
    requires !HasCommaBeforeCloser(Trim(s))
    ensures Repair(s) == Trim(s)
  {
    var t := Trim(s);
    assert Closers(Scan(t)) == "";
    assert t + "" == t;
    StripWithoutMatchIsIdentity(t);
  }

  /** Composes a repair from its three stages. */
  lemma RepairByStages(s: string, st: ScanState, joined: string, out: string)
    requires s == [] || (!IsSpace(s[0]) && !IsSpace(s[|s| - 1]))
    requires Scan(s) == st && s + Closers(st) == joined && StripTrailingCommas(joined) == out
    ensures Repair(s) == out
  {
    TrimUnchanged(s);
  }

  /** Repair example: a value cut off inside a string gets its quote and its brace back. */
  lemma RepairExampleString(s: string)
    requires s == "{\"a\":\"b"
    ensures Repair(s) == "{\"a\":\"b\"}"
  {
    var st := ScanState(1, 0, true, false);
    var joined := "{\"a\":\"b\"}";
    ScanExampleString(s);
    StringJoin();
    StringCommaFree();
    RepairByStages(s, st, joined, joined);
  }

  lemma StringJoin()
    ensures "{\"a\":\"b" + Closers(ScanState(1, 0, true, false)) == "{\"a\":\"b\"}"
  {
    assert Closers(ScanState(1, 0, true, false)) == "\"}" by {
      assert Repeat(']', 0) == "" && Repeat('}', 1) == "}";
    }
  }

  lemma StringCommaFree()
    ensures StripTrailingCommas("{\"a\":\"b\"}") == "{\"a\":\"b\"}"
  {
    StripCommaFree("{\"a\":\"b\"}");
  }

  lemma ScanExampleString(s: string)
    requires s == "{\"a\":\"b"
    ensures Scan(s) == ScanState(1, 0, true, false)
  {
    assert Scan("{\"a\":\"b") == ScanState(1, 0, true, false);
  }

  /** Repair example: an array cut off inside an object is closed, then the object. */
  lemma RepairExampleArrayInObject(s: string)
    requires s == "{\"a\":[1"
    ensures Repair(s) == "{\"a\":[1]}"
  {
    var st := ScanState(1, 1, false, false);
    var joined := "{\"a\":[1]}";
    ScanExampleArrayInObject(s);
    ArrayInObjectJoin();
    ArrayInObjectCommaFree();
    RepairByStages(s, st, joined, joined);
  }

  lemma ArrayInObjectJoin()
    ensures "{\"a\":[1" + Closers(ScanState(1, 1, false, false)) == "{\"a\":[1]}"
  {
    assert Closers(ScanState(1, 1, false, false)) == "]}" by {
      assert Repeat(']', 1) == "]" && Repeat('}', 1) == "}";
    }
  }

  lemma ArrayInObjectCommaFree()
    ensures StripTrailingCommas("{\"a\":[1]}") == "{\"a\":[1]}"
  {
    StripCommaFree("{\"a\":[1]}");
  }

  lemma ScanExampleArrayInObject(s: string)
    requires s == "{\"a\":[1"
    ensures Scan(s) == ScanState(1, 1, false, false)
  {
    assert Scan("{\"a\":[1") == ScanState(1, 1, false, false);
  }

  /**
   * Repair example: an array with an inner comma cut off inside an object; the comma is followed
   * by a value, not a closer, so stripping leaves it in place.
   */
  lemma RepairExampleArrayWithComma(s: string)
    requires s == "{\"a\":[1,2"
    ensures Repair(s) == "{\"a\":[1,2]}"
  {
    var st := ScanState(1, 1, false, false);
    var joined := "{\"a\":[1,2]}";
    ScanExampleArrayWithComma(s);
    ArrayWithCommaJoin();
    ArrayWithCommaKept();
    RepairByStages(s, st, joined, joined);
  }

  lemma ArrayWithCommaJoin()
    ensures "{\"a\":[1,2" + Closers(ScanState(1, 1, false, false)) == "{\"a\":[1,2]}"
  {
    assert Closers(ScanState(1, 1, false, false)) == "]}" by {
      assert Repeat(']', 1) == "]" && Repeat('}', 1) == "}";
    }
  }

  /** The one comma is followed by a digit, so no position matches. */
  lemma ArrayWithCommaKept()
    ensures StripTrailingCommas("{\"a\":[1,2]}") == "{\"a\":[1,2]}"
  {
    var t := "{\"a\":[1,2]}";
    forall k: nat | k < |t|
      ensures !CommaBeforeCloserAt(t, k)
    {
      if k == 7 {
        assert SkipSpaces(t, 8) == 8;
      } else {
        assert t[k] != ',';
      }
    }
    StripWithoutMatchIsIdentity(t);
  }

  lemma ScanExampleArrayWithComma(s: string)
    requires s == "{\"a\":[1,2"
    ensures Scan(s) == ScanState(1, 1, false, false)
  {
    assert Scan("{\"a\":[1,2") == ScanState(1, 1, false, false);
  }

  /** Repair example: nested objects get one brace each. */
  lemma RepairExampleNestedObjects(s: string)
    requires s == "{\"a\":{\"b\":1"
    ensures Repair(s) == "{\"a\":{\"b\":1}}"
  {
    var st := ScanState(2, 0, false, false);
    var joined := "{\"a\":{\"b\":1}}";
    ScanExampleNestedObjects(s);
    NestedObjectsJoin();
    NestedObjectsCommaFree();
    RepairByStages(s, st, joined, joined);
  }

  lemma NestedObjectsJoin()
    ensures "{\"a\":{\"b\":1" + Closers(ScanState(2, 0, false, false)) == "{\"a\":{\"b\":1}}"
  {
    assert Closers(ScanState(2, 0, false, false)) == "}}" by { assert Repeat('}', 2) == "}}"; }
  }

  lemma NestedObjectsCommaFree()
    ensures StripTrailingCommas("{\"a\":{\"b\":1}}") == "{\"a\":{\"b\":1}}"
  {
    StripCommaFree("{\"a\":{\"b\":1}}");
  }

  lemma ScanExampleNestedObjects(s: string)
    requires s == "{\"a\":{\"b\":1"
    ensures Scan(s) == ScanState(2, 0, false, false)
  {
    assert Scan("{\"a\":{\"b\":1") == ScanState(2, 0, false, false);
  }

  /** Repair example: a trailing comma before a closer is dropped. */
  lemma RepairExampleTrailingComma(s: string)
    requires s == "{\"a\":1,}"
    ensures Repair(s) == "{\"a\":1}"
  {
    assert Scan(s) == ScanState(0, 0, false, false) by { ScanExampleTrailingComma(s); }
    assert StripTrailingCommas(",}") == "}" by { assert SkipSpaces(",}", 1) == 1; }
    assert s == "{\"a\":1" + ",}";
    StripKeepsCommaFreePrefix("{\"a\":1", ",}");
    RepairByStages(s, ScanState(0, 0, false, false), s, "{\"a\":1}");
  }

  lemma ScanExampleTrailingComma(s: string)
    requires s == "{\"a\":1,}"
    ensures Scan(s) == ScanState(0, 0, false, false)
  {
    assert Scan("{\"a\":1,}") == ScanState(0, 0, false, false);
  }

  /** Closers go brackets first, so an object opened inside an array is closed out of order. */
  lemma RepairMayMisnest()
    ensures Repair("[{") == "[{]}"
  {
    TrimUnchanged("[{");
    assert Scan("[{") == ScanState(1, 1, false, false);
    assert Closers(ScanState(1, 1, false, false)) == "]}";
    assert "[{" + "]}" == "[{]}";
    StripCommaFree("[{]}");
  }

  /** The provider's answer to one completion request. */
  datatype LlmResponse = LlmResponse(content: string, usage: TokenUsage, model: string, latencyMs: int)

  /** A parsed model answer with the usage and latency of the call that produced it. */
  datatype Parsed<T> = Parsed(data: T, usage: TokenUsage, latencyMs: int)

  const InvalidJsonMessage: string := "LLM 响应不是有效的 JSON 格式"

  /**
   * `chatJSONWithUsage` after the provider has answered: extract, repair and parse.
   * `parse` stands for `JSON.parse` (None when it throws).
   */
  function ChatJsonWithUsage<T>(response: LlmResponse, parse: string -> Option<T>): (r: Result<Parsed<T>, string>)
    ensures r.Ok? <==> parse(Repair(ExtractCandidate(response.content))).Some?
    ensures r.Ok? ==> r.value.data == parse(Repair(ExtractCandidate(response.content))).value
    ensures r.Ok? ==> r.value.usage == response.usage && r.value.latencyMs == response.latencyMs
    ensures r.Err? ==> r.error == InvalidJsonMessage
  {
    var candidate := ExtractCandidate(response.content);
    match parse(Repair(candidate))
    case None => Err(InvalidJsonMessage)
    case Some(data) => Ok(Parsed(data, response.usage, response.latencyMs))
  }
}

=== FILE: normalize.dfy ===
/**
 * What the agents share when they turn a model's partial JSON answer into a
 * total record: JavaScript's `||` defaults, the parsed shapes of a profile and
 * a question, and the reply every agent hands back to its caller.
 *
 * A parsed field that may be absent is an `Option`. A list field that the code
 * calls `.map` on, and that therefore fails when it holds something other than
 * an array, is a `RawList`.
 */
module Normalize {
  import opened Wrappers
  import opened Types

  /** `s || d` on a possibly missing string: the default when the value is missing or empty. */
  function StrOr(s: Option<string>, d: string): (r: string)
    ensures s.Some? && s.value != "" ==> r == s.value
    ensures s.None? || s.value == "" ==> r == d
  {
    if s.Some? && s.value != "" then s.value else d
  }

  /** `xs || []` on a possibly missing list: an empty list is truthy, so only a missing one is replaced. */
  function ListOr<T>(xs: Option<seq<T>>): (r: seq<T>)
    ensures xs.Some? ==> r == xs.value
    ensures xs.None? ==> r == []
  {
    xs.GetOr([])
  }

  /** A parsed list: missing (or another falsy value), something that is not an array, or an array. */
  datatype RawList<T> = Missing | NotList | List(items: seq<T>)

  /** A parsed candidate profile; any field may be missing. */
  datatype RawProfile = RawProfile(
    summary: Option<string>,
    idealBackground: Option<string>,
    requiredSkills: Option<seq<string>>,
    preferredSkills: Option<seq<string>>,
    experienceLevel: Option<string>,
    educationLevel: Option<string>,
    personalityTraits: Option<seq<string>>)

  const NoProfile: RawProfile := RawProfile(None, None, None, None, None, None, None)

  /**
   * `ensureCandidateProfile`, which the researcher, the recruiter and the strategy agent
   * each define identically: every missing or empty string becomes `''` and every missing
   * list becomes `[]`; present values are kept.
   */
  function EnsureCandidateProfile(raw: Option<RawProfile>): (p: CandidateProfile)
    ensures raw.None? ==> p == CandidateProfile("", "", [], [], "", "", [])
    ensures raw.Some? ==>
      && p.summary == raw.value.summary.GetOr("")
      && p.idealBackground == raw.value.idealBackground.GetOr("")
      && p.requiredSkills == raw.value.requiredSkills.GetOr([])
      && p.preferredSkills == raw.value.preferredSkills.GetOr([])
      && p.experienceLevel == raw.value.experienceLevel.GetOr("")
      && p.educationLevel == raw.value.educationLevel.GetOr("")
      && p.personalityTraits == raw.value.personalityTraits.GetOr([])
  {
    var r := raw.GetOr(NoProfile);
    CandidateProfile(StrOr(r.summary, ""), StrOr(r.idealBackground, ""), ListOr(r.requiredSkills),
                     ListOr(r.preferredSkills), StrOr(r.experienceLevel, ""), StrOr(r.educationLevel, ""),
                     ListOr(r.personalityTraits))
  }

  /** Reading a profile back as a parsed record. */
  function AsRaw(p: CandidateProfile): RawProfile {
    RawProfile(Some(p.summary), Some(p.idealBackground), Some(p.requiredSkills), Some(p.preferredSkills),
               Some(p.experienceLevel), Some(p.educationLevel), Some(p.personalityTraits))
  }

  /** Ensuring a complete profile gives it back: the defaults only fill what is missing. */
  lemma EnsureProfileKeepsComplete(p: CandidateProfile)
    ensures EnsureCandidateProfile(Some(AsRaw(p))) == p
  {
  }

  /** Ensuring is idempotent. */
  lemma EnsureProfileIdempotent(raw: Option<RawProfile>)
    ensures EnsureCandidateProfile(Some(AsRaw(EnsureCandidateProfile(raw)))) == EnsureCandidateProfile(raw)
  {
    EnsureProfileKeepsComplete(EnsureCandidateProfile(raw));
  }

  /** A parsed clarifying question; any field may be missing. */
  datatype RawQuestion = RawQuestion(
    id: Option<string>,
    question: Option<string>,
    category: Option<string>,
    priority: Option<string>,
    answer: Option<string>)

  /** `q.id || uuidv4()`: the model's id when it is non-empty, otherwise a fresh one. */
  function IdOr(id: Option<string>, newId: string): (r: string)
    ensures id.Some? && id.value != "" ==> r == id.value
    ensures id.None? || id.value == "" ==> r == newId
  {
    StrOr(id, newId)
  }

  /** What an agent hands back: its normalised output and the usage and latency of its model call. */
  datatype Reply<T> = Reply(output: T, usage: TokenUsage, latencyMs: int)
}

/**
 * The requirements analyzer: the prompt values it substitutes into its
 * template, and how it backfills the clarifying questions of the model's answer.
 */
module AnalyzerAgent {
  import opened Wrappers
  import opened JsString
  import opened Types
  import opened Normalize
  import JsonRepair

  const Failure: string := "需求分析师代理执行失败"

  /** The values substituted into the analyzer's prompt template. */
  datatype PromptValues = PromptValues(
    title: string, department: string, location: string, jobType: string,
    responsibilities: string, qualifications: string, salary: string,
    teamSize: string, urgency: string, specialRequirements: string)

  /** Each form field, or its default when empty or missing; a team size of 0 is rendered as "0", not defaulted. */
  function AnalyzerPromptValues(form: FormData): (v: PromptValues)
    ensures v.title == (if form.basicInfo.title == "" then "未指定" else form.basicInfo.title)
    ensures v.department == (if form.basicInfo.department == "" then "未指定" else form.basicInfo.department)
    ensures v.location == (if form.basicInfo.location == "" then "未指定" else form.basicInfo.location)
    ensures v.jobType == (if form.basicInfo.jobType == "" then "全职" else form.basicInfo.jobType)
    ensures v.responsibilities == (if form.responsibilities == "" then "未提供" else form.responsibilities)
    ensures v.qualifications == (if form.qualifications == "" then "未提供" else form.qualifications)
    ensures v.salary == StrOr(form.additionalContext.salary, "面议")
    ensures form.additionalContext.teamSize.None? ==> v.teamSize == "未知"
    ensures form.additionalContext.teamSize.Some? ==> v.teamSize == IntToString(form.additionalContext.teamSize.value)
    ensures v.urgency == (if form.additionalContext.urgency == "" then "正常" else form.additionalContext.urgency)
    ensures v.specialRequirements == StrOr(form.additionalContext.specialRequirements, "无")
  {
    var b := form.basicInfo;
    var ctx := form.additionalContext;
    PromptValues(
      StrOr(Some(b.title), "未指定"), StrOr(Some(b.department), "未指定"), StrOr(Some(b.location), "未指定"),
      StrOr(Some(b.jobType), "全职"), StrOr(Some(form.responsibilities), "未提供"),
      StrOr(Some(form.qualifications), "未提供"), StrOr(ctx.salary, "面议"),
      StrOr(if ctx.teamSize.Some? then Some(IntToString(ctx.teamSize.value)) else None, "未知"),
      StrOr(Some(ctx.urgency), "正常"), StrOr(ctx.specialRequirements, "无"))
  }

  /** The prompt never has a blank slot. */
  lemma PromptValuesNonEmpty(form: FormData)
    ensures var v := AnalyzerPromptValues(form);
      && v.title != "" && v.department != "" && v.location != "" && v.jobType != ""
      && v.responsibilities != "" && v.qualifications != "" && v.salary != ""
      && v.teamSize != "" && v.urgency != "" && v.specialRequirements != ""
  {
  }

  /** The analyzer's parsed answer: everything but the question list is taken as declared. */
  datatype RawOutput = RawOutput(
    standardizedTitle: string,
    technicalSkills: seq<string>,
    softSkills: seq<string>,
    experienceRequirements: seq<string>,
    clarifyingQuestions: Option<seq<RawQuestion>>,
    ambiguities: seq<string>)

  /** One question backfilled: the model's fields pass through, the id is kept or newId, and it is unanswered. */
  function BackfillQuestion(q: RawQuestion, newId: string): (c: ClarifyingQuestion)
    ensures c.id == IdOr(q.id, newId) && !c.isAnswered
    ensures c.question == q.question && c.category == q.category && c.priority == q.priority && c.answer == q.answer
  {
    ClarifyingQuestion(IdOr(q.id, newId), q.question, q.category, q.priority, q.answer, false)
  }

  /** The `map` over the model's questions; `freshId(k)` is the id `uuidv4` would supply for the k-th question. */
  function BackfillQuestions(qs: seq<RawQuestion>, freshId: nat -> string): (r: seq<ClarifyingQuestion>)
    ensures |r| == |qs|
    ensures forall k :: 0 <= k < |qs| ==> r[k] == BackfillQuestion(qs[k], freshId(k))
  {
    seq(|qs|, k requires 0 <= k < |qs| => BackfillQuestion(qs[k], freshId(k)))
  }

  /** Reading a backfilled question back as a parsed one. */
  function AsRawQuestion(c: ClarifyingQuestion): RawQuestion {
    RawQuestion(Some(c.id), c.question, c.category, c.priority, c.answer)
  }

  /**
   * Backfilling already backfilled questions changes nothing, provided the fresh ids are
   * never empty: every question then carries an id, so no second fresh id is drawn.
   */
  lemma BackfillIdempotent(qs: seq<RawQuestion>, freshId: nat -> string, again: nat -> string)
    requires forall k :: 0 <= k < |qs| ==> freshId(k) != ""
    ensures var once := BackfillQuestions(qs, freshId);
      BackfillQuestions(seq(|once|, k requires 0 <= k < |once| => AsRawQuestion(once[k])), again) == once
  {
  }

  /**
   * `analyzeWithUsage` once the model call is answered: `call` is the outcome of
   * `chatJSONWithUsage`. A failed call or a missing question list (nothing defaults it)
   * becomes the analyzer's failure; otherwise every question is backfilled and the other
   * fields pass through.
   */
  function AnalyzeWithUsage(call: Result<JsonRepair.Parsed<RawOutput>, string>, freshId: nat -> string): (r: Result<Reply<AnalyzerOutput>, string>)
    ensures r.Err? <==> call.Err? || call.value.data.clarifyingQuestions.None?
    ensures r.Err? ==> r.error == Failure
    ensures r.Ok? ==> var raw := call.value.data; var out := r.value.output;
      && r.value.usage == call.value.usage && r.value.latencyMs == call.value.latencyMs
      && out.standardizedTitle == raw.standardizedTitle
      && out.technicalSkills == raw.technicalSkills
      && out.softSkills == raw.softSkills
      && out.experienceRequirements == raw.experienceRequirements
      && out.ambiguities == raw.ambiguities
      && out.clarifyingQuestions == BackfillQuestions(raw.clarifyingQuestions.value, freshId)
      && |out.clarifyingQuestions| == |raw.clarifyingQuestions.value|
      && forall k :: 0 <= k < |out.clarifyingQuestions| ==>
           var q := raw.clarifyingQuestions.value[k];
           && !out.clarifyingQuestions[k].isAnswered
           && out.clarifyingQuestions[k].id == IdOr(q.id, freshId(k))
           && out.clarifyingQuestions[k].question == q.question
           && out.clarifyingQuestions[k].category == q.category
           && out.clarifyingQuestions[k].priority == q.priority
           && out.clarifyingQuestions[k].answer == q.answer
  {
    if call.Err? || call.value.data.clarifyingQuestions.None? then Err(Failure)
    else
      var raw := call.value.data;
      var qs := BackfillQuestions(raw.clarifyingQuestions.value, freshId);
      Ok(Reply(AnalyzerOutput(raw.standardizedTitle, raw.technicalSkills, raw.softSkills,
                              raw.experienceRequirements, qs, raw.ambiguities),
               call.value.usage, call.value.latencyMs))
  }
}

/**
 * The job-market researcher: the prompt values it derives from the analyzer's
 * output, and how it fills in the model's answer.
 */
module ResearcherAgent {
  import opened Wrappers
  import opened JsString
  import opened Types
  import opened Normalize
  import JsonRepair

  const Failure: string := "市场研究员代理执行失败"
  const Pending: string := "待评估"

  /** `xs.join('、') || d`. */
  function JoinOr(xs: seq<string>, d: string): (r: string)
    ensures Join(xs, "、") != "" ==> r == Join(xs, "、")
    ensures Join(xs, "、") == "" ==> r == d
  {
    StrOr(Some(Join(xs, "、")), d)
  }

  datatype PromptValues = PromptValues(
    standardizedTitle: string, technicalSkills: string, softSkills: string,
    experienceRequirements: string, ambiguities: string)

  /**
   * The title passes through; each list is rendered joined with "、", and a list that joins to
   * nothing reads "未明确", or "无" for the ambiguities.
   */
  function ResearcherPromptValues(a: AnalyzerOutput): (v: PromptValues)
    ensures v.standardizedTitle == a.standardizedTitle
    ensures a.technicalSkills == [] ==> v.technicalSkills == "未明确"
    ensures a.softSkills == [] ==> v.softSkills == "未明确"
    ensures a.experienceRequirements == [] ==> v.experienceRequirements == "未明确"
    ensures a.ambiguities == [] ==> v.ambiguities == "无"
    ensures Join(a.technicalSkills, "、") != "" ==> v.technicalSkills == Join(a.technicalSkills, "、")
    ensures Join(a.technicalSkills, "、") == "" ==> v.technicalSkills == "未明确"
    ensures Join(a.softSkills, "、") != "" ==> v.softSkills == Join(a.softSkills, "、")
    ensures Join(a.softSkills, "、") == "" ==> v.softSkills == "未明确"
    ensures Join(a.experienceRequirements, "、") != "" ==> v.experienceRequirements == Join(a.experienceRequirements, "、")
    ensures Join(a.experienceRequirements, "、") == "" ==> v.experienceRequirements == "未明确"
    ensures Join(a.ambiguities, "、") != "" ==> v.ambiguities == Join(a.ambiguities, "、")
    ensures Join(a.ambiguities, "、") == "" ==> v.ambiguities == "无"
    ensures v.technicalSkills != "" && v.softSkills != "" && v.experienceRequirements != "" && v.ambiguities != ""
  {
    PromptValues(a.standardizedTitle, JoinOr(a.technicalSkills, "未明确"), JoinOr(a.softSkills, "未明确"),
                 JoinOr(a.experienceRequirements, "未明确"), JoinOr(a.ambiguities, "无"))
  }

  datatype RawBenchmarks = RawBenchmarks(salaryRange: Option<string>, experienceLevels: Option<string>, marketDemand: Option<string>)

  datatype RawCapability = RawCapability(capability: Option<string>, specifics: Option<string>, reason: Option<string>, verificationMethod: Option<string>)

  datatype RawMatrix = RawMatrix(mustHave: RawList<RawCapability>, niceToHave: Option<seq<string>>)

  datatype RawOutput = RawOutput(
    similarTitles: Option<seq<string>>,
    industryBenchmarks: Option<RawBenchmarks>,
    idealCandidateProfile: Option<RawProfile>,
    capabilityMatrix: Option<RawMatrix>)

  function EnsureCapability(c: RawCapability): (r: Capability)
    ensures r.capability == StrOr(c.capability, "") && r.specifics == StrOr(c.specifics, "")
    ensures r.reason == StrOr(c.reason, "") && r.verificationMethod == StrOr(c.verificationMethod, "")
  {
    Capability(StrOr(c.capability, ""), StrOr(c.specifics, ""), StrOr(c.reason, ""), StrOr(c.verificationMethod, ""))
  }

  /** `ensureMustHaveCapabilities`: anything but an array gives `[]`; an array keeps its length and order. */
  function EnsureMustHave(caps: RawList<RawCapability>): (r: seq<Capability>)
    ensures !caps.List? ==> r == []
    ensures caps.List? ==> |r| == |caps.items| && forall k :: 0 <= k < |r| ==> r[k] == EnsureCapability(caps.items[k])
  {
    match caps
    case List(items) => seq(|items|, k requires 0 <= k < |items| => EnsureCapability(items[k]))
    case _ => []
  }

  /** Each benchmark is the model's non-empty value or "待评估". */
  function EnsureBenchmarks(b: Option<RawBenchmarks>): (r: Benchmarks)
    ensures b.None? ==> r == Benchmarks(Pending, Pending, Pending)
    ensures b.Some? ==> r == Benchmarks(StrOr(b.value.salaryRange, Pending), StrOr(b.value.experienceLevels, Pending),
                                        StrOr(b.value.marketDemand, Pending))
  {
    var raw := b.GetOr(RawBenchmarks(None, None, None));
    Benchmarks(StrOr(raw.salaryRange, Pending), StrOr(raw.experienceLevels, Pending), StrOr(raw.marketDemand, Pending))
  }

  /** `researchWithUsage` once the model call is answered: every field is filled in; only a failed call fails. */
  function ResearchWithUsage(call: Result<JsonRepair.Parsed<RawOutput>, string>): (r: Result<Reply<ResearcherOutput>, string>)
    ensures r.Err? <==> call.Err?
    ensures r.Err? ==> r.error == Failure
    ensures r.Ok? ==> var raw := call.value.data; var out := r.value.output;
      && r.value.usage == call.value.usage && r.value.latencyMs == call.value.latencyMs
      && out.similarTitles == ListOr(raw.similarTitles)
      && out.industryBenchmarks == EnsureBenchmarks(raw.industryBenchmarks)
      && out.idealCandidateProfile == EnsureCandidateProfile(raw.idealCandidateProfile)
      && (raw.capabilityMatrix.None? ==> out.capabilityMatrix == CapabilityMatrix([], []))
      && (raw.capabilityMatrix.Some? ==>
            out.capabilityMatrix.mustHave == EnsureMustHave(raw.capabilityMatrix.value.mustHave)
            && out.capabilityMatrix.niceToHave == ListOr(raw.capabilityMatrix.value.niceToHave))
  {
    match call
    case Err(_) => Err(Failure)
    case Ok(parsed) =>
      var raw := parsed.data;
      var matrix := raw.capabilityMatrix.GetOr(RawMatrix(Missing, None));
      Ok(Reply(ResearcherOutput(ListOr(raw.similarTitles), EnsureBenchmarks(raw.industryBenchmarks),
                                EnsureCandidateProfile(raw.idealCandidateProfile),
                                CapabilityMatrix(EnsureMustHave(matrix.mustHave), ListOr(matrix.niceToHave))),
               parsed.usage, parsed.latencyMs))
  }

  /** An answer with nothing in it still yields a complete output: no titles, pending benchmarks, an empty profile and matrix. */
  lemma EmptyAnswerIsComplete(usage: TokenUsage, latencyMs: int)
    ensures ResearchWithUsage(Ok(JsonRepair.Parsed(RawOutput(None, None, None, None), usage, latencyMs)))
      == Ok(Reply(ResearcherOutput([], Benchmarks(Pending, Pending, Pending), CandidateProfile("", "", [], [], "", "", []),
                                   CapabilityMatrix([], [])), usage, latencyMs))
  {
  }
}

/**
 * The professional recruiter: how it fills in the model's verdict on a round,
 * which is what the orchestrator's loop condition reads.
 */
module RecruiterAgent {
  import opened Wrappers
  import opened JsString
  import opened Types
  import opened Normalize
  import JsonRepair

  const Failure: string := "专业招聘官代理执行失败"
  const MaxKeywords: nat := 5
  const DefaultScore: real := 5.0

  /** One question made total; `isAnswered` is whatever list the question came in. */
  function EnsureQuestion(q: RawQuestion, isAnswered: bool, newId: string): (c: ClarifyingQuestion)
    ensures c.id == IdOr(q.id, newId) && c.isAnswered == isAnswered && c.answer == q.answer
    ensures c.question == Some(StrOr(q.question, ""))
    ensures c.category == Some(StrOr(q.category, "其他"))
    ensures c.priority == Some(StrOr(q.priority, "medium"))
  {
    ClarifyingQuestion(IdOr(q.id, newId), Some(StrOr(q.question, "")), Some(StrOr(q.category, "其他")),
                       Some(StrOr(q.priority, "medium")), q.answer, isAnswered)
  }

  /**
   * `ensureQuestions`: a missing list gives `[]`, something other than an array makes `map`
   * throw (None), and an array keeps its length and order.
   */
  function EnsureQuestions(qs: RawList<RawQuestion>, isAnswered: bool, freshId: nat -> string): (r: Option<seq<ClarifyingQuestion>>)
    ensures r.None? <==> qs.NotList?
    ensures qs.Missing? ==> r == Some([])
    ensures qs.List? ==>
      && |r.value| == |qs.items|
      && forall k :: 0 <= k < |qs.items| ==> r.value[k] == EnsureQuestion(qs.items[k], isAnswered, freshId(k))
  {
    match qs
    case Missing => Some([])
    case NotList => None
    case List(items) => Some(seq(|items|, k requires 0 <= k < |items| => EnsureQuestion(items[k], isAnswered, freshId(k))))
  }

  /** `n || 5` on a possibly missing score: 0 is falsy, so it becomes 5 too. */
  function ScoreOr5(s: Option<real>): (r: real)
    ensures s.Some? && s.value != 0.0 ==> r == s.value
    ensures s.None? || s.value == 0.0 ==> r == DefaultScore
  {
    if s.Some? && s.value != 0.0 then s.value else DefaultScore
  }

  datatype RawOutput = RawOutput(
    answeredQuestions: RawList<RawQuestion>,
    openQuestions: RawList<RawQuestion>,
    satisfactionScore: Option<real>,
    satisfactionReason: Option<string>,
    candidateProfile: Option<RawProfile>,
    searchKeywords: Option<seq<string>>,
    difficultyLevel: Option<string>,
    difficultyReasoning: Option<string>)

  /**
   * `evaluateWithUsage` once the model call is answered. Fresh ids for the answered list
   * come from `freshId(k)`, those for the open list from `freshId(|answered| + k)`.
   */
  function EvaluateWithUsage(call: Result<JsonRepair.Parsed<RawOutput>, string>, freshId: nat -> string): (r: Result<Reply<RecruiterOutput>, string>)
    ensures r.Err? <==> call.Err? || call.value.data.answeredQuestions.NotList? || call.value.data.openQuestions.NotList?
    ensures r.Err? ==> r.error == Failure
    ensures r.Ok? ==> var raw := call.value.data; var out := r.value.output;
      && r.value.usage == call.value.usage && r.value.latencyMs == call.value.latencyMs
      && (forall q <- out.answeredQuestions :: q.isAnswered)
      && (forall q <- out.openQuestions :: !q.isAnswered)
      && (raw.openQuestions.Missing? ==> out.openQuestions == [])
      && (raw.openQuestions.List? ==> |out.openQuestions| == |raw.openQuestions.items|)
      && Some(out.answeredQuestions) == EnsureQuestions(raw.answeredQuestions, true, freshId)
      && (raw.openQuestions.List? ==> forall k :: 0 <= k < |raw.openQuestions.items| ==>
           out.openQuestions[k] == EnsureQuestion(raw.openQuestions.items[k], false, freshId(|out.answeredQuestions| + k)))
      && out.satisfactionScore == ScoreOr5(raw.satisfactionScore)
      && out.satisfactionReason == StrOr(raw.satisfactionReason, "")
      && out.candidateProfile == EnsureCandidateProfile(raw.candidateProfile)
      && |out.searchKeywords| == (if |ListOr(raw.searchKeywords)| <= MaxKeywords then |ListOr(raw.searchKeywords)| else MaxKeywords)
      && out.searchKeywords == ListOr(raw.searchKeywords)[..|out.searchKeywords|]
      && (|ListOr(raw.searchKeywords)| <= MaxKeywords ==> out.searchKeywords == ListOr(raw.searchKeywords))
      && out.difficultyLevel == StrOr(raw.difficultyLevel, "moderate")
      && out.difficultyReasoning == StrOr(raw.difficultyReasoning, "")
  {
    if call.Err? then Err(Failure)
    else
      var raw := call.value.data;
      var offset := if raw.answeredQuestions.List? then |raw.answeredQuestions.items| else 0;
      var answered := EnsureQuestions(raw.answeredQuestions, true, freshId);
      var open := EnsureQuestions(raw.openQuestions, false, (k: nat) => freshId(offset + k));
      if answered.None? || open.None? then Err(Failure)
      else
        Ok(Reply(RecruiterOutput(answered.value, open.value, ScoreOr5(raw.satisfactionScore),
                                 StrOr(raw.satisfactionReason, ""), EnsureCandidateProfile(raw.candidateProfile),
                                 Take(ListOr(raw.searchKeywords), MaxKeywords), StrOr(raw.difficultyLevel, "moderate"),
                                 StrOr(raw.difficultyReasoning, "")),
                 call.value.usage, call.value.latencyMs))
  }

  /** Whatever the model claims, a question's `isAnswered` follows the list it was returned in. */
  lemma IsAnsweredFollowsList(q: RawQuestion, newId: string)
    ensures EnsureQuestion(q, true, newId).isAnswered && !EnsureQuestion(q, false, newId).isAnswered
    ensures EnsureQuestion(q, true, newId).(isAnswered := false) == EnsureQuestion(q, false, newId)
  {
  }

  /** The score is never 0 and never clamped: 0 reads as 5, while 11 or -3 pass through. */
  lemma ScoreExamples()
    ensures ScoreOr5(Some(0.0)) == 5.0 && ScoreOr5(None) == 5.0
    ensures ScoreOr5(Some(11.0)) == 11.0 && ScoreOr5(Some(-3.0)) == -3.0
  {
  }
}

/**
 * The recruiting-strategy agent's normalisation: the fit assessment with its
 * defaulted scores, its mean, and the verdict rule. The orchestrator does not
 * call this agent.
 */
module StrategyAgent {
  import opened Wrappers
  import opened Types
  import opened Normalize
  import JsonRepair

  const Failure: string := "招聘策略代理执行失败"

  datatype Verdict = Approved | NeedsRevision | MajorConcerns

  /** The verdict's wire name. */
  function VerdictName(v: Verdict): string {
    match v
    case Approved => "approved"
    case NeedsRevision => "needs_revision"
    case MajorConcerns => "major_concerns"
  }

  /** The verdict a wire name denotes, if it is one of the three. */
  function ParseVerdict(s: string): (r: Option<Verdict>)
    ensures r.Some? ==> VerdictName(r.value) == s
    ensures r.None? ==> forall v :: VerdictName(v) != s
  {
    if s == "approved" then Some(Approved)
    else if s == "needs_revision" then Some(NeedsRevision)
    else if s == "major_concerns" then Some(MajorConcerns)
    else None
  }

  /** The verdict the score alone calls for. */
  function VerdictForScore(score: real): Verdict {
    if score >= 9.0 then Approved else if score >= 7.0 then NeedsRevision else MajorConcerns
  }

  /** `determineFinalVerdict`: a provided verdict that names one of the three wins; otherwise the score decides. */
  function DetermineFinalVerdict(overallScore: real, provided: Option<string>): (v: Verdict)
    ensures provided.Some? && ParseVerdict(provided.value).Some? ==> VerdictName(v) == provided.value
    ensures (provided.None? || ParseVerdict(provided.value).None?) ==>
      (overallScore >= 9.0 <==> v == Approved)
      && (7.0 <= overallScore < 9.0 <==> v == NeedsRevision)
      && (overallScore < 7.0 <==> v == MajorConcerns)
  {
    if provided.Some? && ParseVerdict(provided.value).Some? then ParseVerdict(provided.value).value
    else VerdictForScore(overallScore)
  }

  /** How good a verdict is, for comparing them. */
  function Rank(v: Verdict): nat {
    match v
    case MajorConcerns => 0
    case NeedsRevision => 1
    case Approved => 2
  }

  /** Without a usable provided verdict, a higher score never gives a worse verdict. */
  lemma VerdictMonotone(a: real, b: real)
    requires a <= b
    ensures Rank(DetermineFinalVerdict(a, None)) <= Rank(DetermineFinalVerdict(b, None))
  {
  }

  lemma VerdictExamples()
    ensures DetermineFinalVerdict(9.5, None) == Approved
    ensures DetermineFinalVerdict(7.5, None) == NeedsRevision
    ensures DetermineFinalVerdict(6.9, None) == MajorConcerns
    ensures DetermineFinalVerdict(2.0, Some("approved")) == Approved
    ensures DetermineFinalVerdict(9.5, Some("great")) == Approved
    ensures DetermineFinalVerdict(6.0, Some("")) == MajorConcerns
  {
  }

  datatype JobFit = JobFit(score: real, matchedRequirements: seq<string>, gapAnalysis: seq<string>, recommendation: string)
  datatype MarketFit = MarketFit(score: real, feasibility: string, marketAvailability: string, timeToFillEstimate: string, recommendation: string)
  datatype ClientFit = ClientFit(score: real, alignmentWithBusinessGoals: string, potentialConcerns: seq<string>, recommendation: string)

  datatype FitAssessment = FitAssessment(
    jobRequirementsFit: JobFit,
    marketRealityFit: MarketFit,
    clientExpectationsFit: ClientFit,
    overallFitScore: real,
    finalVerdict: Verdict,
    revisionSuggestions: seq<string>)

  datatype RawJobFit = RawJobFit(score: Option<real>, matchedRequirements: Option<seq<string>>, gapAnalysis: Option<seq<string>>, recommendation: Option<string>)
  datatype RawMarketFit = RawMarketFit(score: Option<real>, feasibility: Option<string>, marketAvailability: Option<string>, timeToFillEstimate: Option<string>, recommendation: Option<string>)
  datatype RawClientFit = RawClientFit(score: Option<real>, alignmentWithBusinessGoals: Option<string>, potentialConcerns: Option<seq<string>>, recommendation: Option<string>)

  datatype RawAssessment = RawAssessment(
    jobRequirementsFit: Option<RawJobFit>,
    marketRealityFit: Option<RawMarketFit>,
    clientExpectationsFit: Option<RawClientFit>,
    overallFitScore: Option<real>,
    finalVerdict: Option<string>,
    revisionSuggestions: Option<seq<string>>)

  const NoAssessment: RawAssessment := RawAssessment(None, None, None, None, None, None)

  /** `x?.score ?? 5`: only a missing score defaults; 0 is kept. */
  function ScoreOrDefault(s: Option<real>): (r: real)
    ensures s.Some? ==> r == s.value
    ensures s.None? ==> r == 5.0
  {
    s.GetOr(5.0)
  }

  /**
   * `ensureFitAssessment`: the three dimension scores default to 5 only when missing, the
   * overall score is the provided one or else their mean, and the verdict follows from the
   * overall score unless the model gave a valid one. Everything else defaults with `??`.
   */
  function EnsureFitAssessment(assessment: Option<RawAssessment>): (f: FitAssessment)
    ensures var a := assessment.GetOr(NoAssessment);
      var j := ScoreOrDefault(if a.jobRequirementsFit.Some? then a.jobRequirementsFit.value.score else None);
      var m := ScoreOrDefault(if a.marketRealityFit.Some? then a.marketRealityFit.value.score else None);
      var c := ScoreOrDefault(if a.clientExpectationsFit.Some? then a.clientExpectationsFit.value.score else None);
      && f.jobRequirementsFit.score == j
      && f.marketRealityFit.score == m
      && f.clientExpectationsFit.score == c
      && (a.overallFitScore.Some? ==> f.overallFitScore == a.overallFitScore.value)
      && (a.overallFitScore.None? ==> 3.0 * f.overallFitScore == j + m + c)
      && f.finalVerdict == DetermineFinalVerdict(f.overallFitScore, a.finalVerdict)
      && f.revisionSuggestions == ListOr(a.revisionSuggestions)
    ensures var a := assessment.GetOr(NoAssessment);
      && (a.jobRequirementsFit.None? ==> f.jobRequirementsFit == JobFit(5.0, [], [], ""))
      && (a.jobRequirementsFit.Some? ==> var raw := a.jobRequirementsFit.value;
            && f.jobRequirementsFit.matchedRequirements == ListOr(raw.matchedRequirements)
            && f.jobRequirementsFit.gapAnalysis == ListOr(raw.gapAnalysis)
            && f.jobRequirementsFit.recommendation == raw.recommendation.GetOr(""))
      && (a.marketRealityFit.None? ==> f.marketRealityFit == MarketFit(5.0, "medium", "", "", ""))
      && (a.marketRealityFit.Some? ==> var raw := a.marketRealityFit.value;
            && f.marketRealityFit.feasibility == raw.feasibility.GetOr("medium")
            && f.marketRealityFit.marketAvailability == raw.marketAvailability.GetOr("")
            && f.marketRealityFit.timeToFillEstimate == raw.timeToFillEstimate.GetOr("")
            && f.marketRealityFit.recommendation == raw.recommendation.GetOr(""))
      && (a.clientExpectationsFit.None? ==> f.clientExpectationsFit == ClientFit(5.0, "", [], ""))
      && (a.clientExpectationsFit.Some? ==> var raw := a.clientExpectationsFit.value;
            && f.clientExpectationsFit.alignmentWithBusinessGoals == raw.alignmentWithBusinessGoals.GetOr("")
            && f.clientExpectationsFit.potentialConcerns == ListOr(raw.potentialConcerns)
            && f.clientExpectationsFit.recommendation == raw.recommendation.GetOr(""))
  {
    var a := assessment.GetOr(NoAssessment);
    var jf := a.jobRequirementsFit.GetOr(RawJobFit(None, None, None, None));
    var mf := a.marketRealityFit.GetOr(RawMarketFit(None, None, None, None, None));
    var cf := a.clientExpectationsFit.GetOr(RawClientFit(None, None, None, None));
    var j := ScoreOrDefault(jf.score);
    var m := ScoreOrDefault(mf.score);
    var c := ScoreOrDefault(cf.score);
    var overall := a.overallFitScore.GetOr((j + m + c) / 3.0);
    FitAssessment(
      JobFit(j, ListOr(jf.matchedRequirements), ListOr(jf.gapAnalysis), jf.recommendation.GetOr("")),
      MarketFit(m, mf.feasibility.GetOr("medium"), mf.marketAvailability.GetOr(""), mf.timeToFillEstimate.GetOr(""),
                mf.recommendation.GetOr("")),
      ClientFit(c, cf.alignmentWithBusinessGoals.GetOr(""), ListOr(cf.potentialConcerns), cf.recommendation.GetOr("")),
      overall,
      DetermineFinalVerdict(overall, a.finalVerdict),
      ListOr(a.revisionSuggestions))
  }

  /** With no assessment at all: scores 5, 5 and 5, overall 5, medium feasibility, and major concerns. */
  lemma NoAssessmentDefaults()
    ensures var f := EnsureFitAssessment(None);
      && f.jobRequirementsFit.score == 5.0 && f.marketRealityFit.score == 5.0 && f.clientExpectationsFit.score == 5.0
      && f.overallFitScore == 5.0 && f.finalVerdict == MajorConcerns
      && f.marketRealityFit.feasibility == "medium"
  {
  }

  /** A score of 0 is kept, unlike the recruiter's satisfaction score. */
  lemma ZeroScoreIsKept()
    ensures EnsureFitAssessment(Some(NoAssessment.(jobRequirementsFit := Some(RawJobFit(Some(0.0), None, None, None)))))
      .jobRequirementsFit.score == 0.0
  {
  }

  /** The mean lies between the smallest and the largest of the three scores. */
  lemma MeanIsBetween(assessment: Option<RawAssessment>)
    requires assessment.None? || assessment.value.overallFitScore.None?
    ensures var f := EnsureFitAssessment(assessment);
      var lo := Min(Min(f.jobRequirementsFit.score, f.marketRealityFit.score), f.clientExpectationsFit.score);
      var hi := Max(Max(f.jobRequirementsFit.score, f.marketRealityFit.score), f.clientExpectationsFit.score);
      lo <= f.overallFitScore <= hi
  {
  }

  function Min(a: real, b: real): real { if a <= b then a else b }
  function Max(a: real, b: real): real { if a >= b then a else b }

  datatype RecruitingStrategy = RecruitingStrategy(primaryChannels: seq<string>, searchApproach: string, screeningCriteria: seq<string>, interviewFocus: seq<string>)
  datatype RiskAnalysis = RiskAnalysis(hiringRisks: seq<string>, mitigationStrategies: seq<string>)

  datatype StrategyOutput = StrategyOutput(
    refinedCandidateProfile: CandidateProfile,
    fitAssessment: FitAssessment,
    recruitingStrategy: RecruitingStrategy,
    riskAnalysis: RiskAnalysis)

  datatype RawStrategy = RawStrategy(primaryChannels: Option<seq<string>>, searchApproach: Option<string>, screeningCriteria: Option<seq<string>>, interviewFocus: Option<seq<string>>)
  datatype RawRisks = RawRisks(hiringRisks: Option<seq<string>>, mitigationStrategies: Option<seq<string>>)

  datatype RawOutput = RawOutput(
    refinedCandidateProfile: Option<RawProfile>,
    fitAssessment: Option<RawAssessment>,
    recruitingStrategy: Option<RawStrategy>,
    riskAnalysis: Option<RawRisks>)

  /** `validateWithUsage` once the model call is answered: every sub-record is filled in; only a failed call fails. */
  function ValidateWithUsage(call: Result<JsonRepair.Parsed<RawOutput>, string>): (r: Result<Reply<StrategyOutput>, string>)
    ensures r.Err? <==> call.Err?
    ensures r.Err? ==> r.error == Failure
    ensures r.Ok? ==> var raw := call.value.data; var out := r.value.output;
      && r.value.usage == call.value.usage && r.value.latencyMs == call.value.latencyMs
      && out.refinedCandidateProfile == EnsureCandidateProfile(raw.refinedCandidateProfile)
      && out.fitAssessment == EnsureFitAssessment(raw.fitAssessment)
      && (raw.recruitingStrategy.None? ==> out.recruitingStrategy == RecruitingStrategy([], "", [], []))
      && (raw.riskAnalysis.None? ==> out.riskAnalysis == RiskAnalysis([], []))
      && (raw.recruitingStrategy.Some? ==> var strategy := raw.recruitingStrategy.value;
            && out.recruitingStrategy.searchApproach == StrOr(strategy.searchApproach, "")
            && out.recruitingStrategy.primaryChannels == ListOr(strategy.primaryChannels)
            && out.recruitingStrategy.screeningCriteria == ListOr(strategy.screeningCriteria)
            && out.recruitingStrategy.interviewFocus == ListOr(strategy.interviewFocus))
      && (raw.riskAnalysis.Some? ==> var risks := raw.riskAnalysis.value;
            && out.riskAnalysis.hiringRisks == ListOr(risks.hiringRisks)
            && out.riskAnalysis.mitigationStrategies == ListOr(risks.mitigationStrategies))
  {
    match call
    case Err(_) => Err(Failure)
    case Ok(parsed) =>
      var raw := parsed.data;
      var s := raw.recruitingStrategy.GetOr(RawStrategy(None, None, None, None));
      var k := raw.riskAnalysis.GetOr(RawRisks(None, None));
      Ok(Reply(StrategyOutput(
                 EnsureCandidateProfile(raw.refinedCandidateProfile),
                 EnsureFitAssessment(raw.fitAssessment),
                 RecruitingStrategy(ListOr(s.primaryChannels), StrOr(s.searchApproach, ""), ListOr(s.screeningCriteria),
                                    ListOr(s.interviewFocus)),
                 RiskAnalysis(ListOr(k.hiringRisks), ListOr(k.mitigationStrategies))),
               parsed.usage, parsed.latencyMs))
  }
}

=== FILE: orchestrator.dfy ===
/**
 * The analysis orchestrator: up to three rounds of analyzer, researcher and
 * recruiter, stopping after the first round whose satisfaction score reaches
 * the threshold, with token accounting throughout.
 *
 * The agents are oracles keyed by the round number (and by the outputs they
 * are given), so that the same agent may answer differently in each round. A
 * thrown error is an `Err`. Progress events sent over the socket are not
 * modelled; neither is the iteration timestamp.
 */
module Orchestrator {
  import opened Wrappers
  import opened Types
  import opened Normalize
  import opened Usage

  const MaxIterations: nat := 3
  const SatisfactionThreshold: real := 8.0

  /** The three agents as oracles. */
  datatype Agents = Agents(
    analyzer: nat -> Result<Reply<AnalyzerOutput>, string>,
    researcher: (nat, AnalyzerOutput) -> Result<Reply<ResearcherOutput>, string>,
    recruiter: (nat, AnalyzerOutput, ResearcherOutput) -> Result<Reply<RecruiterOutput>, string>)

  /** How one round ends: with its iteration record, or with the error of the agent that threw. */
  datatype RoundOutcome =
    | RoundOk(iteration: Iteration, tu: AnalysisTokenUsage)
    | RoundFailed(error: string, tu: AnalysisTokenUsage)

  /**
   * The agent calls of round `k` that returned, in call order: the analyzer's, the researcher's
   * and the recruiter's, cut off at the first agent that threw.
   */
  function ReturnedCalls(agents: Agents, k: nat): (calls: seq<Call>)
    ensures |calls| <= 3
    ensures |calls| > 0 ==> calls[0].role == Analyzer
    ensures |calls| > 1 ==> calls[1].role == Researcher
    ensures |calls| > 2 ==> calls[2].role == Recruiter
  {
    match agents.analyzer(k)
    case Err(_) => []
    case Ok(a) =>
      var analyzed := [Call(Analyzer, a.usage, a.latencyMs)];
      match agents.researcher(k, a.output)
      case Err(_) => analyzed
      case Ok(r) =>
        var researched := analyzed + [Call(Researcher, r.usage, r.latencyMs)];
        match agents.recruiter(k, a.output, r.output)
        case Err(_) => researched
        case Ok(c) => researched + [Call(Recruiter, c.usage, c.latencyMs)]
  }

  /**
   * Round `k`: each agent is called in turn, and each reply's usage is accounted for before
   * the next call, so a later failure leaves the earlier usage counted (`RoundUsage`).
   */
  function RunRound(agents: Agents, k: nat, tu: AnalysisTokenUsage): (o: RoundOutcome)
    ensures o.tu.iterations == tu.iterations
    ensures o.RoundOk? ==> o.iteration.iteration == k
  {
    match agents.analyzer(k)
    case Err(e) => RoundFailed(e, tu)
    case Ok(a) =>
      var tu1 := UpdateTokenUsage(tu, Analyzer, a.usage, a.latencyMs);
      match agents.researcher(k, a.output)
      case Err(e) => RoundFailed(e, tu1)
      case Ok(r) =>
        var tu2 := UpdateTokenUsage(tu1, Researcher, r.usage, r.latencyMs);
        match agents.recruiter(k, a.output, r.output)
        case Err(e) => RoundFailed(e, tu2)
        case Ok(c) => RoundOk(Iteration(k, a.output, r.output, c.output), UpdateTokenUsage(tu2, Recruiter, c.usage, c.latencyMs))
  }

  /**
   * The iteration record of round `k` when all three agents return, read off the agents alone:
   * it does not depend on the totals the round starts from.
   */
  function RoundIteration(agents: Agents, k: nat): Option<Iteration> {
    var a := agents.analyzer(k);
    if a.Err? then None
    else
      var r := agents.researcher(k, a.value.output);
      if r.Err? then None
      else
        var c := agents.recruiter(k, a.value.output, r.value.output);
        if c.Err? then None else Some(Iteration(k, a.value.output, r.value.output, c.value.output))
  }

  /**
   * Whichever way a round ends, its totals are exactly those of the agent calls that returned:
   * a researcher or recruiter failure keeps the usage of the agents called before it. The round
   * completes exactly when all three calls returned, with the same record from any totals.
   */
  lemma RoundUsage(agents: Agents, k: nat, tu: AnalysisTokenUsage)
    ensures RunRound(agents, k, tu).tu == Replay(tu, ReturnedCalls(agents, k))
    ensures RunRound(agents, k, tu).RoundOk? <==> |ReturnedCalls(agents, k)| == 3
    ensures RunRound(agents, k, tu).RoundOk? <==> RoundIteration(agents, k).Some?
    ensures RunRound(agents, k, tu).RoundOk? ==> RunRound(agents, k, tu).iteration == RoundIteration(agents, k).value
  {
    match agents.analyzer(k)
    case Err(e) =>
    case Ok(a) =>
      var analyzed := [Call(Analyzer, a.usage, a.latencyMs)];
      ReplaySnoc(tu, [], analyzed[0]);
      assert [] + analyzed == analyzed;
      match agents.researcher(k, a.output)
      case Err(e) =>
      case Ok(r) =>
        var researched := analyzed + [Call(Researcher, r.usage, r.latencyMs)];
        ReplaySnoc(tu, analyzed, Call(Researcher, r.usage, r.latencyMs));
        match agents.recruiter(k, a.output, r.output)
        case Err(e) =>
        case Ok(c) => ReplaySnoc(tu, researched, Call(Recruiter, c.usage, c.latencyMs));
  }

  /**
   * A round yields an iteration exactly when all three agents return, and then its latency is
   * the sum of theirs; an analyzer failure leaves the totals untouched.
   */
  lemma RoundOkIffAgentsReturn(agents: Agents, k: nat, tu: AnalysisTokenUsage)
    ensures var o := RunRound(agents, k, tu);
      var a := agents.analyzer(k);
      && (o.RoundOk? <==>
        && a.Ok?
        && agents.researcher(k, a.value.output).Ok?
        && agents.recruiter(k, a.value.output, agents.researcher(k, a.value.output).value.output).Ok?)
      && (o.RoundOk? ==> (o.tu.totalLatencyMs == tu.totalLatencyMs
        + a.value.latencyMs
        + agents.researcher(k, a.value.output).value.latencyMs
        + agents.recruiter(k, a.value.output, agents.researcher(k, a.value.output).value.output).value.latencyMs))
      && (a.Err? ==> o == RoundFailed(a.error, tu))
  {
  }

  /** However a round ends, the totals stay the merge of the per-agent breakdown. */
  lemma RoundPreservesConsistent(agents: Agents, k: nat, tu: AnalysisTokenUsage)
    requires Consistent(tu)
    ensures Consistent(RunRound(agents, k, tu).tu)
  {
    match agents.analyzer(k)
    case Err(e) =>
    case Ok(a) =>
      UpdatePreservesConsistent(tu, Analyzer, a.usage, a.latencyMs);
      var tu1 := UpdateTokenUsage(tu, Analyzer, a.usage, a.latencyMs);
      match agents.researcher(k, a.output)
      case Err(e) =>
      case Ok(r) =>
        UpdatePreservesConsistent(tu1, Researcher, r.usage, r.latencyMs);
        var tu2 := UpdateTokenUsage(tu1, Researcher, r.usage, r.latencyMs);
        match agents.recruiter(k, a.output, r.output)
        case Err(e) =>
        case Ok(c) => UpdatePreservesConsistent(tu2, Recruiter, c.usage, c.latencyMs);
  }

  predicate Satisfied(it: Iteration) {
    it.recruiterOutput.satisfactionScore >= SatisfactionThreshold
  }

  /** How the loop ends: normally, or with a rethrown error. */
  datatype LoopOutcome =
    | LoopDone(analysis: AnalysisResult, tu: AnalysisTokenUsage)
    | LoopFailed(analysis: AnalysisResult, tu: AnalysisTokenUsage, error: string)

  /** One round as a function of its number and the totals it starts from. */
  type RoundRunner = (nat, AnalysisTokenUsage) -> RoundOutcome

  /** The rounds the agents play. */
  function AgentRounds(agents: Agents): RoundRunner {
    (k: nat, tu: AnalysisTokenUsage) => RunRound(agents, k, tu)
  }

  /** The `while` loop from the state after `current` rounds, for any way of playing a round. */
  function LoopWith(round: RoundRunner, current: nat, satisfied: bool, analysis: AnalysisResult, tu: AnalysisTokenUsage): LoopOutcome
    decreases MaxIterations - current
  {
    if current >= MaxIterations || satisfied then LoopDone(analysis, tu)
    else
      var k := current + 1;
      match round(k, tu.(iterations := k))
      case RoundFailed(e, tu1) => LoopFailed(analysis, tu1, e)
      case RoundOk(it, tu1) =>
        LoopWith(round, k, Satisfied(it), analysis.(iterations := analysis.iterations + [it]), tu1)
  }

  /** The `while` loop of the agents from the state after `current` rounds. */
  function Loop(agents: Agents, current: nat, satisfied: bool, analysis: AnalysisResult, tu: AnalysisTokenUsage): LoopOutcome {
    LoopWith(AgentRounds(agents), current, satisfied, analysis, tu)
  }

  /** A round keeps the round counter it is started with, and numbers its record by the round. */
  ghost predicate NumbersRounds(round: RoundRunner) {
    forall k: nat, tu: AnalysisTokenUsage ::
      && round(k, tu).tu.iterations == tu.iterations
      && (round(k, tu).RoundOk? ==> round(k, tu).iteration.iteration == k)
  }

  /** A round keeps the totals equal to the merge of the per-agent breakdown. */
  ghost predicate KeepsConsistent(round: RoundRunner) {
    forall k: nat, tu: AnalysisTokenUsage :: Consistent(tu) ==> Consistent(round(k, tu).tu)
  }

  /**
   * A round accounts for exactly the calls of `agents` that returned, and completes, with the
   * agents' record, exactly when all three did.
   */
  ghost predicate AccountsCalls(round: RoundRunner, agents: Agents) {
    && (forall k: nat, tu: AnalysisTokenUsage ::
      && round(k, tu).tu == Replay(tu, ReturnedCalls(agents, k))
      && (round(k, tu).RoundOk? <==> RoundIteration(agents, k).Some?)
      && (round(k, tu).RoundOk? ==> round(k, tu).iteration == RoundIteration(agents, k).value))
    && (forall k: nat :: RoundIteration(agents, k).Some? <==> |ReturnedCalls(agents, k)| == 3)
  }

  /** The agents' rounds number their records and keep the counter and the totals' consistency. */
  lemma AgentRoundsBehave(agents: Agents)
    ensures NumbersRounds(AgentRounds(agents))
    ensures KeepsConsistent(AgentRounds(agents))
  {
    var round := AgentRounds(agents);
    forall k: nat, tu: AnalysisTokenUsage | Consistent(tu) ensures Consistent(round(k, tu).tu) {
      RoundPreservesConsistent(agents, k, tu);
    }
  }

  /** The agents' rounds account for exactly the calls that returned. */
  lemma AgentRoundsAccount(agents: Agents)
    ensures AccountsCalls(AgentRounds(agents), agents)
  {
    var round := AgentRounds(agents);
    forall k: nat, tu: AnalysisTokenUsage
      ensures round(k, tu).tu == Replay(tu, ReturnedCalls(agents, k))
      ensures round(k, tu).RoundOk? <==> RoundIteration(agents, k).Some?
      ensures round(k, tu).RoundOk? ==> round(k, tu).iteration == RoundIteration(agents, k).value
    {
      RoundUsage(agents, k, tu);
    }
    forall k: nat ensures RoundIteration(agents, k).Some? <==> |ReturnedCalls(agents, k)| == 3 {
      RoundUsage(agents, k, InitializeTokenUsage());
    }
  }

  /** The iterations a loop run appended. */
  function Appended(before: AnalysisResult, o: LoopOutcome): seq<Iteration> {
    if |before.iterations| <= |o.analysis.iterations| then o.analysis.iterations[|before.iterations|..] else []
  }

  /** One turn of the loop: the next round either fails the loop, or is appended and the loop goes on. */
  lemma LoopStep(round: RoundRunner, current: nat, satisfied: bool, analysis: AnalysisResult, tu: AnalysisTokenUsage)
    requires current < MaxIterations && !satisfied
    ensures var k := current + 1;
      var o := round(k, tu.(iterations := k));
      && (o.RoundFailed? ==> LoopWith(round, current, satisfied, analysis, tu) == LoopFailed(analysis, o.tu, o.error))
      && (o.RoundOk? ==> (LoopWith(round, current, satisfied, analysis, tu)
        == LoopWith(round, k, Satisfied(o.iteration), analysis.(iterations := analysis.iterations + [o.iteration]), o.tu)))
  {
  }

  /** When the loop's record extends `analysis` by `it`, what it appended to `analysis` starts with `it`. */
  lemma AppendedStep(analysis: AnalysisResult, it: Iteration, o: LoopOutcome)
    requires |analysis.iterations| + 1 <= |o.analysis.iterations|
    requires o.analysis.iterations[..|analysis.iterations| + 1] == analysis.iterations + [it]
    ensures Appended(analysis, o) == [it] + Appended(analysis.(iterations := analysis.iterations + [it]), o)
  {
    var n := |analysis.iterations|;
    assert o.analysis.iterations[n] == it;
    assert o.analysis.iterations[n..] == [it] + o.analysis.iterations[n + 1..];
  }

  /**
   * The loop only appends iterations, and changes nothing else of the analysis; it appends
   * at most one per remaining round, numbered on from `current`.
   */
  lemma {:induction false} LoopAppends(round: RoundRunner, current: nat, satisfied: bool, analysis: AnalysisResult, tu: AnalysisTokenUsage)
    requires current <= MaxIterations
    requires NumbersRounds(round)
    ensures var o := LoopWith(round, current, satisfied, analysis, tu);
      && |analysis.iterations| <= |o.analysis.iterations|
      && o.analysis.iterations[..|analysis.iterations|] == analysis.iterations
      && o.analysis == analysis.(iterations := o.analysis.iterations)
      && current + |Appended(analysis, o)| <= MaxIterations
      && (satisfied ==> Appended(analysis, o) == [])
      && forall j :: 0 <= j < |Appended(analysis, o)| ==> Appended(analysis, o)[j].iteration == current + 1 + j
    decreases MaxIterations - current
  {
    var o := LoopWith(round, current, satisfied, analysis, tu);
    if current < MaxIterations && !satisfied {
      var k := current + 1;
      var r := round(k, tu.(iterations := k));
      LoopStep(round, current, satisfied, analysis, tu);
      if r.RoundOk? {
        var it := r.iteration;
        var next := analysis.(iterations := analysis.iterations + [it]);
        LoopAppends(round, k, Satisfied(it), next, r.tu);
        var rest := LoopWith(round, k, Satisfied(it), next, r.tu);
        assert rest.analysis.iterations[..|analysis.iterations|] == next.iterations[..|analysis.iterations|];
        AppendedStep(analysis, it, rest);
        assert o == rest;
      } else {
        assert o == LoopFailed(analysis, r.tu, r.error);
        assert Appended(analysis, o) == [];
      }
    } else {
      assert o == LoopDone(analysis, tu);
      assert Appended(analysis, o) == [];
    }
  }

  /** What a loop run appends after `it` was appended is what the run appended to the record before `it`, less `it`. */
  lemma AppendedAfter(round: RoundRunner, k: nat, satisfied: bool, analysis: AnalysisResult, it: Iteration, tu: AnalysisTokenUsage)
    requires k <= MaxIterations
    requires NumbersRounds(round)
    ensures var next := analysis.(iterations := analysis.iterations + [it]);
      var o := LoopWith(round, k, satisfied, next, tu);
      Appended(analysis, o) == [it] + Appended(next, o)
  {
    var next := analysis.(iterations := analysis.iterations + [it]);
    LoopAppends(round, k, satisfied, next, tu);
    var o := LoopWith(round, k, satisfied, next, tu);
    assert o.analysis.iterations[..|analysis.iterations|] == next.iterations[..|analysis.iterations|];
    AppendedStep(analysis, it, o);
  }

  /**
   * Of the rounds `added` after round `current`, every one but the last fell short of the
   * threshold, and a normal end (`done`) came either from a satisfied last round or from running
   * out of rounds.
   */
  ghost predicate StoppedAtThreshold(current: nat, satisfied: bool, added: seq<Iteration>, done: bool) {
    && (forall j :: 0 <= j < |added| - 1 ==> !Satisfied(added[j]))
    && (done && !satisfied ==> current + |added| == MaxIterations || (|added| > 0 && Satisfied(added[|added| - 1])))
    && (done && !satisfied && current < MaxIterations ==> |added| > 0)
  }

  /** An unsatisfied round `it` in front of rounds that stopped at the threshold still stops at it. */
  lemma StoppedStep(current: nat, it: Iteration, rest: seq<Iteration>, done: bool)
    requires current < MaxIterations
    requires StoppedAtThreshold(current + 1, Satisfied(it), rest, done)
    requires Satisfied(it) ==> rest == []
    ensures StoppedAtThreshold(current, false, [it] + rest, done)
  {
    var added := [it] + rest;
    forall j | 0 <= j < |added| - 1 ensures !Satisfied(added[j]) {
      if j > 0 {
        assert added[j] == rest[j - 1];
      }
    }
    if |rest| > 0 {
      assert added[|added| - 1] == rest[|rest| - 1];
    }
  }

  /**
   * Every appended round but the last fell short of the threshold, and a normal end came
   * either from a satisfied last round or from running out of rounds.
   */
  lemma {:induction false} LoopStopsAtThreshold(round: RoundRunner, current: nat, satisfied: bool, analysis: AnalysisResult, tu: AnalysisTokenUsage)
    requires current <= MaxIterations
    requires NumbersRounds(round)
    ensures var o := LoopWith(round, current, satisfied, analysis, tu);
      StoppedAtThreshold(current, satisfied, Appended(analysis, o), o.LoopDone?)
    decreases MaxIterations - current
  {
    var o := LoopWith(round, current, satisfied, analysis, tu);
    if current < MaxIterations && !satisfied {
      var k := current + 1;
      var r := round(k, tu.(iterations := k));
      LoopStep(round, current, satisfied, analysis, tu);
      if r.RoundOk? {
        var it := r.iteration;
        var next := analysis.(iterations := analysis.iterations + [it]);
        var rest := LoopWith(round, k, Satisfied(it), next, r.tu);
        LoopStopsAtThreshold(round, k, Satisfied(it), next, r.tu);
        LoopAppends(round, k, Satisfied(it), next, r.tu);
        AppendedStep(analysis, it, rest);
        StoppedStep(current, it, Appended(next, rest), rest.LoopDone?);
        assert o == rest;
      } else {
        assert o == LoopFailed(analysis, r.tu, r.error);
        assert Appended(analysis, o) == [];
      }
    } else {
      assert o == LoopDone(analysis, tu);
      assert Appended(analysis, o) == [];
    }
  }

  /**
   * `tokenUsage.iterations` counts the rounds started: the appended ones, plus the one that
   * failed, if any.
   */
  lemma {:induction false} LoopCountsRounds(round: RoundRunner, current: nat, satisfied: bool, analysis: AnalysisResult, tu: AnalysisTokenUsage)
    requires current <= MaxIterations
    requires tu.iterations == current
    requires NumbersRounds(round)
    ensures var o := LoopWith(round, current, satisfied, analysis, tu);
      && (o.LoopDone? ==> o.tu.iterations == current + |Appended(analysis, o)|)
      && (o.LoopFailed? ==> o.tu.iterations == current + |Appended(analysis, o)| + 1)
    decreases MaxIterations - current
  {
    var o := LoopWith(round, current, satisfied, analysis, tu);
    if current < MaxIterations && !satisfied {
      var k := current + 1;
      var r := round(k, tu.(iterations := k));
      LoopStep(round, current, satisfied, analysis, tu);
      if r.RoundOk? {
        var it := r.iteration;
        var next := analysis.(iterations := analysis.iterations + [it]);
        LoopCountsRounds(round, k, Satisfied(it), next, r.tu);
        AppendedAfter(round, k, Satisfied(it), analysis, it, r.tu);
        assert o == LoopWith(round, k, Satisfied(it), next, r.tu);
      } else {
        assert o == LoopFailed(analysis, r.tu, r.error);
        assert Appended(analysis, o) == [];
      }
    } else {
      assert o == LoopDone(analysis, tu);
      assert Appended(analysis, o) == [];
    }
  }

  /** The loop keeps the usage totals equal to the merge of the per-agent breakdown. */
  lemma {:induction false} LoopPreservesConsistent(round: RoundRunner, current: nat, satisfied: bool, analysis: AnalysisResult, tu: AnalysisTokenUsage)
    requires Consistent(tu)
    requires KeepsConsistent(round)
    ensures Consistent(LoopWith(round, current, satisfied, analysis, tu).tu)
    decreases MaxIterations - current
  {
    if current < MaxIterations && !satisfied {
      var k := current + 1;
      var start := tu.(iterations := k);
      assert Consistent(start);
      var r := round(k, start);
      LoopStep(round, current, satisfied, analysis, tu);
      if r.RoundOk? {
        var next := analysis.(iterations := analysis.iterations + [r.iteration]);
        LoopPreservesConsistent(round, k, Satisfied(r.iteration), next, r.tu);
        assert LoopWith(round, current, satisfied, analysis, tu) == LoopWith(round, k, Satisfied(r.iteration), next, r.tu);
      } else {
        assert LoopWith(round, current, satisfied, analysis, tu).tu == r.tu;
      }
    }
  }

  /**
   * The agent calls of the rounds after round `current` that returned, in call order: all three
   * of every completed round, then those of the round that failed, if one did.
   */
  function LoopCalls(agents: Agents, current: nat, satisfied: bool): seq<Call>
    decreases MaxIterations - current
  {
    if current >= MaxIterations || satisfied then []
    else
      var k := current + 1;
      match RoundIteration(agents, k)
      case None => ReturnedCalls(agents, k)
      case Some(it) => ReturnedCalls(agents, k) + LoopCalls(agents, k, Satisfied(it))
  }

  /**
   * A round's calls replayed from the totals with the round's counter set, then the later
   * rounds' calls, are one replay of all of them, up to the counter.
   */
  lemma ReplayAcrossRounds(tu: AnalysisTokenUsage, first: seq<Call>, rest: seq<Call>, k: nat, mid: AnalysisTokenUsage, end: AnalysisTokenUsage)
    requires mid == Replay(tu.(iterations := k), first)
    requires end == Replay(mid, rest).(iterations := end.iterations)
    ensures end == Replay(tu, first + rest).(iterations := end.iterations)
  {
    ReplayIgnoresIterations(tu, first, k);
    ReplayIgnoresIterations(Replay(tu, first), rest, k);
    ReplayAppend(tu, first, rest);
  }

  /**
   * The loop's totals are exactly those of the agent calls that returned, from completed rounds
   * and from the failed round alike.
   */
  lemma {:induction false} LoopUsage(round: RoundRunner, agents: Agents, current: nat, satisfied: bool, analysis: AnalysisResult, tu: AnalysisTokenUsage)
    requires current <= MaxIterations
    requires AccountsCalls(round, agents)
    ensures var o := LoopWith(round, current, satisfied, analysis, tu);
      o.tu == Replay(tu, LoopCalls(agents, current, satisfied)).(iterations := o.tu.iterations)
    decreases MaxIterations - current
  {
    if current >= MaxIterations || satisfied {
      assert LoopWith(round, current, satisfied, analysis, tu) == LoopDone(analysis, tu);
      assert LoopCalls(agents, current, satisfied) == [];
    } else {
      var k := current + 1;
      var start := tu.(iterations := k);
      var r := round(k, start);
      var first := ReturnedCalls(agents, k);
      LoopStep(round, current, satisfied, analysis, tu);
      assert r.tu == Replay(start, first);
      if r.RoundOk? {
        var it := r.iteration;
        assert RoundIteration(agents, k) == Some(it);
        var next := analysis.(iterations := analysis.iterations + [it]);
        var rest := LoopCalls(agents, k, Satisfied(it));
        var o := LoopWith(round, k, Satisfied(it), next, r.tu);
        LoopUsage(round, agents, k, Satisfied(it), next, r.tu);
        assert LoopWith(round, current, satisfied, analysis, tu) == o;
        assert LoopCalls(agents, current, satisfied) == first + rest;
        ReplayAcrossRounds(tu, first, rest, k, r.tu, o.tu);
      } else {
        ReplayIgnoresIterations(tu, first, k);
        assert LoopWith(round, current, satisfied, analysis, tu).tu == r.tu;
        assert LoopCalls(agents, current, satisfied) == first;
      }
    }
  }

  /**
   * The loop's returned calls are three for every appended round, and fewer than three more
   * when a round failed.
   */
  lemma {:induction false} LoopCallCount(round: RoundRunner, agents: Agents, current: nat, satisfied: bool, analysis: AnalysisResult, tu: AnalysisTokenUsage)
    requires current <= MaxIterations
    requires NumbersRounds(round) && AccountsCalls(round, agents)
    ensures var o := LoopWith(round, current, satisfied, analysis, tu);
      var calls := LoopCalls(agents, current, satisfied);
      && (o.LoopDone? ==> |calls| == 3 * |Appended(analysis, o)|)
      && (o.LoopFailed? ==> 3 * |Appended(analysis, o)| <= |calls| < 3 * |Appended(analysis, o)| + 3)
    decreases MaxIterations - current
  {
    if current >= MaxIterations || satisfied {
      var o := LoopDone(analysis, tu);
      assert LoopWith(round, current, satisfied, analysis, tu) == o;
      assert LoopCalls(agents, current, satisfied) == [];
      assert Appended(analysis, o) == [];
    } else {
      var k := current + 1;
      var r := round(k, tu.(iterations := k));
      var first := ReturnedCalls(agents, k);
      LoopStep(round, current, satisfied, analysis, tu);
      assert r.RoundOk? <==> RoundIteration(agents, k).Some?;
      if r.RoundOk? {
        var it := r.iteration;
        assert RoundIteration(agents, k) == Some(it);
        assert |first| == 3;
        var next := analysis.(iterations := analysis.iterations + [it]);
        var rest := LoopCalls(agents, k, Satisfied(it));
        var o := LoopWith(round, k, Satisfied(it), next, r.tu);
        LoopCallCount(round, agents, k, Satisfied(it), next, r.tu);
        AppendedAfter(round, k, Satisfied(it), analysis, it, r.tu);
        assert LoopWith(round, current, satisfied, analysis, tu) == o;
        assert |Appended(analysis, o)| == |Appended(next, o)| + 1;
        assert LoopCalls(agents, current, satisfied) == first + rest;
      } else {
        var o := LoopFailed(analysis, r.tu, r.error);
        assert LoopWith(round, current, satisfied, analysis, tu) == o;
        assert LoopCalls(agents, current, satisfied) == first;
        assert |first| < 3;
        assert Appended(analysis, o) == [];
      }
    }
  }

  /** The final output is read off the last recruiter output; the open questions become the clarifying questions. */
  function ProjectFinal(rec: RecruiterOutput): (f: FinalOutput)
    ensures f.clarifyingQuestions == rec.openQuestions
    ensures f.candidateProfile == rec.candidateProfile && f.searchKeywords == rec.searchKeywords
    ensures f.difficultyLevel == rec.difficultyLevel && f.difficultyReasoning == rec.difficultyReasoning
  {
    FinalOutput(rec.candidateProfile, rec.searchKeywords, rec.difficultyLevel, rec.difficultyReasoning, rec.openQuestions)
  }

  /** What `analyze` leaves behind: the updated analysis record, the usage totals, and the rethrown error if any. */
  datatype Run = Run(analysis: AnalysisResult, tokenUsage: AnalysisTokenUsage, error: Option<string>)

  /** After the loop: complete the record from its last iteration, or mark it failed and rethrow. */
  function Finish(o: LoopOutcome, now: int): (r: Run)
    ensures r.tokenUsage == o.tu
    ensures r.error.Some? <==> o.LoopFailed?
  {
    match o
    case LoopFailed(a, tu, e) => Run(a.(status := Failed), tu, Some(e))
    case LoopDone(a, tu) =>
      // Never taken by a run: a finished loop has appended at least one round (`CompletedRun`),
      // and only an empty history would make the source's last-round lookup throw.
      if |a.iterations| == 0 then Run(a, tu, None)
      else
        var last := a.iterations[|a.iterations| - 1];
        Run(a.(finalOutput := ProjectFinal(last.recruiterOutput), status := Completed, completedAt := Some(now)), tu, None)
  }

  /** The loop from round 0 with the given starting totals, then the finish, for any way of playing a round. */
  function RunWith(round: RoundRunner, analysis: AnalysisResult, now: int, tu0: AnalysisTokenUsage): Run {
    Finish(LoopWith(round, 0, false, analysis, tu0), now)
  }

  /** The agents' loop from round 0 with the given starting totals, then the finish. */
  function RunFrom(agents: Agents, analysis: AnalysisResult, now: int, tu0: AnalysisTokenUsage): Run {
    RunWith(AgentRounds(agents), analysis, now, tu0)
  }

  /** `analyze` as a function: reset the totals, loop from round 0, then finish. */
  function RunAnalysis(agents: Agents, analysis: AnalysisResult, now: int): Run {
    RunFrom(agents, analysis, now, InitializeTokenUsage())
  }

  /**
   * `result` extends `analysis` by at most three iterations, numbered 1, 2, …, every one but
   * the last short of the threshold, and keeps the record's identity.
   */
  ghost predicate KeptHistory(analysis: AnalysisResult, result: AnalysisResult) {
    && |analysis.iterations| <= |result.iterations| <= |analysis.iterations| + MaxIterations
    && result.iterations[..|analysis.iterations|] == analysis.iterations
    && (forall j :: |analysis.iterations| <= j < |result.iterations| ==>
      result.iterations[j].iteration == j - |analysis.iterations| + 1)
    && (forall j :: |analysis.iterations| <= j < |result.iterations| - 1 ==> !Satisfied(result.iterations[j]))
    && result.id == analysis.id && result.requisitionId == analysis.requisitionId && result.createdAt == analysis.createdAt
  }

  /**
   * A run without error appended at least one round, ended on a satisfied one or after three,
   * is marked completed at `now` and takes its final output from the last round; its totals are
   * consistent and count exactly the appended rounds.
   */
  ghost predicate CompletedRun(analysis: AnalysisResult, now: int, run: Run) {
    var result := run.analysis;
    run.error.None? ==>
      && |result.iterations| > |analysis.iterations|
      && result.status == Completed && result.completedAt == Some(now)
      && result.finalOutput == ProjectFinal(result.iterations[|result.iterations| - 1].recruiterOutput)
      && (Satisfied(result.iterations[|result.iterations| - 1]) || |result.iterations| == |analysis.iterations| + MaxIterations)
      && run.tokenUsage.iterations == |result.iterations| - |analysis.iterations|
      && Consistent(run.tokenUsage)
  }

  /**
   * A run that failed is marked failed and otherwise keeps the record as it was, except for the
   * rounds that completed before the failure; its totals are consistent and count the failed
   * round as started.
   */
  ghost predicate FailedRun(analysis: AnalysisResult, run: Run) {
    var result := run.analysis;
    run.error.Some? ==>
      && result == analysis.(iterations := result.iterations, status := Failed)
      && |analysis.iterations| <= |result.iterations|
      && run.tokenUsage.iterations == |result.iterations| - |analysis.iterations| + 1
      && Consistent(run.tokenUsage)
  }

  /**
   * The run's totals are those of `calls` replayed onto `tu0`: three calls for each appended
   * round and, after a failure, fewer than three more.
   */
  ghost predicate CountsCalls(analysis: AnalysisResult, tu0: AnalysisTokenUsage, calls: seq<Call>, run: Run) {
    var added := |run.analysis.iterations| - |analysis.iterations|;
    && run.tokenUsage == Replay(tu0, calls).(iterations := run.tokenUsage.iterations)
    && (run.error.None? ==> |calls| == 3 * added)
    && (run.error.Some? ==> 3 * added <= |calls| < 3 * added + 3)
  }

  /** `KeptHistory` for any rounds that number their records. */
  lemma RunWithKeepsHistory(round: RoundRunner, analysis: AnalysisResult, now: int, tu0: AnalysisTokenUsage)
    requires NumbersRounds(round)
    ensures KeptHistory(analysis, RunWith(round, analysis, now, tu0).analysis)
  {
    LoopAppends(round, 0, false, analysis, tu0);
    LoopStopsAtThreshold(round, 0, false, analysis, tu0);
    var o := LoopWith(round, 0, false, analysis, tu0);
    assert o.analysis.iterations == analysis.iterations + Appended(analysis, o);
  }

  /** `CompletedRun` and `FailedRun` for any rounds that number their records and keep the totals consistent. */
  lemma RunWithEnds(round: RoundRunner, analysis: AnalysisResult, now: int, tu0: AnalysisTokenUsage)
    requires tu0.iterations == 0 && Consistent(tu0)
    requires NumbersRounds(round) && KeepsConsistent(round)
    ensures CompletedRun(analysis, now, RunWith(round, analysis, now, tu0))
    ensures FailedRun(analysis, RunWith(round, analysis, now, tu0))
  {
    LoopAppends(round, 0, false, analysis, tu0);
    LoopStopsAtThreshold(round, 0, false, analysis, tu0);
    LoopCountsRounds(round, 0, false, analysis, tu0);
    LoopPreservesConsistent(round, 0, false, analysis, tu0);
    var o := LoopWith(round, 0, false, analysis, tu0);
    assert o.analysis.iterations == analysis.iterations + Appended(analysis, o);
  }

  /** `CountsCalls` of the agents' returned calls, for any rounds that account for exactly those. */
  lemma RunWithUsage(round: RoundRunner, agents: Agents, analysis: AnalysisResult, now: int, tu0: AnalysisTokenUsage)
    requires NumbersRounds(round) && AccountsCalls(round, agents)
    ensures CountsCalls(analysis, tu0, LoopCalls(agents, 0, false), RunWith(round, analysis, now, tu0))
  {
    LoopAppends(round, 0, false, analysis, tu0);
    LoopUsage(round, agents, 0, false, analysis, tu0);
    LoopCallCount(round, agents, 0, false, analysis, tu0);
    var o := LoopWith(round, 0, false, analysis, tu0);
    assert |o.analysis.iterations| == |analysis.iterations| + |Appended(analysis, o)|;
  }

  /**
   * Started from any totals, the run appends at most three iterations to the record, numbered
   * 1, 2, …, every one but the last short of the threshold, and leaves the record's identity
   * alone.
   */
  lemma AnalysisKeepsHistory(agents: Agents, analysis: AnalysisResult, now: int, tu0: AnalysisTokenUsage)
    ensures KeptHistory(analysis, RunFrom(agents, analysis, now, tu0).analysis)
  {
    AgentRoundsBehave(agents);
    RunWithKeepsHistory(AgentRounds(agents), analysis, now, tu0);
  }

  /**
   * Started from reset totals, a run that ends without error has appended at least one round,
   * ended on a satisfied one or after three, is marked completed at `now`, and takes its final
   * output from the last round; its usage totals are consistent, count exactly the appended
   * rounds, and are those of their agent calls.
   */
  lemma AnalysisCompletes(agents: Agents, analysis: AnalysisResult, now: int, tu0: AnalysisTokenUsage)
    requires tu0.iterations == 0 && Consistent(tu0)
    ensures var run := RunFrom(agents, analysis, now, tu0);
      && CompletedRun(analysis, now, run)
      && (run.error.None? ==> CountsCalls(analysis, tu0, LoopCalls(agents, 0, false), run))
  {
    AgentRoundsBehave(agents);
    AgentRoundsAccount(agents);
    RunWithEnds(AgentRounds(agents), analysis, now, tu0);
    RunWithUsage(AgentRounds(agents), agents, analysis, now, tu0);
  }

  /**
   * Started from reset totals, a run that fails is marked failed and otherwise keeps the record
   * as it was, except for the rounds that completed before the failure; the failed round is
   * counted as started, and the totals are those of every agent call that returned, the calls
   * of the failed round before the agent that threw included.
   */
  lemma AnalysisFails(agents: Agents, analysis: AnalysisResult, now: int, tu0: AnalysisTokenUsage)
    requires tu0.iterations == 0 && Consistent(tu0)
    ensures var run := RunFrom(agents, analysis, now, tu0);
      && FailedRun(analysis, run)
      && (run.error.Some? ==> CountsCalls(analysis, tu0, LoopCalls(agents, 0, false), run))
  {
    AgentRoundsBehave(agents);
    AgentRoundsAccount(agents);
    RunWithEnds(AgentRounds(agents), analysis, now, tu0);
    RunWithUsage(AgentRounds(agents), agents, analysis, now, tu0);
  }

  /** A loop from round 0 that ends normally has appended at least one round. */
  lemma LoopDoneAppends(round: RoundRunner, analysis: AnalysisResult, tu0: AnalysisTokenUsage)
    requires NumbersRounds(round)
    ensures var o := LoopWith(round, 0, false, analysis, tu0);
      o.LoopDone? ==> |o.analysis.iterations| > |analysis.iterations|
  {
    LoopStopsAtThreshold(round, 0, false, analysis, tu0);
    LoopAppends(round, 0, false, analysis, tu0);
  }

  /** The source's `while` loop, from round 0 and the given totals, for any way of playing a round. */
  method RunRoundsWith(round: RoundRunner, analysis: AnalysisResult, tu0: AnalysisTokenUsage) returns (o: LoopOutcome)
    requires NumbersRounds(round)
    ensures o == LoopWith(round, 0, false, analysis, tu0)
    ensures o.LoopDone? ==> |o.analysis.iterations| > |analysis.iterations|
  {
    LoopDoneAppends(round, analysis, tu0);
    ghost var goal := LoopWith(round, 0, false, analysis, tu0);
    var tu := tu0;
    var current: nat := 0;
    var satisfied := false;
    var result := analysis;
    while current < MaxIterations && !satisfied
      invariant current <= MaxIterations
      invariant LoopWith(round, current, satisfied, result, tu) == goal
      decreases MaxIterations - current
    {
      LoopStep(round, current, satisfied, result, tu);
      current := current + 1;
      var r := round(current, tu.(iterations := current));
      if r.RoundFailed? {
        return LoopFailed(result, r.tu, r.error);
      }
      result := result.(iterations := result.iterations + [r.iteration]);
      tu := r.tu;
      satisfied := r.iteration.recruiterOutput.satisfactionScore >= SatisfactionThreshold;
    }
    o := LoopDone(result, tu);
  }

  /** The agents' `while` loop, from round 0 and the given totals. */
  method RunRounds(agents: Agents, analysis: AnalysisResult, tu0: AnalysisTokenUsage) returns (o: LoopOutcome)
    ensures o == Loop(agents, 0, false, analysis, tu0)
    ensures o.LoopDone? ==> |o.analysis.iterations| > |analysis.iterations|
  {
    AgentRoundsBehave(agents);
    o := RunRoundsWith(AgentRounds(agents), analysis, tu0);
  }

  /**
   * A completed record: at least one round appended to `before`, marked completed at `now`,
   * with the final output of its last round, and totals counting exactly the appended rounds.
   */
  ghost predicate CompletedRecord(before: AnalysisResult, now: int, result: AnalysisResult, tu: AnalysisTokenUsage) {
    && |result.iterations| > |before.iterations|
    && result.status == Completed && result.completedAt == Some(now)
    && result.finalOutput == ProjectFinal(result.iterations[|result.iterations| - 1].recruiterOutput)
    && tu.iterations == |result.iterations| - |before.iterations|
  }

  /**
   * A failed record: `before` marked failed, with only the rounds completed before the failure
   * appended, and totals counting the failed round as started.
   */
  ghost predicate FailedRecord(before: AnalysisResult, result: AnalysisResult, tu: AnalysisTokenUsage) {
    && |result.iterations| >= |before.iterations|
    && result == before.(iterations := result.iterations, status := Failed)
    && tu.iterations == |result.iterations| - |before.iterations| + 1
  }

  /**
   * What `analyze` promises of its outcome: at most three rounds appended to the record,
   * numbered 1, 2, …; totals that stay the merge of the per-agent breakdown; and a completed
   * or a failed record according to whether an error was rethrown.
   */
  ghost predicate AnalyzeOutcome(before: AnalysisResult, now: int, result: AnalysisResult, tu: AnalysisTokenUsage, error: Option<string>) {
    && |before.iterations| <= |result.iterations| <= |before.iterations| + MaxIterations
    && result.iterations[..|before.iterations|] == before.iterations
    && (forall j :: |before.iterations| <= j < |result.iterations| ==>
      result.iterations[j].iteration == j - |before.iterations| + 1)
    && Consistent(tu)
    && (error.None? ==> CompletedRecord(before, now, result, tu))
    && (error.Some? ==> FailedRecord(before, result, tu))
  }

  /** The run after the reset, from totals `tu0`: the rounds, then the finish. */
  method AnalyzeFrom(agents: Agents, analysis: AnalysisResult, now: int, tu0: AnalysisTokenUsage) returns (result: AnalysisResult, tu: AnalysisTokenUsage, error: Option<string>)
    requires tu0.iterations == 0 && Consistent(tu0)
    ensures Run(result, tu, error) == RunFrom(agents, analysis, now, tu0)
    ensures AnalyzeOutcome(analysis, now, result, tu, error)
  {
    AnalysisKeepsHistory(agents, analysis, now, tu0);
    AnalysisCompletes(agents, analysis, now, tu0);
    AnalysisFails(agents, analysis, now, tu0);
    var o := RunRounds(agents, analysis, tu0);
    match o
    case LoopFailed(a, t, e) =>
      result, tu, error := a.(status := Failed), t, Some(e);
    case LoopDone(a, t) =>
      var last := a.iterations[|a.iterations| - 1];
      result := a.(finalOutput := ProjectFinal(last.recruiterOutput), status := Completed, completedAt := Some(now));
      tu, error := t, None;
  }

  /**
   * `analyze`: reset the totals, run the rounds, then complete the record from the last round or
   * mark it failed and rethrow; `now` is the clock reading taken on completion.
   */
  method Analyze(agents: Agents, analysis: AnalysisResult, now: int) returns (result: AnalysisResult, tu: AnalysisTokenUsage, error: Option<string>)
    ensures Run(result, tu, error) == RunAnalysis(agents, analysis, now)
    ensures AnalyzeOutcome(analysis, now, result, tu, error)
  {
    InitialIsConsistent();
    result, tu, error := AnalyzeFrom(agents, analysis, now, InitializeTokenUsage());
  }
}

=== FILE: requisitions.dfy ===
/**
 * The requisition routes of the delivery server: creating a requisition
 * with its analysis record, looking one up, and merging a client's answers
 * into the analysis's clarifying questions. Both stores are in memory: the
 * requisitions a map by id, the analyses kept in insertion order because a
 * lookup scans them in that order and takes the first match.
 */
module Requisitions {
  import opened Wrappers
  import opened Types
  import opened JsString
  import Orchestrator
  import Usage

  /** The two in-memory stores. `analyses` stands for a map by id, listed in insertion order. */
  datatype Server = Server(requisitions: map<string, Requisition>, analyses: seq<AnalysisResult>)

  /** The body of a create request; a field the client left out is `None`. */
  datatype CreateBody = CreateBody(
    basicInfo: Option<BasicInfo>,
    responsibilities: Option<string>,
    qualifications: Option<string>,
    additionalContext: Option<AdditionalContext>)

  /** One answer of a clarify request. */
  datatype Answer = Answer(questionId: string, answer: string)

  /** What a route sends back, by status: 201, 400, 404 and the two 200 replies. */
  datatype Response =
    | Created(requisitionId: string, analysisId: string)
    | BadRequest(error: string, message: string)
    | NotFound(error: string)
    | Found(requisition: Requisition, analysis: Option<AnalysisResult>)
    | Saved(message: string, updated: AnalysisResult)

  const MissingFieldsError: string := "缺少必填字段"
  const MissingFieldsMessage: string := "请填写基本信息、岗位职责和任职资格"
  const NoRequisitionError: string := "未找到该职位需求"
  const NoAnalysisError: string := "未找到分析结果"
  const AnswersSavedMessage: string := "答案已保存"

  /** The context stored when the client sent none: only the urgency, set to normal. */
  const DefaultContext: AdditionalContext := AdditionalContext(None, None, "normal", None)

  /** The placeholder output a new analysis starts with. */
  const EmptyFinalOutput: FinalOutput :=
    FinalOutput(CandidateProfile("", "", [], [], "", "", []), [], "moderate", "", [])

  /** JavaScript truthiness of an optional string: present and non-empty. */
  predicate Truthy(s: Option<string>) {
    s.Some? && s.value != ""
  }

  /** The first listed analysis with the given id. */
  function IndexOfId(analyses: seq<AnalysisResult>, id: string): (r: Option<nat>)
    ensures r.Some? ==> r.value < |analyses| && analyses[r.value].id == id
    ensures r.None? <==> forall k :: 0 <= k < |analyses| ==> analyses[k].id != id
  {
    FindIndex(analyses, (a: AnalysisResult) => a.id == id)
  }

  /** The first listed analysis of the given requisition. */
  function IndexOfRequisition(analyses: seq<AnalysisResult>, requisitionId: string): (r: Option<nat>)
    ensures r.Some? ==> r.value < |analyses| && analyses[r.value].requisitionId == requisitionId
    ensures r.Some? ==> forall k :: 0 <= k < r.value ==> analyses[k].requisitionId != requisitionId
    ensures r.None? <==> forall k :: 0 <= k < |analyses| ==> analyses[k].requisitionId != requisitionId
  {
    FindIndex(analyses, (a: AnalysisResult) => a.requisitionId == requisitionId)
  }

  /** `Map.set` on the analysis store: an existing id keeps its place, a new one goes last. */
  function SetAnalysis(analyses: seq<AnalysisResult>, a: AnalysisResult): (r: seq<AnalysisResult>)
  {
    match IndexOfId(analyses, a.id)
    case Some(i) => analyses[i := a]
    case None => analyses + [a]
  }

  /** The store is a map: no two listed analyses share an id. */
  predicate KeysDistinct(analyses: seq<AnalysisResult>) {
    forall j, k :: 0 <= j < k < |analyses| ==> analyses[j].id != analyses[k].id
  }

  /**
   * Setting an analysis makes it the one stored under its id, keeps every other id's entry where
   * it was, adds an entry only for a new id, and keeps the ids distinct.
   */
  lemma SetAnalysisIsMapSet(analyses: seq<AnalysisResult>, a: AnalysisResult)
    requires KeysDistinct(analyses)
    ensures var r := SetAnalysis(analyses, a);
      && KeysDistinct(r)
      && IndexOfId(r, a.id).Some? && r[IndexOfId(r, a.id).value] == a
      && (IndexOfId(analyses, a.id).None? ==> r == analyses + [a])
      && (IndexOfId(analyses, a.id).Some? ==> |r| == |analyses|)
      && (forall k :: 0 <= k < |analyses| && analyses[k].id != a.id ==> r[k] == analyses[k])
  {
    var r := SetAnalysis(analyses, a);
    match IndexOfId(analyses, a.id)
    case Some(i) =>
      assert r == analyses[i := a];
      assert r[i] == a;
    case None =>
      assert r == analyses + [a];
      assert r[|analyses|] == a;
      assert IndexOfId(r, a.id).value == |analyses|;
  }

  /**
   * `POST /`: a request missing the basic information, or with missing or empty
   * responsibilities or qualifications, is refused and nothing is stored. Otherwise the
   * requisition is stored under `requisitionId` in the processing status with the context
   * defaulted, and a fresh analysis record, processing, with no iterations and the placeholder
   * output, is stored under `analysisId`. The ids and the clock are the caller's.
   */
  function Create(server: Server, body: CreateBody, requisitionId: string, analysisId: string, now: int): (r: (Response, Server))
  {
    if body.basicInfo.None? || !Truthy(body.responsibilities) || !Truthy(body.qualifications) then
      (BadRequest(MissingFieldsError, MissingFieldsMessage), server)
    else
      var context := if body.additionalContext.Some? then body.additionalContext.value else DefaultContext;
      var form := FormData(body.basicInfo.value, body.responsibilities.value, body.qualifications.value, context);
      var requisition := Requisition(requisitionId, form, RequisitionProcessing, now, now);
      var analysis := AnalysisResult(analysisId, requisitionId, [], EmptyFinalOutput, Processing, now, None);
      (Created(requisitionId, analysisId),
       Server(server.requisitions[requisitionId := requisition], SetAnalysis(server.analyses, analysis)))
  }

  /** The requisition a valid body creates. */
  function NewRequisition(body: CreateBody, requisitionId: string, now: int): Requisition
    requires body.basicInfo.Some? && body.responsibilities.Some? && body.qualifications.Some?
  {
    var context := if body.additionalContext.Some? then body.additionalContext.value else DefaultContext;
    Requisition(requisitionId, FormData(body.basicInfo.value, body.responsibilities.value, body.qualifications.value, context),
      RequisitionProcessing, now, now)
  }

  /** The analysis record a valid body creates. */
  function NewAnalysis(requisitionId: string, analysisId: string, now: int): AnalysisResult {
    AnalysisResult(analysisId, requisitionId, [], EmptyFinalOutput, Processing, now, None)
  }

  /**
   * A create is refused exactly when a required field is missing or empty, and then the server
   * is untouched; otherwise it answers with both ids and stores the requisition as sent, with
   * the normal-urgency context when none was sent, and the new processing analysis record.
   */
  lemma CreateValidates(server: Server, body: CreateBody, requisitionId: string, analysisId: string, now: int)
    requires KeysDistinct(server.analyses)
    ensures var (resp, after) := Create(server, body, requisitionId, analysisId, now);
      && (resp.BadRequest? <==>
            body.basicInfo.None? || body.responsibilities in {None, Some("")} || body.qualifications in {None, Some("")})
      && (resp.BadRequest? ==> after == server)
      && (!resp.BadRequest? ==>
            && resp == Created(requisitionId, analysisId)
            && after.requisitions == server.requisitions[requisitionId := NewRequisition(body, requisitionId, now)]
            && after.requisitions[requisitionId].form.responsibilities == body.responsibilities.value
            && after.requisitions[requisitionId].form.qualifications == body.qualifications.value
            && after.requisitions[requisitionId].form.additionalContext ==
                 (if body.additionalContext.None? then DefaultContext else body.additionalContext.value)
            && after.requisitions[requisitionId].status == RequisitionProcessing
            && KeysDistinct(after.analyses)
            && IndexOfId(after.analyses, analysisId).Some?
            && after.analyses[IndexOfId(after.analyses, analysisId).value] == NewAnalysis(requisitionId, analysisId, now))
  {
    if !(body.basicInfo.None? || !Truthy(body.responsibilities) || !Truthy(body.qualifications)) {
      SetAnalysisIsMapSet(server.analyses, NewAnalysis(requisitionId, analysisId, now));
    }
  }

  /**
   * `GET /:id`: not found for an unknown requisition; otherwise the requisition with the first
   * listed analysis made for it, or none.
   */
  function Get(server: Server, id: string): (r: Response)
    ensures r.NotFound? <==> id !in server.requisitions
    ensures r.NotFound? ==> r.error == NoRequisitionError
    ensures r.Found? ==> r.requisition == server.requisitions[id]
    ensures r.NotFound? || r.Found?
  {
    if id !in server.requisitions then NotFound(NoRequisitionError)
    else
      match IndexOfRequisition(server.analyses, id)
      case Some(i) => Found(server.requisitions[id], Some(server.analyses[i]))
      case None => Found(server.requisitions[id], None)
  }

  /**
   * A lookup answers with an analysis exactly when one was made for the requisition, and then
   * with the earliest listed one.
   */
  lemma GetFindsEarliestAnalysis(server: Server, id: string)
    requires id in server.requisitions
    ensures var r := Get(server, id);
      && (r.analysis.None? <==> forall k :: 0 <= k < |server.analyses| ==> server.analyses[k].requisitionId != id)
      && (r.analysis.Some? ==>
            exists i :: 0 <= i < |server.analyses| && server.analyses[i] == r.analysis.value
              && server.analyses[i].requisitionId == id
              && forall k :: 0 <= k < i ==> server.analyses[k].requisitionId != id)
  {
    var r := Get(server, id);
    if r.analysis.Some? {
      var i := IndexOfRequisition(server.analyses, id).value;
      assert server.analyses[i] == r.analysis.value;
    }
  }

  /** The first listed analysis of a requisition is found again after a new one is added last. */
  lemma IndexOfRequisitionAppend(analyses: seq<AnalysisResult>, a: AnalysisResult, id: string)
    requires a.requisitionId != id
    ensures IndexOfRequisition(analyses + [a], id) == IndexOfRequisition(analyses, id)
  {
    var xs := analyses + [a];
    match IndexOfRequisition(analyses, id)
    case Some(i) =>
      assert xs[i] == analyses[i];
      var j := IndexOfRequisition(xs, id);
      assert j.Some?;
    case None =>
      forall k | 0 <= k < |xs| ensures xs[k].requisitionId != id {
        if k < |analyses| {
          assert xs[k] == analyses[k];
        }
      }
  }

  /**
   * With fresh ids, a create followed by a lookup of the new requisition answers with it and its
   * new analysis, and every requisition stored before is looked up exactly as before.
   */
  lemma CreateThenGet(server: Server, body: CreateBody, requisitionId: string, analysisId: string, now: int)
    requires KeysDistinct(server.analyses)
    requires requisitionId !in server.requisitions
    requires forall k :: 0 <= k < |server.analyses| ==>
      server.analyses[k].id != analysisId && server.analyses[k].requisitionId != requisitionId
    requires body.basicInfo.Some? && Truthy(body.responsibilities) && Truthy(body.qualifications)
    ensures var after := Create(server, body, requisitionId, analysisId, now).1;
      && Get(after, requisitionId) ==
           Found(NewRequisition(body, requisitionId, now), Some(NewAnalysis(requisitionId, analysisId, now)))
      && forall id :: id in server.requisitions ==> Get(after, id) == Get(server, id)
  {
    var a := NewAnalysis(requisitionId, analysisId, now);
    var after := Create(server, body, requisitionId, analysisId, now).1;
    assert IndexOfId(server.analyses, analysisId).None?;
    assert after.analyses == server.analyses + [a];
    var xs := after.analyses;
    assert xs[|server.analyses|] == a;
    var j := IndexOfRequisition(xs, requisitionId);
    assert j.Some?;
    forall id | id in server.requisitions
      ensures Get(after, id) == Get(server, id)
    {
      IndexOfRequisitionAppend(server.analyses, a, id);
    }
  }

  /** A question after it has been answered. */
  function Answered(q: ClarifyingQuestion, answer: string): ClarifyingQuestion {
    q.(answer := Some(answer), isAnswered := true)
  }

  /** One answer: the first question with its id records it; without such a question nothing happens. */
  function ApplyAnswer(questions: seq<ClarifyingQuestion>, a: Answer): (r: seq<ClarifyingQuestion>)
    ensures |r| == |questions|
  {
    match FindIndex(questions, (q: ClarifyingQuestion) => q.id == a.questionId)
    case Some(k) => questions[k := Answered(questions[k], a.answer)]
    case None => questions
  }

  /** The answers in the order sent, each applied to the questions the earlier ones left. */
  function ApplyAnswers(questions: seq<ClarifyingQuestion>, answers: seq<Answer>): (r: seq<ClarifyingQuestion>)
    ensures |r| == |questions|
    decreases |answers|
  {
    if |answers| == 0 then questions
    else ApplyAnswer(ApplyAnswers(questions, answers[..|answers| - 1]), answers[|answers| - 1])
  }

  /** No earlier question has the same id: the one `find` reaches. */
  predicate FirstWithItsId(questions: seq<ClarifyingQuestion>, k: int)
    requires 0 <= k < |questions|
  {
    forall j :: 0 <= j < k ==> questions[j].id != questions[k].id
  }

  /** The last answer sent for a question id, if any. */
  function LastAnswerFor(answers: seq<Answer>, id: string): (r: Option<string>)
    ensures r.None? <==> forall k :: 0 <= k < |answers| ==> answers[k].questionId != id
    decreases |answers|
  {
    if |answers| == 0 then None
    else if answers[|answers| - 1].questionId == id then Some(answers[|answers| - 1].answer)
    else LastAnswerFor(answers[..|answers| - 1], id)
  }

  /** The last answer for an id is the one sent at the last position naming that id. */
  lemma {:induction false} LastAnswerIsLast(answers: seq<Answer>, id: string, m: nat)
    requires m < |answers| && answers[m].questionId == id
    requires forall j :: m < j < |answers| ==> answers[j].questionId != id
    ensures LastAnswerFor(answers, id) == Some(answers[m].answer)
    decreases |answers|
  {
    if m < |answers| - 1 {
      LastAnswerIsLast(answers[..|answers| - 1], id, m);
    }
  }

  /** One answer touches only the first question with its id, and keeps every id. */
  lemma ApplyAnswerEffect(questions: seq<ClarifyingQuestion>, a: Answer)
    ensures var r := ApplyAnswer(questions, a);
      forall k :: 0 <= k < |questions| ==>
        && r[k].id == questions[k].id
        && r[k] == (if questions[k].id == a.questionId && FirstWithItsId(questions, k)
                    then Answered(questions[k], a.answer) else questions[k])
  {
    var r := ApplyAnswer(questions, a);
    match FindIndex(questions, (q: ClarifyingQuestion) => q.id == a.questionId)
    case Some(i) =>
      forall k | 0 <= k < |questions|
        ensures r[k] == (if questions[k].id == a.questionId && FirstWithItsId(questions, k)
                         then Answered(questions[k], a.answer) else questions[k])
      {
        if k == i {
          assert FirstWithItsId(questions, k);
        } else if questions[k].id == a.questionId && k > i {
          assert questions[i].id == questions[k].id;
          assert !FirstWithItsId(questions, k);
        }
      }
    case None =>
  }

  /**
   * Merging the answers keeps the questions, their ids and their order. A question records the
   * last answer sent for its id and is marked answered when it is the first question with that
   * id and some answer names it; every other question is left exactly as it was.
   */
  lemma {:induction false} ApplyAnswersEffect(questions: seq<ClarifyingQuestion>, answers: seq<Answer>)
    ensures var r := ApplyAnswers(questions, answers);
      forall k :: 0 <= k < |questions| ==>
        && r[k].id == questions[k].id
        && r[k] == (if FirstWithItsId(questions, k) && LastAnswerFor(answers, questions[k].id).Some?
                    then Answered(questions[k], LastAnswerFor(answers, questions[k].id).value) else questions[k])
    decreases |answers|
  {
    if |answers| > 0 {
      var init := answers[..|answers| - 1];
      var last := answers[|answers| - 1];
      var r0 := ApplyAnswers(questions, init);
      var r := ApplyAnswers(questions, answers);
      assert r == ApplyAnswer(r0, last);
      ApplyAnswersEffect(questions, init);
      ApplyAnswerEffect(r0, last);
      forall k | 0 <= k < |questions|
        ensures r[k].id == questions[k].id
        ensures r[k] == (if FirstWithItsId(questions, k) && LastAnswerFor(answers, questions[k].id).Some?
                         then Answered(questions[k], LastAnswerFor(answers, questions[k].id).value) else questions[k])
      {
        assert FirstWithItsId(r0, k) == FirstWithItsId(questions, k) by {
          forall j | 0 <= j < k ensures r0[j].id == questions[j].id {}
        }
        if questions[k].id != last.questionId {
          assert LastAnswerFor(answers, questions[k].id) == LastAnswerFor(init, questions[k].id);
        }
      }
    }
  }

  /** An answer is given at most once per question id. */
  predicate OneAnswerPerQuestion(answers: seq<Answer>) {
    forall j, k :: 0 <= j < k < |answers| ==> answers[j].questionId != answers[k].questionId
  }

  /**
   * With distinct question ids and one answer per question, every answered question holds the
   * answer sent for it and no question without an answer changes.
   */
  lemma ApplyDistinctAnswers(questions: seq<ClarifyingQuestion>, answers: seq<Answer>)
    requires forall j, k :: 0 <= j < k < |questions| ==> questions[j].id != questions[k].id
    requires OneAnswerPerQuestion(answers)
    ensures var r := ApplyAnswers(questions, answers);
      && (forall k, m :: 0 <= k < |questions| && 0 <= m < |answers| && answers[m].questionId == questions[k].id ==>
            r[k] == Answered(questions[k], answers[m].answer))
      && (forall k :: 0 <= k < |questions| && (forall m :: 0 <= m < |answers| ==> answers[m].questionId != questions[k].id) ==>
            r[k] == questions[k])
  {
    ApplyAnswersEffect(questions, answers);
    var r := ApplyAnswers(questions, answers);
    forall k, m | 0 <= k < |questions| && 0 <= m < |answers| && answers[m].questionId == questions[k].id
      ensures r[k] == Answered(questions[k], answers[m].answer)
    {
      assert FirstWithItsId(questions, k);
      LastAnswerIsLast(answers, questions[k].id, m);
    }
  }

  /**
   * A completed run sets the final output's clarifying questions to the very list its last
   * round's recruiter left open, so the two are one shared list from then on.
   */
  predicate SharesLastRound(a: AnalysisResult) {
    a.status == Completed && |a.iterations| > 0
  }

  /** The invariant the sharing keeps: both views of the shared list agree. */
  predicate QuestionsShared(a: AnalysisResult) {
    SharesLastRound(a) ==>
      a.finalOutput.clarifyingQuestions == a.iterations[|a.iterations| - 1].recruiterOutput.openQuestions
  }

  /**
   * The answers merged into an analysis's clarifying questions, seen through the sharing: when
   * the list is shared with the last round, that round's open questions are answered as well.
   */
  function AnswerAnalysis(a: AnalysisResult, answers: seq<Answer>): (r: AnalysisResult)
    ensures r.finalOutput == a.finalOutput.(clarifyingQuestions := ApplyAnswers(a.finalOutput.clarifyingQuestions, answers))
    ensures r == a.(finalOutput := r.finalOutput, iterations := r.iterations)
    ensures |r.iterations| == |a.iterations|
    ensures !SharesLastRound(a) ==> r.iterations == a.iterations
    ensures SharesLastRound(a) ==>
      var n := |a.iterations| - 1;
      && (forall k :: 0 <= k < n ==> r.iterations[k] == a.iterations[k])
      && r.iterations[n] == a.iterations[n].(recruiterOutput :=
           a.iterations[n].recruiterOutput.(openQuestions := r.finalOutput.clarifyingQuestions))
  {
    var merged := ApplyAnswers(a.finalOutput.clarifyingQuestions, answers);
    var r := a.(finalOutput := a.finalOutput.(clarifyingQuestions := merged));
    if SharesLastRound(a) then
      var n := |a.iterations| - 1;
      var last := a.iterations[n];
      r.(iterations := a.iterations[n := last.(recruiterOutput := last.recruiterOutput.(openQuestions := merged))])
    else r
  }

  /**
   * Answering keeps the two views of a shared list together: afterwards the last round's open
   * questions are its old open questions with the answers merged in, the same list the final
   * output shows.
   */
  lemma AnswerKeepsShared(a: AnalysisResult, answers: seq<Answer>)
    requires QuestionsShared(a)
    ensures var r := AnswerAnalysis(a, answers);
      && QuestionsShared(r)
      && SharesLastRound(r) == SharesLastRound(a)
      && (SharesLastRound(a) ==>
            r.iterations[|r.iterations| - 1].recruiterOutput.openQuestions
              == ApplyAnswers(a.iterations[|a.iterations| - 1].recruiterOutput.openQuestions, answers))
  {
  }

  /**
   * `POST /:id/clarify`: not found for an unknown requisition or one without an analysis;
   * otherwise the earliest analysis of the requisition has the answers merged into its
   * clarifying questions, is stored back in its place, and is sent back.
   */
  function Clarify(server: Server, id: string, answers: seq<Answer>): (r: (Response, Server))
    ensures r.0.NotFound? ==> r.1 == server
  {
    if id !in server.requisitions then (NotFound(NoRequisitionError), server)
    else
      match IndexOfRequisition(server.analyses, id)
      case None => (NotFound(NoAnalysisError), server)
      case Some(i) =>
        var merged := AnswerAnalysis(server.analyses[i], answers);
        (Saved(AnswersSavedMessage, merged), server.(analyses := server.analyses[i := merged]))
  }

  /**
   * A clarify fails exactly when the requisition or its analysis is missing. When it succeeds,
   * only the requisition's earliest analysis changes: its clarifying questions become the merge
   * of the answers, and so do its last round's open questions when a completed run shares that
   * list; the requisitions, the other analyses and the ids stay as they were, and a lookup
   * afterwards shows the merged analysis.
   */
  lemma ClarifyEffect(server: Server, id: string, answers: seq<Answer>)
    ensures var (resp, after) := Clarify(server, id, answers);
      && (resp.NotFound? <==> id !in server.requisitions || Get(server, id).analysis.None?)
      && (id !in server.requisitions ==> resp.error == NoRequisitionError)
      && (id in server.requisitions && Get(server, id).analysis.None? ==> resp.error == NoAnalysisError)
      && (resp.Saved? ==>
            var before := Get(server, id).analysis.value;
            && resp.updated == AnswerAnalysis(before, answers)
            && resp.updated.finalOutput.clarifyingQuestions == ApplyAnswers(before.finalOutput.clarifyingQuestions, answers)
            && after.requisitions == server.requisitions
            && |after.analyses| == |server.analyses|
            && (forall k :: 0 <= k < |server.analyses| ==> after.analyses[k].id == server.analyses[k].id)
            && (forall k :: 0 <= k < |server.analyses| && server.analyses[k].requisitionId != id ==>
                  after.analyses[k] == server.analyses[k])
            && Get(after, id) == Found(server.requisitions[id], Some(resp.updated)))
  {
    var (resp, after) := Clarify(server, id, answers);
    if resp.Saved? {
      var i := IndexOfRequisition(server.analyses, id).value;
      assert after.analyses == server.analyses[i := resp.updated];
      assert after.analyses[i] == resp.updated;
      var j := IndexOfRequisition(after.analyses, id);
      assert j.Some?;
    }
  }

  /** Every stored analysis keeps its shared list's two views together. */
  predicate AllShared(analyses: seq<AnalysisResult>) {
    forall k :: 0 <= k < |analyses| ==> QuestionsShared(analyses[k])
  }

  /** A clarify keeps every stored analysis's shared list together. */
  lemma ClarifyKeepsShared(server: Server, id: string, answers: seq<Answer>)
    requires AllShared(server.analyses)
    ensures AllShared(Clarify(server, id, answers).1.analyses)
  {
    var after := Clarify(server, id, answers).1;
    if after != server {
      var i := IndexOfRequisition(server.analyses, id).value;
      AnswerKeepsShared(server.analyses[i], answers);
      assert after.analyses == server.analyses[i := AnswerAnalysis(server.analyses[i], answers)];
    }
  }

  /** A clarify keeps the analysis store a map. */
  lemma ClarifyKeepsKeysDistinct(server: Server, id: string, answers: seq<Answer>)
    requires KeysDistinct(server.analyses)
    ensures KeysDistinct(Clarify(server, id, answers).1.analyses)
  {
    var after := Clarify(server, id, answers).1;
    if after != server {
      var i := IndexOfRequisition(server.analyses, id).value;
      assert forall k :: 0 <= k < |server.analyses| ==> after.analyses[k].id == server.analyses[k].id;
    }
  }

  /** The record a run leaves behind, marked failed when the run was rejected. */
  function SettledRecord(run: Orchestrator.Run): AnalysisResult {
    if run.error.Some? then run.analysis.(status := Failed) else run.analysis
  }

  /**
   * The end of the background analysis a create starts: the record stored under the analysis's
   * id becomes the orchestrator's result, marked failed when the run was rejected.
   */
  function Settle(server: Server, analysisId: string, run: Orchestrator.Run): (r: Server)
    ensures r.requisitions == server.requisitions
  {
    match IndexOfId(server.analyses, analysisId)
    case Some(i) => server.(analyses := server.analyses[i := SettledRecord(run)])
    case None => server
  }

  /**
   * Settling a run of the record at position `i`: that record becomes the run's result, failed
   * when the run was rejected, and nothing else changes.
   */
  lemma SettleReplacesRecord(server: Server, i: nat, run: Orchestrator.Run)
    requires KeysDistinct(server.analyses) && i < |server.analyses|
    requires run.analysis.id == server.analyses[i].id
    ensures var after := Settle(server, server.analyses[i].id, run);
      && |after.analyses| == |server.analyses|
      && after.analyses[i] == (if run.error.Some? then run.analysis.(status := Failed) else run.analysis)
      && KeysDistinct(after.analyses)
      && forall k :: 0 <= k < |server.analyses| && k != i ==> after.analyses[k] == server.analyses[k]
  {
    assert IndexOfId(server.analyses, server.analyses[i].id) == Some(i);
  }

  /**
   * Settling the run the create started: the stored record keeps its id and requisition, ends
   * failed exactly when the run was rejected and completed otherwise, and no other record changes.
   */
  lemma SettleRecordsOutcome(server: Server, i: nat, agents: Orchestrator.Agents, now: int)
    requires KeysDistinct(server.analyses) && i < |server.analyses|
    ensures var a := server.analyses[i];
      var run := Orchestrator.RunAnalysis(agents, a, now);
      var after := Settle(server, a.id, run);
      && |after.analyses| == |server.analyses|
      && after.analyses[i].id == a.id && after.analyses[i].requisitionId == a.requisitionId
      && (after.analyses[i].status == Failed <==> run.error.Some?)
      && (run.error.None? ==> after.analyses[i].status == Completed)
      && KeysDistinct(after.analyses)
      && forall k :: 0 <= k < |server.analyses| && k != i ==> after.analyses[k] == server.analyses[k]
  {
    var a := server.analyses[i];
    var run := Orchestrator.RunAnalysis(agents, a, now);
    RunKeepsIdentity(agents, a, now);
    RunCompletes(agents, a, now);
    SettleReplacesRecord(server, i, run);
  }

  /** A create adds a processing record, which shares nothing yet. */
  lemma CreateKeepsShared(server: Server, body: CreateBody, requisitionId: string, analysisId: string, now: int)
    requires AllShared(server.analyses)
    ensures AllShared(Create(server, body, requisitionId, analysisId, now).1.analyses)
  {
    var after := Create(server, body, requisitionId, analysisId, now).1;
    if after != server {
      var a := NewAnalysis(requisitionId, analysisId, now);
      assert after.analyses == SetAnalysis(server.analyses, a);
      assert !SharesLastRound(a);
    }
  }

  /**
   * Settling the run of a stored record keeps every record's shared list together: a completed
   * run takes its clarifying questions from its last round's open questions, and a rejected one
   * is marked failed and so shares nothing.
   */
  lemma SettleKeepsShared(server: Server, i: nat, agents: Orchestrator.Agents, now: int)
    requires KeysDistinct(server.analyses) && i < |server.analyses|
    requires AllShared(server.analyses)
    ensures var a := server.analyses[i];
      AllShared(Settle(server, a.id, Orchestrator.RunAnalysis(agents, a, now)).analyses)
  {
    var a := server.analyses[i];
    var run := Orchestrator.RunAnalysis(agents, a, now);
    RunLeavesShared(agents, a, now);
    SettleReplacesRecord(server, i, run);
  }

  /** The record a run settles into keeps its shared list together. */
  lemma RunLeavesShared(agents: Orchestrator.Agents, a: AnalysisResult, now: int)
    ensures var run := Orchestrator.RunAnalysis(agents, a, now);
      QuestionsShared(SettledRecord(run))
  {
    var run := Orchestrator.RunAnalysis(agents, a, now);
    Usage.InitialIsConsistent();
    Orchestrator.AgentRoundsBehave(agents);
    Orchestrator.RunWithEnds(Orchestrator.AgentRounds(agents), a, now, Usage.InitializeTokenUsage());
    SettledRunShares(a, now, run);
  }

  /**
   * A completed run's final output takes its questions from the last round, and a rejected
   * run is settled as failed, so either way the settled record keeps its shared list together.
   */
  lemma SettledRunShares(a: AnalysisResult, now: int, run: Orchestrator.Run)
    requires Orchestrator.CompletedRun(a, now, run)
    ensures QuestionsShared(SettledRecord(run))
  {
    if run.error.None? {
      var r := run.analysis;
      assert r.finalOutput == Orchestrator.ProjectFinal(r.iterations[|r.iterations| - 1].recruiterOutput);
    }
  }

  /** The orchestrator's run keeps the record's identity. */
  lemma RunKeepsIdentity(agents: Orchestrator.Agents, a: AnalysisResult, now: int)
    ensures var run := Orchestrator.RunAnalysis(agents, a, now);
      run.analysis.id == a.id && run.analysis.requisitionId == a.requisitionId
  {
    Orchestrator.AnalysisKeepsHistory(agents, a, now, Usage.InitializeTokenUsage());
  }

  /** The orchestrator's run completes the record unless it was rejected. */
  lemma RunCompletes(agents: Orchestrator.Agents, a: AnalysisResult, now: int)
    ensures var run := Orchestrator.RunAnalysis(agents, a, now);
      run.error.None? ==> run.analysis.status == Completed
  {
    Usage.InitialIsConsistent();
    Orchestrator.AnalysisCompletes(agents, a, now, Usage.InitializeTokenUsage());
  }
}

=== FILE: stable_sort.dfy ===
/**
 * `Array.prototype.sort` with a comparator that orders by a key, largest
 * first. The comparators in the history store return `b - a` on a key and
 * 0 on ties, and the sort is stable, so an insertion sort that puts each
 * element before the first one it is at least as large as computes the
 * same order.
 */
module StableSort {
  import opened JsString

  /** A sort key compared lexicographically: `primary` first, then `secondary`. */
  datatype Key = Key(primary: int, secondary: int)

  /** `a` sorts no later than `b` in a descending order. */
  predicate AtLeast(a: Key, b: Key) {
    a.primary > b.primary || (a.primary == b.primary && a.secondary >= b.secondary)
  }

  ghost predicate Descending<T>(s: seq<T>, key: T -> Key) {
    forall i, j :: 0 <= i < j < |s| ==> AtLeast(key(s[i]), key(s[j]))
  }

  /** Inserts `x` before the first element it is at least as large as. */
  function Insert<T>(x: T, s: seq<T>, key: T -> Key): (r: seq<T>)
    ensures multiset(r) == multiset(s) + multiset{x}
    ensures |r| == |s| + 1
  {
    if |s| == 0 then [x]
    else if AtLeast(key(x), key(s[0])) then [x] + s
    else
      assert s == [s[0]] + s[1..];
      [s[0]] + Insert(x, s[1..], key)
  }

  lemma {:induction false} InsertDescending<T>(x: T, s: seq<T>, key: T -> Key)
    requires Descending(s, key)
    ensures Descending(Insert(x, s, key), key)
  {
    if |s| > 0 && !AtLeast(key(x), key(s[0])) {
      InsertDescending(x, s[1..], key);
      var r := Insert(x, s, key);
      var t := Insert(x, s[1..], key);
      assert r == [s[0]] + t;
      forall k | 0 <= k < |t|
        ensures AtLeast(key(s[0]), key(t[k]))
      {
        assert t[k] in multiset(t);
        assert t[k] == x || t[k] in multiset(s[1..]);
        if t[k] != x {
          assert t[k] in s[1..];
        }
      }
    }
  }

  /** The sorted copy. */
  function Sort<T>(s: seq<T>, key: T -> Key): (r: seq<T>)
    ensures multiset(r) == multiset(s)
    ensures |r| == |s|
  {
    if |s| == 0 then []
    else
      assert s == [s[0]] + s[1..];
      Insert(s[0], Sort(s[1..], key), key)
  }

  /** The result is in descending key order. */
  lemma {:induction false} SortDescending<T>(s: seq<T>, key: T -> Key)
    ensures Descending(Sort(s, key), key)
  {
    if |s| > 0 {
      SortDescending(s[1..], key);
      InsertDescending(s[0], Sort(s[1..], key), key);
    }
  }

  /** Selects the elements whose key is exactly `k`. */
  function WithKey<T>(key: T -> Key, k: Key): T -> bool {
    x => key(x) == k
  }

  /** Inserting `x` keeps the relative order of every group of equal keys, with `x` first in its group. */
  lemma {:induction false} InsertStable<T>(x: T, s: seq<T>, key: T -> Key, k: Key)
    ensures Filter(Insert(x, s, key), WithKey(key, k)) ==
      if key(x) == k then [x] + Filter(s, WithKey(key, k)) else Filter(s, WithKey(key, k))
  {
    var p := WithKey(key, k);
    if |s| == 0 {
    } else if AtLeast(key(x), key(s[0])) {
      assert Insert(x, s, key) == [x] + s;
      FilterAppend([x], s, p);
    } else {
      var t := Insert(x, s[1..], key);
      InsertStable(x, s[1..], key, k);
      FilterAppend([s[0]], t, p);
      assert s == [s[0]] + s[1..];
      FilterAppend([s[0]], s[1..], p);
      if key(x) == k {
        assert key(s[0]) != k;
      }
    }
  }

  /** Stability: the elements with any one key come out in the order they went in. */
  lemma {:induction false} SortStable<T>(s: seq<T>, key: T -> Key, k: Key)
    ensures Filter(Sort(s, key), WithKey(key, k)) == Filter(s, WithKey(key, k))
  {
    if |s| > 0 {
      SortStable(s[1..], key, k);
      InsertStable(s[0], Sort(s[1..], key), key, k);
      assert s == [s[0]] + s[1..];
      FilterAppend([s[0]], s[1..], WithKey(key, k));
    }
  }

  /** A list already in order is returned as it is. */
  lemma {:induction false} SortOfDescending<T>(s: seq<T>, key: T -> Key)
    requires Descending(s, key)
    ensures Sort(s, key) == s
  {
    if |s| > 0 {
      SortOfDescending(s[1..], key);
      assert Sort(s[1..], key) == s[1..];
      if |s| > 1 {
        assert AtLeast(key(s[0]), key(s[1]));
      }
      assert s == [s[0]] + s[1..];
    }
  }

  /** No two positions of `s` share a value of `f`. */
  ghost predicate DistinctBy<T, U>(s: seq<T>, f: T -> U) {
    forall i, j :: 0 <= i < |s| && 0 <= j < |s| && i != j ==> f(s[i]) != f(s[j])
  }

  lemma {:induction false} InsertDistinct<T, U>(x: T, s: seq<T>, key: T -> Key, f: T -> U)
    requires DistinctBy(s, f)
    requires forall k :: 0 <= k < |s| ==> f(s[k]) != f(x)
    ensures DistinctBy(Insert(x, s, key), f)
  {
    if |s| > 0 && !AtLeast(key(x), key(s[0])) {
      InsertDistinct(x, s[1..], key, f);
      var t := Insert(x, s[1..], key);
      forall k | 0 <= k < |t|
        ensures f(t[k]) != f(s[0])
      {
        assert t[k] in multiset(t);
        if t[k] != x {
          assert t[k] in multiset(s[1..]);
          var m :| 1 <= m < |s| && s[m] == t[k];
        }
      }
    }
  }

  /** Sorting keeps a field that told the elements apart telling them apart. */
  lemma {:induction false} SortKeepsDistinct<T, U>(s: seq<T>, key: T -> Key, f: T -> U)
    requires DistinctBy(s, f)
    ensures DistinctBy(Sort(s, key), f)
  {
    if |s| > 0 {
      assert DistinctBy(s[1..], f);
      SortKeepsDistinct(s[1..], key, f);
      var t := Sort(s[1..], key);
      forall k | 0 <= k < |t|
        ensures f(t[k]) != f(s[0])
      {
        assert t[k] in multiset(s[1..]);
        var m :| 1 <= m < |s| && s[m] == t[k];
      }
      InsertDistinct(s[0], t, key, f);
    }
  }
}

=== FILE: types.dfy ===
/**
 * The records the recruiting assistant passes between its agents, its
 * orchestrator and its clients, and the static model price table.
 *
 * Fields the TypeScript types declare optional are `Option`s. Enumerations
 * that the code itself produces (statuses, agent roles, event types) are
 * datatypes; enumerations that only a language model fills in (question
 * priority, difficulty level) stay strings, because nothing checks them
 * at run time.
 */
module Types {
  import opened Wrappers

  /** Token counts of one model call; `cost` is in US dollars and may be absent. */
  datatype TokenUsage = TokenUsage(promptTokens: int, completionTokens: int, totalTokens: int, cost: Option<real>)

  datatype CandidateProfile = CandidateProfile(
    summary: string,
    idealBackground: string,
    requiredSkills: seq<string>,
    preferredSkills: seq<string>,
    experienceLevel: string,
    educationLevel: string,
    personalityTraits: seq<string>)

  /**
   * A clarifying question. The analyzer passes the model's question text,
   * category and priority through without filling them, so those may be
   * absent; the recruiter always fills them.
   */
  datatype ClarifyingQuestion = ClarifyingQuestion(
    id: string,
    question: Option<string>,
    category: Option<string>,
    priority: Option<string>,
    answer: Option<string>,
    isAnswered: bool)

  /** The priorities and difficulty levels the types declare; the model's strings are not checked against them. */
  const Priorities: seq<string> := ["high", "medium", "low"]
  const DifficultyLevels: seq<string> := ["easy", "moderate", "hard", "very_hard"]

  datatype AnalyzerOutput = AnalyzerOutput(
    standardizedTitle: string,
    technicalSkills: seq<string>,
    softSkills: seq<string>,
    experienceRequirements: seq<string>,
    clarifyingQuestions: seq<ClarifyingQuestion>,
    ambiguities: seq<string>)

  datatype Benchmarks = Benchmarks(salaryRange: string, experienceLevels: string, marketDemand: string)

  datatype Capability = Capability(capability: string, specifics: string, reason: string, verificationMethod: string)

  datatype CapabilityMatrix = CapabilityMatrix(mustHave: seq<Capability>, niceToHave: seq<string>)

  datatype ResearcherOutput = ResearcherOutput(
    similarTitles: seq<string>,
    industryBenchmarks: Benchmarks,
    idealCandidateProfile: CandidateProfile,
    capabilityMatrix: CapabilityMatrix)

  datatype RecruiterOutput = RecruiterOutput(
    answeredQuestions: seq<ClarifyingQuestion>,
    openQuestions: seq<ClarifyingQuestion>,
    satisfactionScore: real,
    satisfactionReason: string,
    candidateProfile: CandidateProfile,
    searchKeywords: seq<string>,
    difficultyLevel: string,
    difficultyReasoning: string)

  /** One round of the orchestrator: the outputs of its three agents, numbered from 1. */
  datatype Iteration = Iteration(
    iteration: nat,
    analyzerOutput: AnalyzerOutput,
    researcherOutput: ResearcherOutput,
    recruiterOutput: RecruiterOutput)

  datatype FinalOutput = FinalOutput(
    candidateProfile: CandidateProfile,
    searchKeywords: seq<string>,
    difficultyLevel: string,
    difficultyReasoning: string,
    clarifyingQuestions: seq<ClarifyingQuestion>)

  datatype AnalysisStatus = Processing | Completed | Failed

  /** Timestamps are opaque clock readings in milliseconds. */
  datatype AnalysisResult = AnalysisResult(
    id: string,
    requisitionId: string,
    iterations: seq<Iteration>,
    finalOutput: FinalOutput,
    status: AnalysisStatus,
    createdAt: int,
    completedAt: Option<int>)

  datatype BasicInfo = BasicInfo(title: string, department: string, location: string, jobType: string)

  datatype AdditionalContext = AdditionalContext(
    salary: Option<string>,
    teamSize: Option<int>,
    urgency: string,
    specialRequirements: Option<string>)

  /** The job description a client fills in, shared by the form and the server. */
  datatype FormData = FormData(
    basicInfo: BasicInfo,
    responsibilities: string,
    qualifications: string,
    additionalContext: AdditionalContext)

  datatype RequisitionStatus = Pending | RequisitionProcessing | RequisitionCompleted | NeedsClarification

  datatype Requisition = Requisition(
    id: string,
    form: FormData,
    status: RequisitionStatus,
    createdAt: int,
    updatedAt: int)

  /** The three agents the orchestrator runs, in the order it runs them. */
  datatype AgentRole = Analyzer | Researcher | Recruiter

  datatype Breakdown = Breakdown(analyzer: TokenUsage, researcher: TokenUsage, recruiter: TokenUsage) {

    function Get(role: AgentRole): TokenUsage {
      match role
      case Analyzer => analyzer
      case Researcher => researcher
      case Recruiter => recruiter
    }

    function Set(role: AgentRole, u: TokenUsage): (b: Breakdown)
      ensures b.Get(role) == u
      ensures forall other :: other != role ==> b.Get(other) == Get(other)
    {
      match role
      case Analyzer => this.(analyzer := u)
      case Researcher => this.(researcher := u)
      case Recruiter => this.(recruiter := u)
    }
  }

  /** The running usage totals of one analysis run. */
  datatype AnalysisTokenUsage = AnalysisTokenUsage(
    totalUsage: TokenUsage,
    totalCost: real,
    totalLatencyMs: int,
    breakdown: Breakdown,
    iterations: nat)

  /** Progress events broadcast by the server and kept by the client. */
  datatype EventType = AgentStart | AgentProgress | AgentComplete | IterationComplete | AnalysisComplete | Error | TokenUsageUpdate

  datatype ProgressEvent = ProgressEvent(eventType: EventType, agent: Option<AgentRole>, iteration: Option<int>, message: string)

  /** Dollar prices per million prompt and completion tokens. */
  datatype ModelPricing = ModelPricing(promptPricePerMillion: real, completionPricePerMillion: real)

  const FreeModel: string := "google/gemini-2.0-flash-exp:free"

  const ModelPricingTable: map<string, ModelPricing> := map[
    "google/gemini-3-flash-preview" := ModelPricing(0.075, 0.30),
    FreeModel := ModelPricing(0.0, 0.0),
    "openai/gpt-4o" := ModelPricing(2.5, 10.0),
    "openai/gpt-4o-mini" := ModelPricing(0.15, 0.60),
    "anthropic/claude-3-sonnet" := ModelPricing(3.0, 15.0),
    "anthropic/claude-3-haiku" := ModelPricing(0.25, 1.25)
  ]

  /** No listed model has a negative price, and the free model costs nothing. */
  lemma PricingTableWellFormed()
    ensures forall m :: m in ModelPricingTable ==>
      ModelPricingTable[m].promptPricePerMillion >= 0.0 && ModelPricingTable[m].completionPricePerMillion >= 0.0
    ensures FreeModel in ModelPricingTable && ModelPricingTable[FreeModel] == ModelPricing(0.0, 0.0)
    ensures |ModelPricingTable| == 6
  {
    assert ModelPricingTable.Keys == {"google/gemini-3-flash-preview", FreeModel, "openai/gpt-4o",
      "openai/gpt-4o-mini", "anthropic/claude-3-sonnet", "anthropic/claude-3-haiku"};
  }
}

=== FILE: usage.dfy ===
/**
 * Token accounting of one analysis run: how the orchestrator folds the usage
 * reported by each agent call into per-agent and overall totals.
 *
 * Token counts are integers; dollar costs are reals. An absent cost counts as
 * zero, as `cost || 0` does in the source.
 */
module Usage {
  import opened Wrappers
  import opened Types

  /** `u.cost || 0`. */
  function CostOf(u: TokenUsage): real {
    u.cost.GetOr(0.0)
  }

  /** `createEmptyUsage`: zero tokens at zero cost. */
  const EmptyUsage: TokenUsage := TokenUsage(0, 0, 0, Some(0.0))

  /** `mergeUsage`: adds the counts and the costs; the merged cost is always present. */
  function MergeUsage(a: TokenUsage, b: TokenUsage): (r: TokenUsage)
    ensures r.cost.Some?
  {
    TokenUsage(a.promptTokens + b.promptTokens,
               a.completionTokens + b.completionTokens,
               a.totalTokens + b.totalTokens,
               Some(CostOf(a) + CostOf(b)))
  }

  /** Usage with its absent cost made explicit, which is what merging does to every operand. */
  function Normalize(u: TokenUsage): TokenUsage {
    u.(cost := Some(CostOf(u)))
  }

  lemma MergeCommutes(a: TokenUsage, b: TokenUsage)
    ensures MergeUsage(a, b) == MergeUsage(b, a)
  {
  }

  lemma MergeAssociates(a: TokenUsage, b: TokenUsage, c: TokenUsage)
    ensures MergeUsage(MergeUsage(a, b), c) == MergeUsage(a, MergeUsage(b, c))
  {
  }

  /** The empty usage is a neutral element, up to making an absent cost explicit. */
  lemma MergeEmpty(u: TokenUsage)
    ensures MergeUsage(EmptyUsage, u) == Normalize(u)
    ensures MergeUsage(u, EmptyUsage) == Normalize(u)
  {
  }

  /** `initializeTokenUsage`: everything zero, no rounds started. */
  function InitializeTokenUsage(): (tu: AnalysisTokenUsage)
    ensures tu.iterations == 0 && tu.totalLatencyMs == 0 && tu.totalCost == 0.0
  {
    AnalysisTokenUsage(EmptyUsage, 0.0, 0, Breakdown(EmptyUsage, EmptyUsage, EmptyUsage), 0)
  }

  /**
   * `updateTokenUsage`: merges one call's usage into its agent's entry and into the total,
   * takes the total cost from the merged total, and adds the latency.
   */
  function UpdateTokenUsage(tu: AnalysisTokenUsage, role: AgentRole, usage: TokenUsage, latencyMs: int): (r: AnalysisTokenUsage)
    ensures r.breakdown.Get(role).promptTokens == tu.breakdown.Get(role).promptTokens + usage.promptTokens
    ensures r.breakdown.Get(role).completionTokens == tu.breakdown.Get(role).completionTokens + usage.completionTokens
    ensures r.breakdown.Get(role).totalTokens == tu.breakdown.Get(role).totalTokens + usage.totalTokens
    ensures CostOf(r.breakdown.Get(role)) == CostOf(tu.breakdown.Get(role)) + CostOf(usage)
    ensures forall other :: other != role ==> r.breakdown.Get(other) == tu.breakdown.Get(other)
    ensures r.totalUsage.promptTokens == tu.totalUsage.promptTokens + usage.promptTokens
    ensures r.totalUsage.completionTokens == tu.totalUsage.completionTokens + usage.completionTokens
    ensures r.totalUsage.totalTokens == tu.totalUsage.totalTokens + usage.totalTokens
    ensures r.totalCost == CostOf(tu.totalUsage) + CostOf(usage)
    ensures r.totalLatencyMs == tu.totalLatencyMs + latencyMs
    ensures r.iterations == tu.iterations
  {
    var b := tu.breakdown.Set(role, MergeUsage(tu.breakdown.Get(role), usage));
    var total := MergeUsage(tu.totalUsage, usage);
    tu.(breakdown := b, totalUsage := total, totalCost := CostOf(total), totalLatencyMs := tu.totalLatencyMs + latencyMs)
  }

  /** The totals are the merge of the three agents' entries, and the total cost is the total's cost. */
  ghost predicate Consistent(tu: AnalysisTokenUsage) {
    && tu.totalUsage == MergeUsage(MergeUsage(tu.breakdown.analyzer, tu.breakdown.researcher), tu.breakdown.recruiter)
    && tu.totalCost == CostOf(tu.totalUsage)
  }

  lemma InitialIsConsistent()
    ensures Consistent(InitializeTokenUsage())
  {
    var e := EmptyUsage;
    MergeEmpty(e);
    assert Normalize(e) == e;
  }

  /** Every update keeps the totals equal to the sum of the per-agent entries. */
  lemma UpdatePreservesConsistent(tu: AnalysisTokenUsage, role: AgentRole, usage: TokenUsage, latencyMs: int)
    requires Consistent(tu)
    ensures Consistent(UpdateTokenUsage(tu, role, usage, latencyMs))
  {
  }

  /** One reported agent call. */
  datatype Call = Call(role: AgentRole, usage: TokenUsage, latencyMs: int)

  /** The accounting state after a sequence of calls, applied in order. */
  function Replay(tu: AnalysisTokenUsage, calls: seq<Call>): AnalysisTokenUsage
    decreases |calls|
  {
    if |calls| == 0 then tu
    else
      var last := calls[|calls| - 1];
      UpdateTokenUsage(Replay(tu, calls[..|calls| - 1]), last.role, last.usage, last.latencyMs)
  }

  /** Replaying one more call is one more update. */
  lemma ReplaySnoc(tu: AnalysisTokenUsage, calls: seq<Call>, c: Call)
    ensures Replay(tu, calls + [c]) == UpdateTokenUsage(Replay(tu, calls), c.role, c.usage, c.latencyMs)
  {
    assert (calls + [c])[..|calls|] == calls;
  }

  /** Replaying two call lists one after the other is replaying their concatenation. */
  lemma {:induction false} ReplayAppend(tu: AnalysisTokenUsage, a: seq<Call>, b: seq<Call>)
    ensures Replay(tu, a + b) == Replay(Replay(tu, a), b)
    decreases |b|
  {
    if |b| == 0 {
      assert a + b == a;
    } else {
      var init := b[..|b| - 1];
      var last := b[|b| - 1];
      ReplayAppend(tu, a, init);
      assert a + b == (a + init) + [last];
      ReplaySnoc(tu, a + init, last);
      assert b == init + [last];
      ReplaySnoc(Replay(tu, a), init, last);
    }
  }

  /** The round counter plays no part in the accounting: it is carried through every update. */
  lemma {:induction false} ReplayIgnoresIterations(tu: AnalysisTokenUsage, calls: seq<Call>, n: nat)
    ensures Replay(tu.(iterations := n), calls) == Replay(tu, calls).(iterations := n)
    decreases |calls|
  {
    if |calls| > 0 {
      ReplayIgnoresIterations(tu, calls[..|calls| - 1], n);
    }
  }

  /** Plain sums over calls, as an independent reference for the accounting. */
  function SumPrompt(calls: seq<Call>): int
    decreases |calls|
  {
    if |calls| == 0 then 0 else SumPrompt(calls[..|calls| - 1]) + calls[|calls| - 1].usage.promptTokens
  }

  function SumCompletion(calls: seq<Call>): int
    decreases |calls|
  {
    if |calls| == 0 then 0 else SumCompletion(calls[..|calls| - 1]) + calls[|calls| - 1].usage.completionTokens
  }

  function SumTotal(calls: seq<Call>): int
    decreases |calls|
  {
    if |calls| == 0 then 0 else SumTotal(calls[..|calls| - 1]) + calls[|calls| - 1].usage.totalTokens
  }

  function SumCost(calls: seq<Call>): real
    decreases |calls|
  {
    if |calls| == 0 then 0.0 else SumCost(calls[..|calls| - 1]) + CostOf(calls[|calls| - 1].usage)
  }

  function SumLatency(calls: seq<Call>): int
    decreases |calls|
  {
    if |calls| == 0 then 0 else SumLatency(calls[..|calls| - 1]) + calls[|calls| - 1].latencyMs
  }

  /** The calls one agent made, in order. */
  function CallsOf(calls: seq<Call>, role: AgentRole): (r: seq<Call>)
    ensures |r| <= |calls|
    ensures forall k :: 0 <= k < |r| ==> r[k].role == role
    decreases |calls|
  {
    if |calls| == 0 then []
    else
      var rest := CallsOf(calls[..|calls| - 1], role);
      if calls[|calls| - 1].role == role then rest + [calls[|calls| - 1]] else rest
  }

  /** From a fresh start, the totals always equal the merge of the per-agent entries. */
  lemma {:induction false} ReplayConsistent(calls: seq<Call>)
    ensures Consistent(Replay(InitializeTokenUsage(), calls))
    decreases |calls|
  {
    if |calls| == 0 {
      InitialIsConsistent();
    } else {
      var last := calls[|calls| - 1];
      ReplayConsistent(calls[..|calls| - 1]);
      UpdatePreservesConsistent(Replay(InitializeTokenUsage(), calls[..|calls| - 1]), last.role, last.usage, last.latencyMs);
    }
  }

  /**
   * After any sequence of calls from a fresh start, the totals are the sums over all calls
   * and the total cost is the sum of the calls' costs.
   */
  lemma {:induction false} ReplayTotals(calls: seq<Call>)
    ensures var tu := Replay(InitializeTokenUsage(), calls);
      && tu.totalUsage.promptTokens == SumPrompt(calls)
      && tu.totalUsage.completionTokens == SumCompletion(calls)
      && tu.totalUsage.totalTokens == SumTotal(calls)
      && tu.totalCost == SumCost(calls)
      && CostOf(tu.totalUsage) == SumCost(calls)
      && tu.totalLatencyMs == SumLatency(calls)
      && tu.iterations == 0
    decreases |calls|
  {
    if |calls| > 0 {
      ReplayTotals(calls[..|calls| - 1]);
    }
  }

  /** After any sequence of calls from a fresh start, each agent's entry sums that agent's calls only. */
  lemma {:induction false} ReplayBreakdown(calls: seq<Call>, role: AgentRole)
    ensures var e := Replay(InitializeTokenUsage(), calls).breakdown.Get(role);
      && e.promptTokens == SumPrompt(CallsOf(calls, role))
      && e.completionTokens == SumCompletion(CallsOf(calls, role))
      && e.totalTokens == SumTotal(CallsOf(calls, role))
      && CostOf(e) == SumCost(CallsOf(calls, role))
    decreases |calls|
  {
    if |calls| > 0 {
      var init := calls[..|calls| - 1];
      var last := calls[|calls| - 1];
      ReplayBreakdown(init, role);
      if last.role == role {
        var mine := CallsOf(init, role) + [last];
        assert mine[..|mine| - 1] == CallsOf(init, role);
      }
    }
  }
}

/**
 * The OpenRouter provider's pure parts: which model name it sends, how it
 * reads the usage block of a response, and how it prices a call.
 */
module Provider {
  import opened Wrappers
  import opened JsString
  import opened Types

  const DefaultModel: string := "google/gemini-3-flash-preview"
  const RoutePrefix: string := "openrouter/"

  /** `getModel`: the configured model (the default when it is empty) without a leading `openrouter/`. */
  function GetModel(configured: string): (model: string)
    ensures configured == "" ==> model == DefaultModel
    ensures configured != "" && StartsWith(configured, RoutePrefix) ==> configured == RoutePrefix + model
    ensures configured != "" && !StartsWith(configured, RoutePrefix) ==> model == configured
  {
    DefaultModelIsBare();
    var m := if configured == "" then DefaultModel else configured;
    if StartsWith(m, RoutePrefix) then
      assert m == m[..|RoutePrefix|] + m[|RoutePrefix|..];
      m[|RoutePrefix|..]
    else m
  }

  lemma DefaultModelIsBare()
    ensures !StartsWith(DefaultModel, RoutePrefix)
  {
    assert DefaultModel[..|RoutePrefix|][0] == 'g';
  }

  /** The two model names the provider's tests try both come out as the bare model name. */
  lemma GetModelExamples()
    ensures GetModel("openrouter/google/gemini-3-flash-preview") == DefaultModel
    ensures GetModel(DefaultModel) == DefaultModel
    ensures GetModel("") == DefaultModel
  {
    DefaultModelIsBare();
    assert "openrouter/google/gemini-3-flash-preview" == RoutePrefix + DefaultModel;
  }

  /** Only one prefix is stripped: a doubly routed name keeps the second. */
  lemma GetModelStripsOnce()
    ensures GetModel("openrouter/openrouter/x") == "openrouter/x"
  {
    assert "openrouter/openrouter/x" == RoutePrefix + "openrouter/x";
  }

  /** Fallback prices per million tokens for a model the table does not list. */
  const FallbackPricing: ModelPricing := ModelPricing(0.5, 1.5)

  function PricingFor(model: string): ModelPricing {
    if model in ModelPricingTable then ModelPricingTable[model] else FallbackPricing
  }

  /** `calculateCost`: dollars for a call, at the table's prices per million tokens or the fallback. */
  function CalculateCost(usage: TokenUsage, model: string): (cost: real)
    ensures model in ModelPricingTable ==>
      cost * 1000000.0 == usage.promptTokens as real * ModelPricingTable[model].promptPricePerMillion
                          + usage.completionTokens as real * ModelPricingTable[model].completionPricePerMillion
    ensures model !in ModelPricingTable ==>
      cost * 1000000.0 == usage.promptTokens as real * 0.5 + usage.completionTokens as real * 1.5
  {
    var p := PricingFor(model);
    (usage.promptTokens as real * p.promptPricePerMillion) / 1000000.0
      + (usage.completionTokens as real * p.completionPricePerMillion) / 1000000.0
  }

  /** Pricing ignores the total count and the cost already attached. */
  lemma CostDependsOnlyOnPromptAndCompletion(a: TokenUsage, b: TokenUsage, model: string)
    requires a.promptTokens == b.promptTokens && a.completionTokens == b.completionTokens
    ensures CalculateCost(a, model) == CalculateCost(b, model)
  {
  }

  /** Non-negative counts never cost a negative amount, and the free model costs nothing. */
  lemma CostNonNegative(usage: TokenUsage, model: string)
    requires usage.promptTokens >= 0 && usage.completionTokens >= 0
    ensures CalculateCost(usage, model) >= 0.0
    ensures model == FreeModel ==> CalculateCost(usage, model) == 0.0
  {
    PricingTableWellFormed();
  }

  /** Pricing is additive: two calls on one model cost what their summed counts cost. */
  lemma CostAdditive(a: TokenUsage, b: TokenUsage, model: string)
    ensures CalculateCost(a, model) + CalculateCost(b, model) ==
      CalculateCost(TokenUsage(a.promptTokens + b.promptTokens, a.completionTokens + b.completionTokens, 0, None), model)
  {
  }

  /** The usage block of a provider response; each count may be missing. */
  datatype RawUsage = RawUsage(promptTokens: Option<int>, completionTokens: Option<int>, totalTokens: Option<int>)

  /** `n || 0` on a possibly missing count. */
  function CountOr0(n: Option<int>): int {
    n.GetOr(0)
  }

  /**
   * The usage `completeWithUsage` reports: missing counts are zero, the block itself may be
   * missing, and the cost is computed from the counts and the model.
   */
  function ExtractUsage(raw: Option<RawUsage>, model: string): (u: TokenUsage)
    ensures raw.None? ==> u.promptTokens == 0 && u.completionTokens == 0 && u.totalTokens == 0 && u.cost == Some(0.0)
    ensures raw.Some? && raw.value.promptTokens.Some? ==> u.promptTokens == raw.value.promptTokens.value
    ensures raw.Some? && raw.value.completionTokens.Some? ==> u.completionTokens == raw.value.completionTokens.value
    ensures raw.Some? && raw.value.totalTokens.Some? ==> u.totalTokens == raw.value.totalTokens.value
    ensures raw.Some? && raw.value.promptTokens.None? ==> u.promptTokens == 0
    ensures raw.Some? && raw.value.completionTokens.None? ==> u.completionTokens == 0
    ensures raw.Some? && raw.value.totalTokens.None? ==> u.totalTokens == 0
    ensures u.cost == Some(CalculateCost(u, model))
  {
    var r := raw.GetOr(RawUsage(None, None, None));
    var counts := TokenUsage(CountOr0(r.promptTokens), CountOr0(r.completionTokens), CountOr0(r.totalTokens), None);
    counts.(cost := Some(CalculateCost(counts, model)))
  }

  /** `choices[0]?.message?.content || ''`. */
  function ResponseContent(firstChoiceContent: Option<string>): (content: string)
    ensures firstChoiceContent.Some? ==> content == firstChoiceContent.value
    ensures firstChoiceContent.None? ==> content == ""
  {
    firstChoiceContent.GetOr("")
  }
}

=== FILE: wrappers.dfy ===
/** Failure-compatible wrappers shared by every module of the model. */
module Wrappers {

  /** A value that may be absent: JavaScript `undefined` for a missing key. */
  datatype Option<+T> = None | Some(value: T) {

    predicate IsFailure() {
      None?
    }

    function PropagateFailure<U>(): Option<U>
      requires None?
    {
      None
    }

    function Extract(): T
      requires Some?
    {
      value
    }

    /** The JavaScript `x ?? d` operator: the default only when the value is absent. */
    function GetOr(default: T): T {
      match this
      case Some(v) => v
      case None => default
    }
  }

  /** A computation that either returned a value or threw an error carrying a message. */
  datatype Result<+R, +E> = Ok(value: R) | Err(error: E) {

    predicate IsFailure() {
      Err?
    }

    function PropagateFailure<U>(): Result<U, E>
      requires Err?
    {
      Err(error)
    }

    function Extract(): R
      requires Ok?
    {
      value
    }
  }
}
